=== FILE: README.md ===
# bcconfig core in Dafny

A model of the configuration core of bcconfig, a Java library that reads
key/value configuration, resolves `${name}` references in the values, and
layers typed accessors (booleans, numbers, arrays, collections, maps, times)
on top. Both source trees are modelled:

- the current tree (`src/main/java/com/bc/config`): `ReferenceResolverImpl`,
  `AbstractConfig`, `ConfigImpl` (over `Properties`), `MapConfig` (over a `Map`),
  `AbstractCompositeConfig`/`CompositeConfig` (a list of child configs) and
  `ConfigGroupImpl`;
- the legacy tree (`src/com/bc/config`): `AbstractConfig` with its own
  resolver, `ConfigImpl`, the read-only `ConfigSubset`, a `CompositeConfig`
  over the children's `Properties`, `QueryParametersConverter` and
  `ConfigGroupImpl`.

Java objects that are shared and mutated (`Properties`, `HashMap`) live in a
`Stores.Heap` and configs hold their ids. So "changes to the returned data are
reflected in this config" and "a composite's data is a copy" become
statements about which heap ids a write touches. `Properties` defaults are a
chain of maps (`Stores.Layers`). Reads fall through the chain. Writes, `size`
and `equals` see only the own entries, while `stringPropertyNames` sees both.

Reads resolve references by inserting the found value literally
(`Resolver.Resolve`). The code hands the value to `Matcher.appendReplacement`
instead, which reads a `$` in it as a group reference (backslashes are
already turned into `/`). That version is modelled too
(`Resolver.ResolveAsWritten`), and the two agree whenever no found value
holds `$` (see Findings).

A composite read with a default likewise follows the intended composite
(`Configs.DoGet`, `Legacy.DoGetProperty`): the children are asked without
the default, and the default is given only when none holds the key. The
code hands the default to every child, so with a non-null default the first
child always answers (a composite with no children gives the default);
that version is modelled as `Configs.DoGetAsWritten` and
`Legacy.DoGetPropertyAsWritten` (see Findings). The two agree for a null
default, and on configs that are not composites.

Files, one module each:

| file | module | what it holds |
|---|---|---|
| wrappers.dfy | Wrappers | `Option`, `Result`, and `Fault`, the exceptions the code throws |
| text.dfy | Text | trimming, `String.split` for a one-character separator, joining |
| placeholder.dfy | Placeholder | the reference pattern `\$\{(.+?)\}` and how `Matcher.find` cuts a text into literals and references |
| replacement.dfy | Replacement | how `Matcher.appendReplacement` reads `$` and `\` in a replacement |
| resolver.dfy | Resolver | reference resolution over an ordered chain of sources; the corrected and the as-written versions |
| stores.dfy | Stores | `Properties`/`Map` stores with defaults, and the heap |
| values.dfy | Values | `long` text and parsing, booleans, arrays and collections, and time text |
| subsets.dfy | Subsets | the projection `ConfigSubset`'s constructor computes |
| query.dfy | Query | `QueryParametersConverter` (`toMap`, `toQueryString`) |
| configs.dfy | Configs | current-tree configs: `get`/`set`, composites, `getData`, `subset` |
| accessors.dfy | Accessors | current-tree typed accessors |
| equality.dfy | Equality | `AbstractConfig.equals` in both trees |
| legacy.dfy | Legacy | the legacy configs, their composite and subset |
| groups.dfy | Groups | `ConfigGroupImpl` in both trees |

Paths below are relative to the repository root. A file name that exists in
both trees is always given with its full path.

## Model

| member | source | states |
|---|---|---|
| Placeholder.MatchAtSound | src/main/java/com/bc/config/ReferenceResolverImpl.java:42-44 | a match at position i is `${`, a non-empty name without line terminators, and the first `}` after the name's first character; when there is no match, no such closing brace exists |
| Placeholder.MatchAtCloses | src/main/java/com/bc/config/ReferenceResolverImpl.java:42-44 | conversely, every such `${name}` at i is the match found at i |
| Placeholder.FindFromIsLeftmost | src/main/java/com/bc/config/ReferenceResolverImpl.java:76-78 | `find` returns the leftmost match after the previous one; nothing before it matches |
| Placeholder.ParseFromShape | src/main/java/com/bc/config/ReferenceResolverImpl.java:76-97 | the cut alternates literal runs and references, and every reference is a capturable name |
| Placeholder.UnparseParse | src/main/java/com/bc/config/ReferenceResolverImpl.java:76-104 | cutting loses nothing: putting the literal runs and `${name}` texts back together gives the input |
| Placeholder.UnparseParseFrom | src/main/java/com/bc/config/ReferenceResolverImpl.java:76-104 | from any position the scan starts at, the cut of the rest of the text puts back together to exactly that rest |
| Placeholder.EmptyBracesNeverMatch | src/main/java/com/bc/config/ReferenceResolverImpl.java:43 | `${}` is not a reference, because the group needs one character |
| Placeholder.NestedBracesCaptureToFirstClose | src/main/java/com/bc/config/ReferenceResolverImpl.java:43 | the lazy group stops at the first `}`: `${a${b}}` references `a${b` and leaves `}` |
| Placeholder.DollarBeforeReference | src/main/java/com/bc/config/ReferenceResolverImpl.java:43 | in `$${name}` the first `$` is literal text and the match starts at the second |
| Resolver.FirstHitIsFirst | src/main/java/com/bc/config/ReferenceResolverImpl.java:79-86 | a name's value comes from the first source that has it, and no earlier source has it |
| Resolver.LookupOrder | src/main/java/com/bc/config/ReferenceResolverImpl.java:79-86 | the context wins over the environment, and the environment wins over the system properties |
| Resolver.LegacyLookupOrder | src/com/bc/config/AbstractConfig.java:92-96 | the legacy resolver asks the config's raw value and then the system properties; the environment is never asked |
| Resolver.SlashPathsAt | src/main/java/com/bc/config/ReferenceResolverImpl.java:116-120 | bug fix 001 turns every `\` of a substituted value into `/` and changes nothing else |
| Resolver.UnresolvedIsIdentity | src/main/java/com/bc/config/ReferenceResolverImpl.java:98-104 | when no reference is found in any source, the output is the input |
| Resolver.PlainTextIsFixedPoint | src/main/java/com/bc/config/ReferenceResolverImpl.java:76-104 | text without `$` resolves to itself |
| Resolver.ResolveSingle | src/main/java/com/bc/config/ReferenceResolverImpl.java:76-104 | `${k}` becomes k's first value with slashes fixed, or stays as it is when no source has k |
| Resolver.SlashPathsKeeps | src/main/java/com/bc/config/ReferenceResolverImpl.java:87-95 | the slash fix leaves a value without backslashes unchanged |
| Resolver.ResolveCongruent | src/main/java/com/bc/config/ReferenceResolverImpl.java:79-86 | two chains that answer alike for every name resolve every input alike |
| Resolver.IdentityContextStripsBraces | src/main/java/com/bc/config/ReferenceResolverImpl.java:38-40 | the no-argument resolver's identity context turns `${x}` into `x` |
| Resolver.BackslashesBecomeSlashes | src/main/java/com/bc/config/ReferenceResolverImpl.java:87-95 | a substituted value arrives with no backslash left and its length unchanged (`C:\U` as `C:/U`), while text without `$` keeps its own backslashes |
| Resolver.SubstitutedTextIsNotRescanned | src/main/java/com/bc/config/ReferenceResolverImpl.java:76-97 | one pass: over `p={x}` and `x=v`, `$${p}` reads `${x}` although `${x}` alone reads `v`, and the Java loop gives the same `${x}` since `{x}` holds no `$` |
| Resolver.ResolveAfterDollar | src/main/java/com/bc/config/ReferenceResolverImpl.java:76-104 | the `$` before `${k}` is copied as text and the reference after it is resolved, or kept when no source has k |
| Resolver.AfterDollarAsWritten | src/main/java/com/bc/config/ReferenceResolverImpl.java:76-104 | on `$${k}` the Java loop succeeds with the corrected result when k's value holds no `$` |
| Resolver.AsWrittenAgreesWithoutDollars | src/main/java/com/bc/config/ReferenceResolverImpl.java:95 | when no source value contains `$` or `\`, `appendReplacement` inserts the value literally, so the written and the corrected resolver agree |
| Resolver.AsWrittenAgreesOnFoundValues | src/main/java/com/bc/config/ReferenceResolverImpl.java:76-104 | the Java loop succeeds and agrees with literal insertion on every input whose found values hold no `$`, whatever else the chain holds |
| Resolver.SingleAsWritten | src/main/java/com/bc/config/ReferenceResolverImpl.java:76-104 | on `${k}` the Java loop agrees with literal insertion when k's value holds no `$` |
| Resolver.ChainedReferenceThrows | src/main/java/com/bc/config/ReferenceResolverImpl.java:95 | a value that is itself `${f}` makes the written resolver throw, while the corrected one inserts it |
| Replacement.ExpandPlain | src/main/java/com/bc/config/ReferenceResolverImpl.java:95 | a replacement without `$` or `\` is copied verbatim |
| Replacement.NamedReferenceThrows | src/main/java/com/bc/config/ReferenceResolverImpl.java:95 | `${` in a replacement is a named-group reference, and the pattern has no named group, so it throws |
| Replacement.GroupReferences | src/main/java/com/bc/config/ReferenceResolverImpl.java:95 | `$1` inserts the name, `$0` the whole match, and `$2` throws, because the pattern has one group |
| Stores.LookupOr | src/main/java/com/bc/config/ConfigImpl.java:46-50 | an own entry answers first; a name held only by the defaults answers through them; the default is given exactly for a key that is no name, so the answer is null exactly when the key is no name and the default is null |
| Stores.LookupNames | src/main/java/com/bc/config/ConfigImpl.java:63-66 | a key has a value exactly when it is among `stringPropertyNames` |
| Stores.PutThenLookup | src/main/java/com/bc/config/ConfigImpl.java:52-56 | `setProperty` makes the key read the new value and leaves every other key, adding the key to the names and counting it once |
| Stores.DefaultsAreNotOwnEntries | src/main/java/com/bc/config/ConfigImpl.java:58-66 | a key that only the defaults hold reads and is named, but `size` does not count it and `setProperty` answers null for it |
| Stores.WriteIsSharedByHolders | src/main/java/com/bc/config/ConfigImpl.java:39-43 | a write through a shared store is seen by every holder of that store and by no holder of another |
| Values.ParseFormatLong | src/main/java/com/bc/config/AbstractConfig.java:266-282 | the text `""+l` written by `setLong` parses back to l for every long |
| Values.ParseLongRejects | src/main/java/com/bc/config/AbstractConfig.java:319-326 | `Long.valueOf` refuses the empty text, a lone sign, stray letters and inner blanks, and accepts a leading `+` |
| Values.LongValueOf | src/main/java/com/bc/config/AbstractConfig.java:319-326 | null gives the default; any other text either parses to a long in range or throws `NumberFormatException` |
| Values.LongValueOfPresent | src/main/java/com/bc/config/AbstractConfig.java:319-326 | a text whose trimmed form is `""+n` gives n |
| Values.BooleanOrNull | src/main/java/com/bc/config/AbstractConfig.java:207-211 | `getBoolean(key)` is null exactly when absent; when present it is what the `boolean`-default variant reads, whichever default that has, and it agrees with the `Boolean`-default variant wherever that one answers |
| Values.StrictBoolean | src/main/java/com/bc/config/AbstractConfig.java:220-224 | the `Boolean`-default variant answers something other than its default only for the trimmed texts `true` and `false`, and there it agrees with the lenient reading |
| Values.LenientBoolean | src/main/java/com/bc/config/AbstractConfig.java:226-230 | the `boolean`-default variant uses the default only when absent; a present `true` reads true, and any present text whose trimmed length is not 4 (`false`, junk, blanks) reads false |
| Values.BooleanRoundTrip | src/main/java/com/bc/config/AbstractConfig.java:201-230 | the text `setBoolean` writes reads back as the same boolean through all three getters |
| Values.StrictAndLenientDiffer | src/main/java/com/bc/config/AbstractConfig.java:220-230 | a case variant of `true` other than `true` itself, such as `TRUE`, gives the strict getter's default but is true for the lenient getter |
| Values.ArrayText | src/main/java/com/bc/config/AbstractConfig.java:440-452 | `setArray` writes nothing exactly for no items or one empty item; for items free of the separator the written text holds a separator exactly when there are two items or more |
| Values.CollectionText | src/main/java/com/bc/config/AbstractConfig.java:484-494 | `setCollection` writes every item followed by the separator, and writes nothing for an empty collection |
| Values.ArrayOrNull | src/main/java/com/bc/config/AbstractConfig.java:463-466 | `getArray(key, sep)` is null exactly when the value is absent |
| Values.ArrayOr | src/main/java/com/bc/config/AbstractConfig.java:473-477 | the default when absent or empty; otherwise the same array `getArray(key, sep)` gives, every item free of the separator, and a text without the separator as its only item |
| Values.ArrayRoundTrip | src/main/java/com/bc/config/AbstractConfig.java:440-477 | for a separator `split` reads literally, an array whose last item is not empty and whose items avoid the separator reads back as written |
| Values.CollectionRoundTrip | src/main/java/com/bc/config/AbstractConfig.java:484-508 | a collection reads back as written; the trailing separator is dropped by `split` |
| Values.EmptyJoinWritesNothing | src/main/java/com/bc/config/AbstractConfig.java:440-452 | `[]` and `[""]` write nothing, while `["", ""]` writes `,` |
| Values.NormaliseTime | src/main/java/com/bc/config/AbstractConfig.java:419-424 | null or empty time text gives null; otherwise the text is kept as a prefix and grows by nothing or by exactly ` 00:00:00`, which happens only to a text longer than three UTF-16 units without `:`, and the result is always in the form a second pass keeps |
| Values.NormaliseTimeIdempotent | src/main/java/com/bc/config/AbstractConfig.java:419-424 | normalising twice is normalising once |
| Subsets.SubsetKeysComeFromPrefixedNames | src/com/bc/config/ConfigSubset.java:55-86 | every subset key is non-empty, is the rename of a parent name under `name+sep`, and holds that parent name's value |
| Subsets.PrefixedNamesAreCopied | src/com/bc/config/ConfigSubset.java:55-86 | every parent name under the prefix that renames to something is in the subset |
| Subsets.ProjectEntries | src/com/bc/config/ConfigSubset.java:55-86 | when two names rename alike, the one visited last wins |
| Subsets.RenameDropsFirstField | src/com/bc/config/ConfigSubset.java:61-75 | renaming drops only the first field: `head<sep>rest` becomes `rest` |
| Subsets.BarePrefixIsSkipped | src/com/bc/config/ConfigSubset.java:61-81 | a key that is only `name+sep` renames to nothing and is skipped |
| Subsets.OnlyTheFirstSegmentIsDropped | src/com/bc/config/ConfigSubset.java:61-75 | for any segments, under `a.b` the key `a.b.c` matches the prefix yet becomes `b.c`: a dotted subset name is not stripped as a whole |
| Subsets.DocumentedExample | src/main/java/com/bc/config/AbstractConfig.java:175-190 | `name.first=John`, `name.last=Doe` under (`name`, `.`) give `first=John`, `last=Doe` |
| Query.ToMap | src/com/bc/config/QueryParametersConverter.java:79-83 | a null input throws `NullPointerException`, and any other input gives a map |
| Query.ClampIndex | src/com/bc/config/QueryParametersConverter.java:120-125 | the separator index is clamped into `0 .. parts-2` and is unchanged when already inside it |
| Query.ClampIsSticky | src/com/bc/config/QueryParametersConverter.java:120-125 | the clamped index is stored back into the converter and used for the next pair |
| Query.SeparatorIndexIsClampedAndKept | src/com/bc/config/QueryParametersConverter.java:120-143 | with parts a,b,c, index 5 divides as `a=b : c` and index -3 as `a : b=c` |
| Query.PairWithoutValue | src/com/bc/config/QueryParametersConverter.java:107-115 | `key=` is skipped unless empty strings are allowed, and then it maps to `""` |
| Query.DecodeCleanPair | src/com/bc/config/QueryParametersConverter.java:116-118 | a trimmed `key=value` pair without further `=` reads back as that key and value |
| Query.QueryRoundTrip | src/com/bc/config/QueryParametersConverter.java:79-201 | `toMap(toQueryString(m))` gives m's entries back (a later duplicate wins) when keys and values are trimmed, non-empty values and free of `=` and the separator |
| Configs.NewConfigImpl | src/main/java/com/bc/config/ConfigImpl.java:29-32 | a null `Properties` throws `NullPointerException`; otherwise a writable `ConfigImpl` over that store with the given time pattern |
| Configs.NewMapConfig | src/main/java/com/bc/config/MapConfig.java:37-40 | a null map throws; otherwise a `MapConfig` over it |
| Configs.NewConfigImplOf | src/main/java/com/bc/config/ConfigImpl.java:25-27 | `new ConfigImpl(data)` throws for a null store, and otherwise is a writable `ConfigImpl` over it with the pattern `EEE MMM dd HH:mm:ss z yyyy` |
| Configs.NewMapConfigOf | src/main/java/com/bc/config/MapConfig.java:33-35 | `new MapConfig(data)` throws for a null map, and otherwise is a `MapConfig` over it with the pattern `EEE MMM dd HH:mm:ss z yyyy` |
| Configs.OneArgumentConstructorsUseDefaultPattern | src/main/java/com/bc/config/ConfigImpl.java:25-27 | a one-argument constructor builds exactly what the two-argument one builds from the default pattern, so its config always has a pattern |
| Configs.NamesAreReadable | src/main/java/com/bc/config/AbstractCompositeConfig.java:115-122 | a name is in `getNames` exactly when its raw read is not null, for stores and composites alike |
| Configs.FirstChildNone | src/main/java/com/bc/config/AbstractCompositeConfig.java:82-92 | the composite's read over its children is null if and only if every child's read is null |
| Configs.FirstChildWins | src/main/java/com/bc/config/AbstractCompositeConfig.java:82-92 | when the composite's read is a value, some child reads that value and every earlier child reads null |
| Configs.DefaultIsNeverNull | src/main/java/com/bc/config/AbstractConfig.java:147-151 | `get(key, default)` with a non-null default is never null |
| Configs.DefaultIsLastResort | src/main/java/com/bc/config/AbstractCompositeConfig.java:82-92 | the default is given only when no child holds the key; otherwise the held value is given |
| Configs.DoGetAsWritten | src/main/java/com/bc/config/AbstractCompositeConfig.java:82-92 | with a null default, the written composite read is the intended one, and a `ConfigImpl` or `MapConfig` reads the same either way |
| Configs.DefaultStopsAtFirstChild | src/main/java/com/bc/config/AbstractCompositeConfig.java:82-92 | as written, a non-null default is handed to the first child, which always answers |
| Configs.DefaultHidesLaterChildren | src/main/java/com/bc/config/AbstractCompositeConfig.java:82-92 | with children `{}` and `{k: v}`, the written `get("k", "d")` gives `d` while the intended one gives `v` |
| Configs.ChainLookup | src/main/java/com/bc/config/AbstractConfig.java:59-62 | a reference is looked up in the config's own raw values first, then in the environment and the system properties |
| Configs.GetOfReference | src/main/java/com/bc/config/AbstractConfig.java:141-145 | a value `${k}` reads as k's raw value with slashes fixed; when that value holds no `$`, Java's `appendReplacement` gives the same text |
| Configs.PlainReadsItself | src/main/java/com/bc/config/AbstractConfig.java:141-145 | a raw value without `$` is read as it is stored |
| Configs.CompositeOfReference | src/main/java/com/bc/config/AbstractCompositeConfig.java:82-92 | when the only child reads a key as `${k}` and reads k as v, the composite reads the key as v with slashes fixed, and the composite's own `appendReplacement` agrees when v holds no `$` |
| Configs.GetFrame | src/main/java/com/bc/config/AbstractConfig.java:141-151 | a read depends only on the stores the config refers to |
| Configs.LiveDataIsShared | src/main/java/com/bc/config/ConfigImpl.java:39-43 | `getData` of a `ConfigImpl` or `MapConfig` is its live store: writes into it show in the config and the config's writes show in it |
| Configs.SnapshotIsIndependent | src/main/java/com/bc/config/CompositeConfig.java:71-80 | a composite's `getData` is a new store, and writing into it changes no read of the composite |
| Configs.MergedCopyHoldsLastChild | src/main/java/com/bc/config/CompositeConfig.java:71-80 | the copy holds every name of the composite, with the resolved value of the last child holding it, and has no defaults |
| Configs.MergedEntries | src/main/java/com/bc/config/CompositeConfig.java:71-80 | the merged entries are exactly the children's names, and each comes from the last child that holds it |
| Configs.Set | src/main/java/com/bc/config/AbstractConfig.java:153-165 | a write changes only stores the config refers to and allocates none |
| Configs.WriteGoesToFirstOwner | src/main/java/com/bc/config/AbstractCompositeConfig.java:94-104 | a composite write is the write of the first child whose names hold the key |
| Configs.WriteWithoutOwnerIsIgnored | src/main/java/com/bc/config/AbstractCompositeConfig.java:94-104 | when no child holds the key, nothing changes and the answer is null |
| Configs.StoreWriteReadsBack | src/main/java/com/bc/config/ConfigImpl.java:52-56 | a store write reads back, leaves other keys alone and answers the previous own entry |
| Configs.ReadOnlyRefusesWrites | src/com/bc/config/ConfigSubset.java:91-94 | a subset throws "Read only" on every write |
| Configs.WrittenTextReadsBack | src/main/java/com/bc/config/AbstractConfig.java:141-165 | text without `$` written into a writable config reads back unchanged |
| Configs.FirstClashFindsShared | src/main/java/com/bc/config/AbstractCompositeConfig.java:58-67 | the duplicate check finds a clash exactly when two children share a name |
| Configs.ConstructorRejectsSharedNames | src/main/java/com/bc/config/AbstractCompositeConfig.java:54-71 | without `allowDuplicates`, the constructor succeeds exactly when the children's names are pairwise disjoint; with it, always |
| Configs.NewComposite | src/main/java/com/bc/config/AbstractCompositeConfig.java:54-71 | a failure is always `DuplicateNames` with a non-empty set of names |
| Configs.SizeCountsNames | src/main/java/com/bc/config/AbstractCompositeConfig.java:106-113 | without defaults and shared names, `size` is the number of names |
| Configs.SharedNameCountsTwice | src/main/java/com/bc/config/AbstractCompositeConfig.java:106-122 | with duplicates allowed, a shared name is one name but counts twice in `size` |
| Configs.SubsetReadsParent | src/com/bc/config/ConfigSubset.java:35-89 | when the constructor does not throw, a subset key reads the parent's resolved value of a prefixed name that renames to it, and every such name is present |
| Configs.SubsetIsSnapshot | src/com/bc/config/ConfigSubset.java:35-94 | when the constructor does not throw, a subset refuses writes, and later writes to the parent do not reach it |
| Configs.Subset | src/main/java/com/bc/config/AbstractConfig.java:195-199 | the subset throws `PatternSyntaxException` exactly when the separator is `[`, `\` or `^` and some parent name starts with the prefix; otherwise it is a new read-only store with the parent's time pattern |
| Configs.CompositeResolvesTwice | src/main/java/com/bc/config/AbstractCompositeConfig.java:82-92 | a composite resolves again what its child has resolved: over a child holding `a=$${p}`, `p={x}`, `x=v`, the child reads `a` as `${x}` (as the Java loop does, since `{x}` holds no `$`) and the composite reads `a` as `v` |
| Configs.SingleChildRaw | src/main/java/com/bc/config/AbstractCompositeConfig.java:82-92 | a one-child composite's raw read is the child's resolved read |
| Accessors.Wrap | src/main/java/com/bc/config/AbstractConfig.java:238-264 | `shortValue`/`intValue` and the casts keep the value modulo 2^16 or 2^32 in the signed range, and do not change values already in range |
| Accessors.NarrowingWraps | src/main/java/com/bc/config/AbstractConfig.java:255-264 | 2^31 reads as an int -2^31, and 70000 as a short 4464 |
| Accessors.IntWriteReadsBack | src/main/java/com/bc/config/AbstractConfig.java:249-264 | an int written with `setInt` reads back through `getInt` |
| Accessors.AbsentKeyGivesDefaults | src/main/java/com/bc/config/AbstractConfig.java:207-508 | for an absent key, every getter gives null or its default, except `getCollection(key)`, which throws |
| Accessors.StringDefaultIsResolved | src/main/java/com/bc/config/AbstractConfig.java:147-151 | the default given to `get(key, default)` is resolved like a stored value |
| Accessors.CollectionOrAgrees | src/main/java/com/bc/config/AbstractConfig.java:499-508 | for a present, non-empty value, both `getCollection` variants split it on `,` |
| Accessors.BooleanWriteReadsBack | src/main/java/com/bc/config/AbstractConfig.java:201-230 | a boolean written with `setBoolean` reads back through every boolean getter |
| Accessors.SetBooleanAnswersPrevious | src/main/java/com/bc/config/AbstractConfig.java:201-205 | `setBoolean` answers the previous own entry read leniently, or null |
| Accessors.LongWriteReadsBack | src/main/java/com/bc/config/AbstractConfig.java:266-282 | a long written with `setLong` reads back through both `getLong`s |
| Accessors.SetLongWritesBeforeParsing | src/main/java/com/bc/config/AbstractConfig.java:266-270 | when the previous value is not a number, `setLong` has already written when it throws |
| Accessors.ArrayWriteReadsBack | src/main/java/com/bc/config/AbstractConfig.java:440-477 | for a separator `split` reads literally, an array written with `setArray` reads back through both `getArray`s |
| Accessors.EmptyArrayWritesNothing | src/main/java/com/bc/config/AbstractConfig.java:440-452 | an array whose joined text is empty leaves the heap as it was and answers null, even for a subset |
| Accessors.CollectionWriteReadsBack | src/main/java/com/bc/config/AbstractConfig.java:484-508 | a collection written with `setCollection` reads back through both `getCollection`s |
| Accessors.GetMapReadsQuery | src/main/java/com/bc/config/AbstractConfig.java:363-367 | `getMap` is the query converter's map of the resolved text |
| Accessors.MapTextReadsBack | src/main/java/com/bc/config/AbstractConfig.java:356-361 | `setMap` stores the map's query string |
| Accessors.MapWriteReadsBack | src/main/java/com/bc/config/AbstractConfig.java:356-367 | a map with clean entries written with `setMap` reads back through `getMap` |
| Equality.EqualsAsWritten | src/main/java/com/bc/config/AbstractConfig.java:518-537 | the same object is equal and null is not; the only failure is `ClassCastException` |
| Equality.Equals | src/main/java/com/bc/config/AbstractConfig.java:518-537 | equal exactly when it is the same object, or the other has the same class, time pattern and data |
| Equality.AsWrittenThrowsOutsideConfigImpl | src/com/bc/config/AbstractConfig.java:481-500 | two distinct objects of one class other than `ConfigImpl`/`ConfigSubset` make `equals` throw |
| Equality.AsWrittenAgreesOtherwise | src/main/java/com/bc/config/AbstractConfig.java:518-537 | wherever the cast succeeds or is not reached, the written `equals` answers the intended one |
| Equality.EqualsIsEquivalence | src/main/java/com/bc/config/AbstractConfig.java:518-537 | the intended equality is reflexive, symmetric and transitive |
| Equality.MapConfigsCannotBeCompared | src/main/java/com/bc/config/AbstractConfig.java:518-537 | two `MapConfig`s over equal maps make the written method throw while the intended one answers true; two composites throw too |
| Equality.EqualityIgnoresDefaults | src/main/java/com/bc/config/AbstractConfig.java:518-537 | configs whose own entries agree are equal even though their defaults make them read differently |
| Equality.SelfComparison | src/main/java/com/bc/config/AbstractConfig.java:518-537 | comparing a config with an equal copy throws exactly when it is not a `ConfigImpl` |
| Legacy.NewConfigImpl | src/com/bc/config/ConfigImpl.java:25-28 | a null `Properties` throws; otherwise a config over that store |
| Legacy.NamesAreReadable | src/com/bc/config/CompositeConfig.java:138-145 | a name is in `stringPropertyNames` exactly when its raw read is not null |
| Legacy.DefaultIsLastResort | src/com/bc/config/CompositeConfig.java:88-98 | the default is given only when no store holds the key |
| Legacy.DoGetPropertyAsWritten | src/com/bc/config/CompositeConfig.java:88-98 | with a null default, the written composite read is the intended one, and a legacy `ConfigImpl` reads the same either way |
| Legacy.DefaultStopsAtFirstStore | src/com/bc/config/CompositeConfig.java:88-98 | as written, the first store always answers a read with a default |
| Legacy.DefaultHidesLaterStores | src/com/bc/config/CompositeConfig.java:88-98 | with stores `{}` and `{k: v}`, the written `getProperty("k", "d")` gives `d` while the intended one gives `v` |
| Legacy.CompositeResolvesOnce | src/com/bc/config/AbstractConfig.java:74-119 | the legacy composite reads raw store values and resolves once: over a store holding `a=$${p}`, `p={x}`, `x=v` it reads `a` as `${x}`, and the legacy loop gives the same `${x}` |
| Legacy.GetOfReference | src/com/bc/config/AbstractConfig.java:74-119 | a legacy config whose raw value is `${name}` reads as name's raw value with slashes fixed; when that value holds no `$`, the legacy `appendReplacement` gives the same text |
| Legacy.SetProperty | src/com/bc/config/CompositeConfig.java:100-110 | a write fails exactly for a subset, and changes only the config's own stores |
| Legacy.WriteGoesToFirstHolder | src/com/bc/config/CompositeConfig.java:100-110 | a composite write lands in the first store whose names hold the key and answers its previous own entry |
| Legacy.CompositeWritesPastReadOnly | src/com/bc/config/CompositeConfig.java:100-110 | a composite writes straight into a subset's store, which refuses the same write itself |
| Legacy.GetProperties | src/com/bc/config/ConfigImpl.java:35-44 | `getProperties` of a `ConfigImpl` is its live store; a composite's is a newly allocated store |
| Legacy.LiveAndCopiedProperties | src/com/bc/config/CompositeConfig.java:118-127 | writing into a composite's `getProperties` copy changes no read of the composite |
| Legacy.MergedRawEntries | src/com/bc/config/CompositeConfig.java:118-127 | the copy holds every name, with the raw value of the last store holding it |
| Legacy.PropsOf | src/com/bc/config/CompositeConfig.java:68-86 | the composite takes one store per child, in order, and a `ConfigImpl` child's own store |
| Legacy.FirstClashFindsShared | src/com/bc/config/CompositeConfig.java:68-86 | the duplicate check finds a clash exactly when two stores share a name |
| Legacy.ConstructorRejectsSharedNames | src/com/bc/config/CompositeConfig.java:68-86 | without `allowDuplicates`, construction succeeds exactly when the collected stores are pairwise disjoint |
| Legacy.NewComposite | src/com/bc/config/CompositeConfig.java:68-86 | a composite over as many stores as children; a failure is a non-empty `DuplicateNames` |
| Legacy.SharedNameCountsTwice | src/com/bc/config/CompositeConfig.java:129-145 | a shared name is one name but counts twice in `size` |
| Legacy.Subset | src/com/bc/config/ConfigSubset.java:35-89 | the subset throws `PatternSyntaxException` exactly when the separator is `[`, `\` or `^` and some parent name starts with the prefix; otherwise it is a new read-only store with the parent's time pattern |
| Legacy.SubsetIsSnapshot | src/com/bc/config/ConfigSubset.java:35-94 | when the constructor does not throw, a subset refuses writes, and later writes to the parent do not reach it |
| Legacy.PlainWriteReadsBack | src/com/bc/config/ConfigImpl.java:46-56 | text without `$` written into a `ConfigImpl` reads back unchanged through `getProperty` |
| Legacy.LongWriteReadsBack | src/com/bc/config/AbstractConfig.java:228-244 | a long written with `setLong` reads back through `getLong` |
| Legacy.ArrayWriteReadsBack | src/com/bc/config/AbstractConfig.java:402-440 | for a separator `split` reads literally, an array written with `setArray` reads back through `getArray` |
| Groups.NewGroup | src/main/java/com/bc/config/ConfigGroupImpl.java:21-31 | a null `Properties` throws; otherwise one entry, a writable `ConfigImpl` over the store |
| Groups.GetFor | src/main/java/com/bc/config/ConfigGroupImpl.java:60-70 | a file the group does not hold throws `NullPointerException` |
| Groups.GroupDelegates | src/main/java/com/bc/config/ConfigGroupImpl.java:65-70 | a held file answers its config's `get`, and never null when given a default |
| Groups.SetFor | src/main/java/com/bc/config/ConfigGroupImpl.java:72-76 | a file the group does not hold throws; a write keeps the heap well formed |
| Groups.SetForThenGetFor | src/main/java/com/bc/config/ConfigGroupImpl.java:60-76 | text without `$` set for a writable file reads back for it |
| Groups.SubsetFileIsReadOnly | src/main/java/com/bc/config/ConfigGroupImpl.java:72-76 | a write to a subset file through the group throws "Read only" |
| Groups.SubsetFor | src/main/java/com/bc/config/ConfigGroupImpl.java:52-58 | a file the group does not hold throws `NullPointerException`; a held file's subset throws `PatternSyntaxException` exactly as `subset` does, and is otherwise read-only |
| Groups.NewLegacyGroup | src/com/bc/config/ConfigGroupImpl.java:21-27 | a null `Properties` throws; otherwise one entry over the store |
| Groups.GetPropertyFor | src/com/bc/config/ConfigGroupImpl.java:56-66 | a file the group does not hold throws `NullPointerException` |
| Groups.SetPropertyFor | src/com/bc/config/ConfigGroupImpl.java:68-72 | a file the group does not hold throws |
| Groups.LegacySubsetFor | src/com/bc/config/ConfigGroupImpl.java:48-54 | a file the group does not hold throws `NullPointerException`; a held file's subset throws `PatternSyntaxException` exactly as `ConfigSubset` does, and is otherwise read-only |
| Groups.LegacySetThenGet | src/com/bc/config/ConfigGroupImpl.java:56-72 | text without `$` set for a legacy `ConfigImpl` file reads back for it |

## Left out

- The config services (`ConfigService`, `AbstractConfigService`, `SimpleConfigService`, `DirConfigService`, `PropertiesConfigService`, `JsonConfigService`) are left out. They only load and store files, which is I/O.
- The `ConfigService` constructors of the composites are left out. They only collect the services' configs and then run the list constructor that is modelled.
- `System.getenv()` and `System.getProperties()` are parameters (`Configs.Sys`, and `props` in the legacy tree). The snapshot the resolver takes at construction is not distinguished from a later read.
- `toMap`, `toString`, `hashCode` and logging are left out: reflection, formatting and hash values say nothing about the stored entries.
- `float`/`double` accessors are left out, because they need floating point.
- `setTime`/`getTime` and `parseTime`'s `SimpleDateFormat` parsing are left out, because they need date formatting. Only the normalisation of the text before parsing is modelled (`Values.NormaliseTime`).
- Separators are single characters, and a multi-character separator is not modelled. The split in `Text.Split` is literal, which is what `String.split` does for a single character other than `.$|()[{^?*+\`. `Text.IsLiteralInPattern` names those characters. `Subsets.SplitThrows` gives the subset's own bracketed pattern exactly.
- `Values.ArrayOrNull`: a metacharacter separator is read literally here. `String.split` reads it as a regular expression instead: `.` splits everywhere and gives an empty array, `|` splits between every pair of characters, `^` and `$` match positions only and never split, and `(`, `)`, `[`, `{`, `?`, `*`, `+` or `\` alone throws `PatternSyntaxException`.
- `Values.ArrayOr`: reads a metacharacter separator literally, as `Values.ArrayOrNull` does.
- `Accessors.GetArray`, `Accessors.GetArrayOr`: inherit the literal split of `Values.ArrayOrNull` and `Values.ArrayOr`.
- `Legacy.GetArrayOr`: inherits the literal split of `Values.ArrayOr`.
- `Query.ToMap`: splits pairs and names literally, as `Values.ArrayOrNull` does.
- `Values.ArrayRoundTrip`, `Values.CollectionRoundTrip`, `Accessors.ArrayWriteReadsBack`, `Legacy.ArrayWriteReadsBack`, `Query.QueryRoundTrip`, `Accessors.MapWriteReadsBack`: stated only for separators that `split` reads literally (`Text.IsLiteralInPattern`).
- `Values.LongValueOf`: accepts ASCII digits only. `Long.valueOf` reads digits through `Character.digit`, which also accepts the decimal digits of other scripts (Arabic-Indic, fullwidth and so on). `Values.ParseLong` fails on those where Java succeeds.
- `Configs.Get`: a `${name}` reference is replaced by inserting the found value literally (`Resolver.Resolve`), as the code evidently intends. The Java loop (`Resolver.ResolveAsWritten`) gives the same text whenever no found value holds a `$` (`Resolver.AsWrittenAgreesOnFoundValues`). Otherwise Java expands `$0`/`$1` in the value or throws `IllegalArgumentException`; see Findings. On a composite, a read with a non-null default uses the intended `Configs.DoGet`, which gives the default only when no child holds the key; Java's answer is `Configs.DoGetAsWritten`, where the first child answers with the default. `Accessors.GetStringOr`, `Groups.GetFor` and `Groups.GroupDelegates` inherit this.
- `Legacy.GetProperty`: resolves with the same corrected insertion, and agrees with the legacy loop under the same condition. On a legacy composite, a read with a non-null default uses the intended `Legacy.DoGetProperty`; Java's answer is `Legacy.DoGetPropertyAsWritten`, where the first store answers with the default. `Groups.GetPropertyFor` inherits this.
- `Configs.GetOfReference`: the Java agreement is stated only for a substituted value free of `$`. For a value holding `$`, the lemma states the corrected reading, which Java does not give.
- `Legacy.GetOfReference`: the same as `Configs.GetOfReference`, for the legacy loop.
- `Configs.CompositeOfReference`: the same as `Configs.GetOfReference`, for the composite's own substitution.
- The iteration order of `HashSet`/`HashMap` is a parameter (`order`, the `entries` sequence), so only "the last one visited wins" is stated.
- The names in `DuplicateNames` are the clashing set, not the exact message text.
- src/main/java/com/bc/config/ConfigSubset.java is not part of this model. The current tree's `subset` is modelled after the legacy `ConfigSubset`, reading the parent through `getNames` and `get`. `Equality` likewise takes the current tree's subset class to be a `ConfigImpl` subclass, as the legacy one is, so `EqualsAsWritten` lets it through the cast.
- Legacy typed accessors other than `setLong`/`getLong`, `setArray`/`getArray` are left out. They are the same compositions over `getProperty`/`setProperty` as the current tree's, which `Accessors` models.
- `Accessors.Wrap`: models `shortValue`, `intValue` and the `(short)`/`(int)` casts. `setShort`/`setInt` are modelled as `SetLong`, whose answered previous value is not narrowed.
- `setString` is `set`, and `getString` is `get`. They have no members of their own beyond `Accessors.GetString`/`GetStringOr`.
- Concurrency is left out: the classes are not synchronised and the model is sequential.
- `Configs.Set`: states the frame, which stores may change. The contents of a write are stated by `Configs.StoreWriteReadsBack`, `Configs.WriteGoesToFirstOwner` and `Configs.WriteWithoutOwnerIsIgnored`.
- `Values.BooleanOrNull`: case folding is ASCII only; `equalsIgnoreCase` also folds other scripts.

## Findings

| source | as written | input that shows it | evidently intended | confidence | as-written member | corrected member |
|---|---|---|---|---|---|---|
| src/main/java/com/bc/config/ReferenceResolverImpl.java:95 | the looked-up value is passed to `Matcher.appendReplacement`, which reads `$` and `\` in it as group references and escapes | a value `n=${f}` and the input `${n}`: `appendReplacement` sees `${f}` as a named-group reference and throws `IllegalArgumentException` | the value is inserted literally (e.g. through `Matcher.quoteReplacement`), giving `${f}` | not executed | Resolver.ResolveAsWritten (Resolver.ChainedReferenceThrows) | Resolver.Resolve (Resolver.AsWrittenAgreesWithoutDollars) |
| src/com/bc/config/AbstractConfig.java:92-107 | the legacy resolver passes the looked-up value to `appendReplacement` the same way | the same value `n=${f}` read through a legacy config | the value is inserted literally | not executed | Resolver.ResolveAsWritten (Resolver.ChainedReferenceThrows) | Resolver.Resolve (Legacy.CompositeResolvesOnce) |
| src/main/java/com/bc/config/AbstractConfig.java:518-537 | after the class test, `equals` casts the other object to `ConfigImpl` | two distinct `MapConfig`s over equal maps: `ClassCastException` | compare class, time pattern and data for every config class | not executed | Equality.EqualsAsWritten (Equality.MapConfigsCannotBeCompared) | Equality.Equals (Equality.EqualsIsEquivalence) |
| src/com/bc/config/AbstractConfig.java:481-500 | the legacy `equals` has the same cast | two distinct legacy `CompositeConfig`s: `ClassCastException` | the same comparison without the cast | not executed | Equality.EqualsAsWritten (Equality.AsWrittenThrowsOutsideConfigImpl) | Equality.Equals (Equality.AsWrittenAgreesOtherwise) |
| src/main/java/com/bc/config/AbstractCompositeConfig.java:82-92 | the composite's `doGet(key, default)` hands the default to every child, so with a non-null default and at least one child the first child never answers null, and the final `val == null ? defaultValue : val` can never pick the default | children `{}` and `{k: v}`: `get("k", "d")` gives `d` | ask the children without the default and give the default only when none holds the key: `v` | not executed | Configs.DoGetAsWritten (Configs.DefaultHidesLaterChildren) | Configs.DoGet (Configs.DefaultIsLastResort) |
| src/com/bc/config/CompositeConfig.java:88-98 | the legacy composite hands the default to every store's `getProperty(key, default)`, so with a non-null default and at least one store the first store always answers | stores `{}` and `{k: v}`: `getProperty("k", "d")` gives `d` | `v` | not executed | Legacy.DoGetPropertyAsWritten (Legacy.DefaultHidesLaterStores) | Legacy.DoGetProperty (Legacy.DefaultIsLastResort) |

=== FILE: accessors.dfy ===
/** The typed accessors of the current tree's `AbstractConfig`.

    Every getter reads `get(key)` (only `getString(key, default)` reads
    `get(key, default)`) and converts the resolved text; every setter
    writes a text through `set(key, value)` and converts the previous value
    the store answered.  Texts and values are those of `Configs`.
 */
module Accessors {
  import opened Wrappers
  import opened Text
  import opened Stores
  import opened Resolver
  import opened Configs
  import Values
  import Query

  /** A config whose `set` writes into its own store: a `ConfigImpl` that is
      not a subset, or a `MapConfig`. */
  predicate Writable(c: Config) {
    c.Hash? || (c.Props? && !c.readOnly)
  }

  // ---------------------------------------------------------------------
  // Strings

  /** `getString(key)` (AbstractConfig.java:346-349). */
  function GetString(h: Heap, sys: Sys, c: Config, key: string): Option<string> {
    Get(h, sys, c, key, None)
  }

  /** `getString(key, default)`: the default goes down to `doGet`, so it is
      resolved like a stored value (AbstractConfig.java:351-354). */
  function GetStringOr(h: Heap, sys: Sys, c: Config, key: string, default: string): Option<string> {
    Get(h, sys, c, key, Some(default))
  }

  // ---------------------------------------------------------------------
  // Booleans

  /** `getBoolean(key)`: null when absent, else `Boolean.valueOf(trim)`
      (AbstractConfig.java:207-211). */
  function GetBoolean(h: Heap, sys: Sys, c: Config, key: string): Option<bool> {
    Values.BooleanOrNull(GetString(h, sys, c, key))
  }

  /** `getBoolean(key, Boolean default)` (AbstractConfig.java:220-224). */
  function GetBooleanOr(h: Heap, sys: Sys, c: Config, key: string, default: Option<bool>): Option<bool> {
    Values.StrictBoolean(GetString(h, sys, c, key), default)
  }

  /** `getBoolean(key, boolean default)` (AbstractConfig.java:226-230). */
  function GetBooleanLenient(h: Heap, sys: Sys, c: Config, key: string, default: bool): bool {
    Values.LenientBoolean(GetString(h, sys, c, key), default)
  }

  /** `setBoolean(key, b)`: writes `Boolean.toString(b)` and answers the
      previous value parsed leniently, or null (AbstractConfig.java:201-205). */
  function SetBoolean(h: Heap, c: Config, key: string, b: bool): Result<(Heap, Option<bool>), Fault>
    requires Good(h) && Valid(h, c)
  {
    match Set(h, c, key, Values.BoolText(b))
    case Failure(f) => Failure(f)
    case Success((h1, previous)) => Success((h1, Values.BooleanOrNull(previous)))
  }

  // ---------------------------------------------------------------------
  // Integers

  const IntModulus: nat := 0x1_0000_0000
  const ShortModulus: nat := 0x1_0000

  /** The two's-complement narrowing of `Long.intValue` and
      `Long.shortValue` (and of the `(int)` and `(short)` casts): the value
      in `[-modulus/2, modulus/2)` congruent to `n`. */
  function Wrap(n: int, modulus: nat): (r: int)
    requires modulus >= 2 && modulus % 2 == 0
    ensures -(modulus / 2) <= r < modulus / 2
    ensures -(modulus / 2) <= n < modulus / 2 ==> r == n
    ensures exists q :: n == r + q * modulus
  {
    var half := modulus / 2;
    var m := (n + half) % modulus;
    assert n + half == (n + half) / modulus * modulus + m;
    m - half
  }

  /** `getLong(key)`: null when absent, else `Long.valueOf(trim)`, which
      throws on anything but a decimal `long` (AbstractConfig.java:272-276). */
  function GetLong(h: Heap, sys: Sys, c: Config, key: string): Result<Option<int>, Fault> {
    Values.LongValueOf(GetString(h, sys, c, key), None)
  }

  /** `getLong(key, long default)` (AbstractConfig.java:278-282). */
  function GetLongOr(h: Heap, sys: Sys, c: Config, key: string, default: int): Result<int, Fault> {
    match Values.LongValueOf(GetString(h, sys, c, key), Some(default))
    case Failure(f) => Failure(f)
    case Success(v) => Success(v.GetOr(default))
  }

  /** `getInt(key)` and `getShort(key)`: `getLong(key)` narrowed
      (AbstractConfig.java:238-242, 255-259). */
  function GetNarrowed(h: Heap, sys: Sys, c: Config, key: string, modulus: nat): Result<Option<int>, Fault>
    requires modulus >= 2 && modulus % 2 == 0
  {
    match GetLong(h, sys, c, key)
    case Failure(f) => Failure(f)
    case Success(None) => Success(None)
    case Success(Some(l)) => Success(Some(Wrap(l, modulus)))
  }

  /** `getInt(key, default)` and `getShort(key, default)`: the cast of
      `getLong(key, default)` (AbstractConfig.java:244-247, 261-264). */
  function GetNarrowedOr(h: Heap, sys: Sys, c: Config, key: string, default: int, modulus: nat): Result<int, Fault>
    requires modulus >= 2 && modulus % 2 == 0
  {
    match GetLongOr(h, sys, c, key, default)
    case Failure(f) => Failure(f)
    case Success(l) => Success(Wrap(l, modulus))
  }

  /** `setLong(key, l)` (and `setInt`, `setShort`, which widen first): the
      outer result is the write; the text `"" + l` is written before the
      previous value is parsed, so the inner result can be a
      `NumberFormatException` thrown after the store has changed
      (AbstractConfig.java:266-270). */
  function SetLong(h: Heap, c: Config, key: string, n: int): Result<(Heap, Result<Option<int>, Fault>), Fault>
    requires Good(h) && Valid(h, c) && Values.InLongRange(n)
  {
    match Set(h, c, key, Values.FormatLong(n))
    case Failure(f) => Failure(f)
    case Success((h1, previous)) => Success((h1, Values.LongValueOf(previous, None)))
  }

  // ---------------------------------------------------------------------
  // Arrays and collections

  /** `getArray(key, sep)` (and `getArray(key)` with `,`): null when
      absent, else the split (AbstractConfig.java:462-466). */
  function GetArray(h: Heap, sys: Sys, c: Config, key: string, sep: char): Option<seq<string>> {
    Values.ArrayOrNull(GetString(h, sys, c, key), sep)
  }

  /** `getArray(key, default, sep)`: the default when absent or empty
      (AbstractConfig.java:473-477). */
  function GetArrayOr(h: Heap, sys: Sys, c: Config, key: string, default: Option<seq<string>>, sep: char): Option<seq<string>> {
    Values.ArrayOr(GetString(h, sys, c, key), default, sep)
  }

  /** `setArray(key, arr, sep)`: nothing is written when the joined text is
      empty, so even a subset answers null; otherwise the previous value
      split (AbstractConfig.java:440-455). */
  function SetArray(h: Heap, c: Config, key: string, arr: seq<string>, sep: char): Result<(Heap, Option<seq<string>>), Fault>
    requires Good(h) && Valid(h, c)
  {
    match Values.ArrayText(arr, sep)
    case None => Success((h, None))
    case Some(text) =>
      match Set(h, c, key, text)
      case Failure(f) => Failure(f)
      case Success((h1, previous)) => Success((h1, Values.ArrayOrNull(previous, sep)))
  }

  /** `setCollection(key, items, sep)`: every element followed by the
      separator; an empty collection writes nothing
      (AbstractConfig.java:484-497). */
  function SetCollection(h: Heap, c: Config, key: string, items: seq<string>, sep: char): Result<(Heap, Option<seq<string>>), Fault>
    requires Good(h) && Valid(h, c)
  {
    match Values.CollectionText(items, sep)
    case None => Success((h, None))
    case Some(text) =>
      match Set(h, c, key, text)
      case Failure(f) => Failure(f)
      case Success((h1, previous)) => Success((h1, Values.ArrayOrNull(previous, sep)))
  }

  /** `getCollection(key)`: `Arrays.asList(getArray(key))`, which throws
      when the key is absent (AbstractConfig.java:499-502). */
  function GetCollection(h: Heap, sys: Sys, c: Config, key: string): Result<seq<string>, Fault> {
    match GetArray(h, sys, c, key, ',')
    case None => Failure(NullReference)
    case Some(items) => Success(items)
  }

  /** `getCollection(key, default)`: the default when absent or empty,
      else `getCollection(key)` (AbstractConfig.java:504-508). */
  function GetCollectionOr(h: Heap, sys: Sys, c: Config, key: string, default: Option<seq<string>>): Option<seq<string>> {
    var value := GetString(h, sys, c, key);
    if value.None? || |value.value| < 1 then default
    else
      match GetCollection(h, sys, c, key)
      case Success(items) => Some(items)
      case Failure(_) => default
  }

  // ---------------------------------------------------------------------
  // Maps

  /** `reverse(text)` of a fresh converter for the separator. */
  function Reverse(sep: char, text: string): map<string, string> {
    Query.DecodePairs(Query.ConverterFor(sep), Split(text, sep), map[]).0
  }

  /** `getMap(key, sep)`: null when absent, else the text read as query
      parameters with a fresh converter (AbstractConfig.java:363-367). */
  function GetMap(h: Heap, sys: Sys, c: Config, key: string, sep: char): Option<map<string, string>> {
    match GetString(h, sys, c, key)
    case None => None
    case Some(s) => Some(Reverse(sep, s))
  }

  /** `getMap(key, default, sep)` (AbstractConfig.java:369-373). */
  function GetMapOr(h: Heap, sys: Sys, c: Config, key: string, default: Option<map<string, string>>, sep: char): Option<map<string, string>> {
    match GetMap(h, sys, c, key, sep)
    case None => default
    case Some(m) => Some(m)
  }

  /** `setMap(key, entries, sep)`: writes the query string of the entries
      in their iteration order and answers the previous value read back as
      a map (AbstractConfig.java:356-361). */
  function SetMap(h: Heap, c: Config, key: string, entries: seq<(string, string)>, sep: char): Result<(Heap, Option<map<string, string>>), Fault>
    requires Good(h) && Valid(h, c)
  {
    var converter := Query.ConverterFor(sep);
    match Set(h, c, key, Query.ToQueryString(converter, entries))
    case Failure(f) => Failure(f)
    case Success((h1, previous)) =>
      match previous
      case None => Success((h1, None))
      case Some(p) => Success((h1, Some(Reverse(sep, p))))
  }

  // ---------------------------------------------------------------------
  // Time

  /** The text `getTime(key)` hands to the date parser: none for a missing
      or empty value, a date-only text completed with midnight
      (AbstractConfig.java:401-432). */
  function TimeText(h: Heap, sys: Sys, c: Config, key: string): Option<string> {
    Values.NormaliseTime(GetString(h, sys, c, key))
  }

  // ---------------------------------------------------------------------
  // Properties

  /** Texts the resolver leaves alone. */
  lemma BoolTextIsPlain(b: bool)
    ensures !Contains(Values.BoolText(b), '$')
  {
    var t := Values.BoolText(b);
    forall k | 0 <= k < |t| ensures t[k] != '$' {
    }
  }

  lemma FormatLongIsPlain(n: int)
    ensures !Contains(Values.FormatLong(n), '$')
    ensures Trim(Values.FormatLong(n)) == Values.FormatLong(n)
  {
    var t := Values.FormatLong(n);
    var ds := Values.Digits(if n < 0 then -n else n);
    assert t == if n < 0 then "-" + ds else ds;
    forall k | 0 <= k < |t| ensures t[k] != '$' && !IsTrimmed(t[k]) {
      if n < 0 && k > 0 {
        assert t[k] == ds[k - 1];
      }
    }
    TrimOfTrimmed(t);
  }

  /** Absent keys: every nullable getter answers null, every getter with a
      default answers the default, and `getCollection(key)` throws. */
  lemma AbsentKeyGivesDefaults(h: Heap, sys: Sys, c: Config, key: string, sep: char,
                               b: Option<bool>, lb: bool, l: int, arr: Option<seq<string>>, m: Option<map<string, string>>)
    requires Raw(h, sys, c, key).None?
    ensures GetString(h, sys, c, key).None?
    ensures GetBoolean(h, sys, c, key).None? && GetBooleanOr(h, sys, c, key, b) == b
    ensures GetBooleanLenient(h, sys, c, key, lb) == lb
    ensures GetLong(h, sys, c, key) == Success(None) && GetLongOr(h, sys, c, key, l) == Success(l)
    ensures GetArray(h, sys, c, key, sep).None? && GetArrayOr(h, sys, c, key, arr, sep) == arr
    ensures GetCollection(h, sys, c, key) == Failure(NullReference)
    ensures GetCollectionOr(h, sys, c, key, arr) == arr
    ensures GetMap(h, sys, c, key, sep).None? && GetMapOr(h, sys, c, key, m, sep) == m
    ensures TimeText(h, sys, c, key).None?
  {
  }

  /** An absent key with a default: the default itself is resolved, as if
      it had been stored. */
  lemma StringDefaultIsResolved(h: Heap, sys: Sys, c: Config, key: string, default: string)
    requires c.Props? || c.Hash?
    requires key !in Deref(h, c.id).top && (c.Props? ==> Lookup(Deref(h, c.id), key).None?)
    ensures GetStringOr(h, sys, c, key, default) == Some(Resolve(default, Chain(h, sys, c)))
  {
    assert DoGet(h, sys, c, key, Some(default)) == Some(default);
  }

  /** `getCollection(key, default)` on a present, non-empty value is
      `getCollection(key)`, which is `getArray(key)` split on commas. */
  lemma CollectionOrAgrees(h: Heap, sys: Sys, c: Config, key: string, default: Option<seq<string>>)
    requires GetString(h, sys, c, key).Some? && GetString(h, sys, c, key).value != []
    ensures GetCollection(h, sys, c, key) == Success(Split(GetString(h, sys, c, key).value, ','))
    ensures GetCollectionOr(h, sys, c, key, default) == Some(GetCollection(h, sys, c, key).value)
  {
  }

  /** A boolean written into a store reads back through all three boolean
      getters. */
  lemma BooleanWriteReadsBack(h: Heap, sys: Sys, c: Config, key: string, b: bool, strict: Option<bool>, lenient: bool)
    requires Good(h) && Valid(h, c) && Writable(c)
    ensures SetBoolean(h, c, key, b).Success?
    ensures GetBoolean(SetBoolean(h, c, key, b).value.0, sys, c, key) == Some(b)
    ensures GetBooleanOr(SetBoolean(h, c, key, b).value.0, sys, c, key, strict) == Some(b)
    ensures GetBooleanLenient(SetBoolean(h, c, key, b).value.0, sys, c, key, lenient) == b
  {
    BoolTextIsPlain(b);
    WrittenTextReadsBack(h, sys, c, key, Values.BoolText(b));
    Values.BooleanRoundTrip(b, strict, lenient);
  }

  /** `setBoolean` answers the previous own entry, parsed leniently. */
  lemma SetBooleanAnswersPrevious(h: Heap, c: Config, key: string, b: bool)
    requires Good(h) && Valid(h, c) && Writable(c)
    ensures SetBoolean(h, c, key, b).Success?
    ensures key !in Deref(h, c.id).top ==> SetBoolean(h, c, key, b).value.1 == None
    ensures key in Deref(h, c.id).top ==>
      SetBoolean(h, c, key, b).value.1 == Some(Values.IsTrueIgnoringCase(Trim(Deref(h, c.id).top[key])))
  {
    StoreWriteReadsBack(h, Sys(map[], map[]), c, key, Values.BoolText(b), key + "#");
  }

  /** A stored `long` text reads as that `long` through both getters. */
  lemma LongTextReads(h: Heap, sys: Sys, c: Config, key: string, n: int, default: int)
    requires Values.InLongRange(n)
    requires GetString(h, sys, c, key) == Some(Values.FormatLong(n))
    ensures GetLong(h, sys, c, key) == Success(Some(n))
    ensures GetLongOr(h, sys, c, key, default) == Success(n)
  {
    FormatLongIsPlain(n);
    Values.LongValueOfPresent(Values.FormatLong(n), n, None);
    Values.LongValueOfPresent(Values.FormatLong(n), n, Some(default));
  }

  /** A `long` written into a store reads back through both long getters. */
  lemma LongWriteReadsBack(h: Heap, sys: Sys, c: Config, key: string, n: int, default: int)
    requires Good(h) && Valid(h, c) && Writable(c) && Values.InLongRange(n)
    ensures SetLong(h, c, key, n).Success?
    ensures GetLong(SetLong(h, c, key, n).value.0, sys, c, key) == Success(Some(n))
    ensures GetLongOr(SetLong(h, c, key, n).value.0, sys, c, key, default) == Success(n)
  {
    var t := Values.FormatLong(n);
    FormatLongIsPlain(n);
    WrittenTextReadsBack(h, sys, c, key, t);
    var h1 := Set(h, c, key, t).value.0;
    assert SetLong(h, c, key, n).value.0 == h1;
    LongTextReads(h1, sys, c, key, n, default);
  }

  /** An `int` written with `setInt` reads back through `getInt`. */
  lemma IntWriteReadsBack(h: Heap, sys: Sys, c: Config, key: string, n: int)
    requires Good(h) && Valid(h, c) && Writable(c)
    requires -(IntModulus / 2) <= n < IntModulus / 2
    ensures SetLong(h, c, key, n).Success?
    ensures GetNarrowed(SetLong(h, c, key, n).value.0, sys, c, key, IntModulus) == Success(Some(n))
  {
    assert Values.InLongRange(n);
    LongWriteReadsBack(h, sys, c, key, n, 0);
    NarrowedInRange(SetLong(h, c, key, n).value.0, sys, c, key, n, IntModulus);
  }

  /** A `long` that fits the narrower type comes back unchanged. */
  lemma NarrowedInRange(h: Heap, sys: Sys, c: Config, key: string, n: int, modulus: nat)
    requires modulus >= 2 && modulus % 2 == 0 && -(modulus / 2) <= n < modulus / 2
    requires GetLong(h, sys, c, key) == Success(Some(n))
    ensures GetNarrowed(h, sys, c, key, modulus) == Success(Some(n))
  {
  }

  /** A `long` outside the `int` range comes back wrapped from `getInt`
      and `getShort`. */
  lemma NarrowingWraps()
    ensures Wrap(0x8000_0000, IntModulus) == -0x8000_0000
    ensures Wrap(-0x8000_0001, IntModulus) == 0x7FFF_FFFF
    ensures Wrap(70000, ShortModulus) == 4464
  {
  }

  /** `setLong` over a previous value that is not a number changes the
      store and then throws: the new text is in place, the inner result is
      the parse failure. */
  lemma SetLongWritesBeforeParsing(h: Heap, sys: Sys, c: Config, key: string, n: int)
    requires Good(h) && Valid(h, c) && Writable(c) && Values.InLongRange(n)
    requires key in Deref(h, c.id).top && Values.ParseLong(Trim(Deref(h, c.id).top[key])).Failure?
    ensures SetLong(h, c, key, n).Success?
    ensures SetLong(h, c, key, n).value.1 == Failure(NumberFormat(Trim(Deref(h, c.id).top[key])))
    ensures Raw(SetLong(h, c, key, n).value.0, sys, c, key) == Some(Values.FormatLong(n))
  {
    StoreWriteReadsBack(h, sys, c, key, Values.FormatLong(n), key + "#");
  }

  /** Elements without the separator or `$`, the last one not empty, read
      back as written through both array getters. */
  lemma ArrayWriteReadsBack(h: Heap, sys: Sys, c: Config, key: string, arr: seq<string>, sep: char, default: Option<seq<string>>)
    requires Good(h) && Valid(h, c) && Writable(c)
    requires |arr| >= 1 && arr[|arr| - 1] != [] && IsLiteralInPattern(sep)
    requires forall k :: 0 <= k < |arr| ==> !Contains(arr[k], sep) && !Contains(arr[k], '$')
    ensures SetArray(h, c, key, arr, sep).Success?
    ensures GetArray(SetArray(h, c, key, arr, sep).value.0, sys, c, key, sep) == Some(arr)
    ensures GetArrayOr(SetArray(h, c, key, arr, sep).value.0, sys, c, key, default, sep) == Some(arr)
  {
    Values.ArrayRoundTrip(arr, sep, default);
    var text := Values.ArrayText(arr, sep).value;
    JoinAvoids(arr, sep, '$');
    WrittenTextReadsBack(h, sys, c, key, text);
  }

  /** An array whose joined text is empty writes nothing, so the heap is
      unchanged and even a read-only subset does not throw. */
  lemma EmptyArrayWritesNothing(h: Heap, c: Config, key: string, arr: seq<string>, sep: char)
    requires Good(h) && Valid(h, c)
    requires forall k :: 0 <= k < |arr| ==> arr[k] == []
    requires |arr| <= 1
    ensures SetArray(h, c, key, arr, sep) == Success((h, None))
  {
    assert Join(arr, sep) == [];
  }

  /** A collection written with commas reads back through both collection
      getters. */
  lemma CollectionWriteReadsBack(h: Heap, sys: Sys, c: Config, key: string, items: seq<string>, default: Option<seq<string>>)
    requires Good(h) && Valid(h, c) && Writable(c)
    requires |items| >= 1 && items[|items| - 1] != []
    requires forall k :: 0 <= k < |items| ==> !Contains(items[k], ',') && !Contains(items[k], '$')
    ensures SetCollection(h, c, key, items, ',').Success?
    ensures GetCollection(SetCollection(h, c, key, items, ',').value.0, sys, c, key) == Success(items)
    ensures GetCollectionOr(SetCollection(h, c, key, items, ',').value.0, sys, c, key, default) == Some(items)
  {
    Values.CollectionRoundTrip(items, ',', default);
    var text := JoinTerminated(items, ',');
    JoinTerminatedIsJoin(items, ',');
    var ext := items + [[]];
    forall k | 0 <= k < |ext| ensures !Contains(ext[k], '$') {
      if k < |items| {
        assert ext[k] == items[k];
      }
    }
    JoinAvoids(ext, ',', '$');
    WrittenTextReadsBack(h, sys, c, key, text);
    assert text != [];
  }

  /** The query string of entries without `$` has none either. */
  lemma QueryTextIsPlain(entries: seq<(string, string)>, sep: char)
    requires sep != '$'
    requires forall k :: 0 <= k < |entries| ==> !Contains(entries[k].0, '$') && !Contains(entries[k].1, '$')
    ensures !Contains(Query.ToQueryString(Query.ConverterFor(sep), entries), '$')
  {
    var pairs := Query.PairTexts(entries);
    forall k | 0 <= k < |pairs| ensures !Contains(pairs[k], '$') {
      Query.PairTextFree(entries[k], '$');
    }
    JoinAvoids(pairs, sep, '$');
  }

  /** What `getMap` makes of a text: `toMap` of it. */
  lemma GetMapReadsQuery(h: Heap, sys: Sys, c: Config, key: string, sep: char, text: string)
    requires GetString(h, sys, c, key) == Some(text)
    ensures GetMap(h, sys, c, key, sep) == Some(Query.ToMap(Query.ConverterFor(sep), Some(text)).value.0)
  {
  }

  /** The query string `setMap` writes is what `get` then reads. */
  lemma MapTextReadsBack(h: Heap, sys: Sys, c: Config, key: string, entries: seq<(string, string)>, sep: char)
    requires Good(h) && Valid(h, c) && Writable(c) && sep != '$'
    requires forall k :: 0 <= k < |entries| ==> !Contains(entries[k].0, '$') && !Contains(entries[k].1, '$')
    ensures SetMap(h, c, key, entries, sep).Success?
    ensures GetString(SetMap(h, c, key, entries, sep).value.0, sys, c, key)
         == Some(Query.ToQueryString(Query.ConverterFor(sep), entries))
  {
    var text := Query.ToQueryString(Query.ConverterFor(sep), entries);
    QueryTextIsPlain(entries, sep);
    WrittenTextReadsBack(h, sys, c, key, text);
  }

  /** Clean entries without `$` read back through `getMap` as the map they
      denote. */
  lemma MapWriteReadsBack(h: Heap, sys: Sys, c: Config, key: string, entries: seq<(string, string)>, sep: char)
    requires Good(h) && Valid(h, c) && Writable(c)
    requires sep != '=' && IsLiteralInPattern(sep)
    requires forall k :: 0 <= k < |entries| ==> Query.Clean(entries[k], sep)
    requires forall k :: 0 <= k < |entries| ==> !Contains(entries[k].0, '$') && !Contains(entries[k].1, '$')
    ensures SetMap(h, c, key, entries, sep).Success?
    ensures GetMap(SetMap(h, c, key, entries, sep).value.0, sys, c, key, sep) == Some(Query.EntriesMap(entries, map[]))
  {
    var converter := Query.ConverterFor(sep);
    MapTextReadsBack(h, sys, c, key, entries, sep);
    var h1 := SetMap(h, c, key, entries, sep).value.0;
    GetMapReadsQuery(h1, sys, c, key, sep, Query.ToQueryString(converter, entries));
    Query.QueryRoundTrip(converter, entries);
  }
}

=== FILE: configs.dfy ===
/** The current tree's configs: `ConfigImpl` over a `Properties`,
    `MapConfig` over a `Map`, the read-only `ConfigSubset`, and
    `CompositeConfig` over an ordered list of child configs
    (`AbstractConfig`, `AbstractCompositeConfig`).

    A config holds the id of its store in the heap, so that two configs
    over one store, or a config and the data it handed out, see each
    other's writes.  Reads resolve placeholders with the config's own raw
    getter as the first source of the chain; a composite's raw getter asks
    its children, who have resolved already, so a composite read resolves
    twice.
 */
module Configs {
  import opened Wrappers
  import opened Text
  import opened Stores
  import opened Placeholder
  import opened Resolver
  import Subsets
  import Values

  /** The process environment and the system properties, as the resolver
      captures them when the config is built. */
  datatype Sys = Sys(env: map<string, string>, props: map<string, string>)

  /** `ConfigImpl` (a `ConfigSubset` when `readOnly`), `MapConfig`, and
      `CompositeConfig`; a time pattern may be null. */
  datatype Config =
    | Props(id: StoreId, timePattern: Option<string>, readOnly: bool)
    | Hash(id: StoreId, timePattern: Option<string>)
    | Composite(children: seq<Config>, timePattern: Option<string>)

  /** The pattern of the one-argument `ConfigImpl` and `MapConfig`
      constructors. */
  const DefaultTimePattern: string := "EEE MMM dd HH:mm:ss z yyyy"

  // ---------------------------------------------------------------------
  // Construction

  /** `new ConfigImpl(data, timePattern)`: a null store throws
      (ConfigImpl.java:29-32). */
  function NewConfigImpl(data: Option<StoreId>, timePattern: Option<string>): (r: Result<Config, Fault>)
    ensures data.None? <==> r.Failure?
    ensures r.Failure? ==> r.error == NullReference
    ensures r.Success? ==> r.value.Props? && r.value.id == data.value
                           && r.value.timePattern == timePattern && !r.value.readOnly
  {
    match data
    case None => Failure(NullReference)
    case Some(id) => Success(Props(id, timePattern, false))
  }

  /** `new MapConfig(data, timePattern)`: a null map throws
      (MapConfig.java:37-40). */
  function NewMapConfig(data: Option<StoreId>, timePattern: Option<string>): (r: Result<Config, Fault>)
    ensures data.None? <==> r.Failure?
    ensures r.Failure? ==> r.error == NullReference
    ensures r.Success? ==> r.value.Hash? && r.value.id == data.value && r.value.timePattern == timePattern
  {
    match data
    case None => Failure(NullReference)
    case Some(id) => Success(Hash(id, timePattern))
  }

  /** `new ConfigImpl(data)`: the two-argument constructor with the
      default pattern (ConfigImpl.java:25-27). */
  function NewConfigImplOf(data: Option<StoreId>): (r: Result<Config, Fault>)
    ensures data.None? <==> r == Failure(NullReference)
    ensures r.Success? ==> r.value == Props(data.value, Some("EEE MMM dd HH:mm:ss z yyyy"), false)
  {
    NewConfigImpl(data, Some(DefaultTimePattern))
  }

  /** `new MapConfig(data)`: the two-argument constructor with the default
      pattern (MapConfig.java:33-35). */
  function NewMapConfigOf(data: Option<StoreId>): (r: Result<Config, Fault>)
    ensures data.None? <==> r == Failure(NullReference)
    ensures r.Success? ==> r.value == Hash(data.value, Some("EEE MMM dd HH:mm:ss z yyyy"))
  {
    NewMapConfig(data, Some(DefaultTimePattern))
  }

  /** A one-argument constructor builds what the two-argument one builds
      from the default pattern, and never a config without a pattern. */
  lemma OneArgumentConstructorsUseDefaultPattern(data: Option<StoreId>)
    ensures NewConfigImplOf(data) == NewConfigImpl(data, Some(DefaultTimePattern))
    ensures NewMapConfigOf(data) == NewMapConfig(data, Some(DefaultTimePattern))
    ensures NewConfigImplOf(data).Success? ==> NewConfigImplOf(data).value.timePattern.Some?
    ensures NewMapConfigOf(data).Success? ==> NewMapConfigOf(data).value.timePattern.Some?
  {
  }

  // ---------------------------------------------------------------------
  // Shape

  /** A measure that a child is always below its composite. */
  function Weight(c: Config): (w: nat)
    ensures w >= 1
  {
    match c
    case Composite(children, _) => 1 + WeightAll(children)
    case _ => 1
  }

  function WeightAll(cs: seq<Config>): nat {
    if cs == [] then 0 else Weight(cs[0]) + WeightAll(cs[1..])
  }

  /** The stores a config reads and writes. */
  function Ids(c: Config): set<StoreId> {
    match c
    case Composite(children, _) => IdsAll(children)
    case Props(id, _, _) => {id}
    case Hash(id, _) => {id}
  }

  function IdsAll(cs: seq<Config>): set<StoreId> {
    if cs == [] then {} else Ids(cs[0]) + IdsAll(cs[1..])
  }

  /** Every store the config refers to exists. */
  predicate Valid(h: Heap, c: Config) {
    Ids(c) <= h.stores.Keys
  }

  // ---------------------------------------------------------------------
  // size and getNames

  /** `size()`: a store's own entries; the sum over the children for a
      composite (AbstractCompositeConfig.java:106-113). */
  function Size(h: Heap, c: Config): nat {
    match c
    case Props(id, _, _) => Stores.Size(Deref(h, id))
    case Hash(id, _) => |Deref(h, id).top|
    case Composite(children, _) => SizeAll(h, children)
  }

  function SizeAll(h: Heap, cs: seq<Config>): nat {
    if cs == [] then 0 else Size(h, cs[0]) + SizeAll(h, cs[1..])
  }

  /** `getNames()`: `stringPropertyNames` for a `Properties`, defaults
      included; the key set of a `Map`, whose `getOrDefault` never looks at
      defaults; the union over the children for a composite
      (AbstractCompositeConfig.java:115-122). */
  function Names(h: Heap, c: Config): set<string> {
    match c
    case Props(id, _, _) => Stores.Names(Deref(h, id))
    case Hash(id, _) => Deref(h, id).top.Keys
    case Composite(children, _) => NamesAll(h, children)
  }

  function NamesAll(h: Heap, cs: seq<Config>): set<string> {
    if cs == [] then {} else Names(h, cs[0]) + NamesAll(h, cs[1..])
  }

  // ---------------------------------------------------------------------
  // doGet and get

  /** `Map.getOrDefault` on the store: own entries only. */
  function OwnOr(s: Layers, key: string, default: Option<string>): Option<string> {
    if key in s.top then Some(s.top[key]) else default
  }

  /** `doGet(key, default)`, unresolved.  A composite asks each child's
      `get(key)` in order and keeps the first non-null answer, else the
      default (AbstractCompositeConfig.java:82-92).  The source hands the
      default to every child, so the first child always answers; that is
      `DoGetAsWritten`. */
  function DoGet(h: Heap, sys: Sys, c: Config, key: string, default: Option<string>): Option<string>
    decreases Weight(c), 0
  {
    match c
    case Props(id, _, _) => LookupOr(Deref(h, id), key, default)
    case Hash(id, _) => OwnOr(Deref(h, id), key, default)
    case Composite(children, _) =>
      match FirstChildGet(h, sys, children, key, None)
      case Some(v) => Some(v)
      case None => default
  }

  /** `doGet(key)`: the raw getter the resolver consults first
      (AbstractConfig.java:61, 137-139). */
  function Raw(h: Heap, sys: Sys, c: Config, key: string): Option<string>
    decreases Weight(c), 1
  {
    DoGet(h, sys, c, key, None)
  }

  /** The config's lookup chain: its raw getter, the environment, the
      system properties. */
  function Chain(h: Heap, sys: Sys, c: Config): seq<Source>
    decreases Weight(c), 2
  {
    CurrentChain(Getter(k => Raw(h, sys, c, k)), sys.env, sys.props)
  }

  /** `get(key)` (with `default` = `None`) and `get(key, default)`: null
      when `doGet` is null, otherwise its value resolved
      (AbstractConfig.java:141-151). */
  function Get(h: Heap, sys: Sys, c: Config, key: string, default: Option<string>): Option<string>
    decreases Weight(c), 3
  {
    match DoGet(h, sys, c, key, default)
    case None => None
    case Some(v) => Some(Resolve(v, Chain(h, sys, c)))
  }

  /** The first child whose `get(key, default)` is not null. */
  function FirstChildGet(h: Heap, sys: Sys, cs: seq<Config>, key: string, default: Option<string>): Option<string>
    decreases WeightAll(cs), 4
  {
    if cs == [] then None
    else
      match Get(h, sys, cs[0], key, default)
      case Some(v) => Some(v)
      case None => FirstChildGet(h, sys, cs[1..], key, default)
  }

  // ---------------------------------------------------------------------
  // set

  /** `set(key, value)`: a subset refuses; a store takes the value into its
      own entries and answers the previous own entry; a composite hands the
      write to the first child whose names hold the key, and without one
      changes nothing and answers null (AbstractCompositeConfig.java:94-104).
      Only the stores of the config can change. */
  function Set(h: Heap, c: Config, key: string, value: string): (r: Result<(Heap, Option<string>), Fault>)
    requires Good(h) && Valid(h, c)
    ensures r.Success? ==> Good(r.value.0) && r.value.0.stores.Keys == h.stores.Keys
    ensures r.Success? ==> forall id :: id !in Ids(c) ==> Deref(r.value.0, id) == Deref(h, id)
    decreases Weight(c), 0
  {
    match c
    case Props(id, _, readOnly) =>
      if readOnly then Failure(ReadOnly)
      else
        var (s, previous) := Put(Deref(h, id), key, value);
        Success((Store(h, id, s), previous))
    case Hash(id, _) =>
      var (s, previous) := Put(Deref(h, id), key, value);
      Success((Store(h, id, s), previous))
    case Composite(children, _) => SetFirstOwner(h, children, key, value)
  }

  function SetFirstOwner(h: Heap, cs: seq<Config>, key: string, value: string): (r: Result<(Heap, Option<string>), Fault>)
    requires Good(h) && IdsAll(cs) <= h.stores.Keys
    ensures r.Success? ==> Good(r.value.0) && r.value.0.stores.Keys == h.stores.Keys
    ensures r.Success? ==> forall id :: id !in IdsAll(cs) ==> Deref(r.value.0, id) == Deref(h, id)
    decreases WeightAll(cs), 1
  {
    if cs == [] then Success((h, None))
    else if key in Names(h, cs[0]) then Set(h, cs[0], key, value)
    else SetFirstOwner(h, cs[1..], key, value)
  }

  // ---------------------------------------------------------------------
  // Composite construction

  /** The names of the first child that repeat a name of an earlier child
      (or of `seen`), if any. */
  function FirstClash(h: Heap, cs: seq<Config>, seen: set<string>): (r: Option<set<string>>)
    ensures r.Some? ==> r.value != {}
  {
    if cs == [] then None
    else if Names(h, cs[0]) * seen != {} then Some(Names(h, cs[0]) * seen)
    else FirstClash(h, cs[1..], seen + Names(h, cs[0]))
  }

  /** `new CompositeConfig(configs, timePattern, allowDuplicates)`: unless
      duplicates are allowed, a child holding a name an earlier child
      holds makes the constructor throw; the children keep their order
      (AbstractCompositeConfig.java:54-71). */
  function NewComposite(h: Heap, cs: seq<Config>, timePattern: Option<string>, allowDuplicates: bool): (r: Result<Config, Fault>)
    ensures r.Success? ==> r.value == Composite(cs, timePattern)
    ensures allowDuplicates ==> r.Success?
    ensures r.Failure? ==> r.error.DuplicateNames? && r.error.names != {}
  {
    if allowDuplicates then Success(Composite(cs, timePattern))
    else
      match FirstClash(h, cs, {})
      case Some(clash) => Failure(DuplicateNames(clash))
      case None => Success(Composite(cs, timePattern))
  }

  /** The constructors without a flag: `new CompositeConfig(configs)` and
      `new CompositeConfig(configs, timePattern)` disallow duplicates
      (CompositeConfig.java:49-51, 57-59). */
  function NewCompositeOf(h: Heap, cs: seq<Config>, timePattern: Option<string>): (r: Result<Config, Fault>) {
    NewComposite(h, cs, timePattern, false)
  }

  // ---------------------------------------------------------------------
  // getData

  /** Every name of a config with its resolved value. */
  function Entries(h: Heap, sys: Sys, c: Config): map<string, string> {
    map k | k in Names(h, c) && Get(h, sys, c, k, None).Some? :: Get(h, sys, c, k, None).value
  }

  /** The entries of the children, a later child's replacing an earlier
      one's on a shared name. */
  function Merged(h: Heap, sys: Sys, cs: seq<Config>): map<string, string> {
    if cs == [] then map[] else Overlay(Entries(h, sys, cs[0]), Merged(h, sys, cs[1..]))
  }

  /** `getData()`: the live store of `ConfigImpl` and `MapConfig`; for a
      composite, a new `Properties` filled with every child's names and
      resolved values (ConfigImpl.java:39-43, MapConfig.java:47-51,
      CompositeConfig.java:71-80). */
  function GetData(h: Heap, sys: Sys, c: Config): (r: (Heap, StoreId))
    requires Good(h)
    ensures Good(r.0) && h.stores.Keys <= r.0.stores.Keys
    ensures forall id :: id in h.stores ==> Deref(r.0, id) == Deref(h, id)
  {
    match c
    case Props(id, _, _) => (h, id)
    case Hash(id, _) => (h, id)
    case Composite(children, _) => Alloc(h, Plain(Merged(h, sys, children)))
  }

  // ---------------------------------------------------------------------
  // subset

  /** `subset(name, separator)`: a new read-only config over a fresh store
      holding the projection of the parent's resolved entries, with the
      parent's time pattern (AbstractConfig.java:195-199 and the legacy
      ConfigSubset.java:35-89). */
  function Subset(h: Heap, sys: Sys, parent: Config, name: string, sep: char, order: seq<string>): (r: Result<(Heap, Config), Fault>)
    requires Good(h)
    requires Subsets.Enumerates(order, Names(h, parent))
    ensures r.Failure? <==> Subsets.SplitThrows(order, name, sep)
    ensures r.Failure? ==> r.error == PatternSyntax
    ensures r.Success? ==> Good(r.value.0) && h.stores.Keys <= r.value.0.stores.Keys
    ensures r.Success? ==> forall id :: id in h.stores ==> Deref(r.value.0, id) == Deref(h, id)
    ensures r.Success? ==> r.value.1.Props? && r.value.1.readOnly && r.value.1.timePattern == parent.timePattern
    ensures r.Success? ==> r.value.1.id !in h.stores && r.value.1.id in r.value.0.stores
  {
    if Subsets.SplitThrows(order, name, sep) then Failure(PatternSyntax)
    else
      EntriesKeys(h, sys, parent);
      var (h1, id) := Alloc(h, Plain(Subsets.SubsetOf(order, Entries(h, sys, parent), name, sep)));
      Success((h1, Props(id, parent.timePattern, true)))
  }

  // ---------------------------------------------------------------------
  // Reads

  /** A name of the config is exactly a key whose raw value is not null. */
  lemma {:induction false} NamesAreReadable(h: Heap, sys: Sys, c: Config, key: string)
    ensures key in Names(h, c) <==> Raw(h, sys, c, key).Some?
    decreases Weight(c), 0
  {
    match c
    case Props(id, _, _) => LookupNames(Deref(h, id), key);
    case Hash(_, _) =>
    case Composite(cs, _) => ChildNamesAreReadable(h, sys, cs, key);
  }

  lemma {:induction false} ChildNamesAreReadable(h: Heap, sys: Sys, cs: seq<Config>, key: string)
    ensures key in NamesAll(h, cs) <==> FirstChildGet(h, sys, cs, key, None).Some?
    decreases WeightAll(cs), 1
  {
    if cs != [] {
      NamesAreReadable(h, sys, cs[0], key);
      ChildNamesAreReadable(h, sys, cs[1..], key);
    }
  }

  /** `Entries` covers every name. */
  lemma EntriesKeys(h: Heap, sys: Sys, c: Config)
    ensures Entries(h, sys, c).Keys == Names(h, c)
  {
    forall k | k in Names(h, c) ensures Get(h, sys, c, k, None).Some? {
      NamesAreReadable(h, sys, c, k);
    }
  }

  /** A composite read is null exactly when every child answers null. */
  lemma {:induction false} FirstChildNone(h: Heap, sys: Sys, cs: seq<Config>, key: string, default: Option<string>)
    ensures FirstChildGet(h, sys, cs, key, default).None? <==>
              forall i :: 0 <= i < |cs| ==> Get(h, sys, cs[i], key, default).None?
    decreases |cs|
  {
    if cs != [] && Get(h, sys, cs[0], key, default).None? {
      var tail := cs[1..];
      FirstChildNone(h, sys, tail, key, default);
      assert forall i :: 1 <= i < |cs| ==> cs[i] == tail[i - 1];
    }
  }

  /** A composite read that is not null is the answer of the first child
      whose `get(key, default)` is not null. */
  lemma {:induction false} FirstChildWins(h: Heap, sys: Sys, cs: seq<Config>, key: string, default: Option<string>)
    ensures FirstChildGet(h, sys, cs, key, default).Some? ==>
              exists i :: 0 <= i < |cs| && Get(h, sys, cs[i], key, default) == FirstChildGet(h, sys, cs, key, default)
                && forall j :: 0 <= j < i ==> Get(h, sys, cs[j], key, default).None?
    decreases |cs|
  {
    if cs != [] && Get(h, sys, cs[0], key, default).None? {
      var tail := cs[1..];
      FirstChildWins(h, sys, tail, key, default);
      if FirstChildGet(h, sys, tail, key, default).Some? {
        var i :| 0 <= i < |tail| && Get(h, sys, tail[i], key, default) == FirstChildGet(h, sys, tail, key, default)
                 && forall j :: 0 <= j < i ==> Get(h, sys, tail[j], key, default).None?;
        assert forall j :: 1 <= j <= i ==> cs[j] == tail[j - 1];
        assert Get(h, sys, cs[i + 1], key, default) == FirstChildGet(h, sys, cs, key, default);
      }
    }
  }

  /** `get(key, default)` with a non-null default is never null
      (AbstractConfig.java:147-151). */
  lemma DefaultIsNeverNull(h: Heap, sys: Sys, c: Config, key: string, d: string)
    ensures DoGet(h, sys, c, key, Some(d)).Some?
    ensures Get(h, sys, c, key, Some(d)).Some?
  {
  }

  /** The default is the last resort: `doGet(key, default)` is the raw
      value when there is one, and the default only when there is none. */
  lemma DefaultIsLastResort(h: Heap, sys: Sys, c: Config, key: string, default: Option<string>)
    ensures Raw(h, sys, c, key).Some? ==> DoGet(h, sys, c, key, default) == Raw(h, sys, c, key)
    ensures Raw(h, sys, c, key).None? ==> DoGet(h, sys, c, key, default) == default
  {
    match c
    case Props(id, _, _) =>
      assert Raw(h, sys, c, key) == Lookup(Deref(h, id), key);
    case Hash(id, _) =>
      assert Raw(h, sys, c, key) == OwnOr(Deref(h, id), key, None);
    case Composite(children, _) =>
      assert Raw(h, sys, c, key) == FirstChildGet(h, sys, children, key, None);
  }

  /** `doGet(key, default)` of a composite as written: every child is asked
      `get(key, default)`, and the default is returned only when all of
      them answer null (AbstractCompositeConfig.java:82-92). */
  function DoGetAsWritten(h: Heap, sys: Sys, c: Config, key: string, default: Option<string>): (r: Option<string>)
    ensures default.None? ==> r == DoGet(h, sys, c, key, None)
    ensures !c.Composite? ==> r == DoGet(h, sys, c, key, default)
  {
    match c
    case Composite(children, _) =>
      (match FirstChildGet(h, sys, children, key, default)
       case Some(v) => Some(v)
       case None => default)
    case _ => DoGet(h, sys, c, key, default)
  }

  /** As written, with a non-null default the first child already answers,
      so the later children are never asked. */
  lemma DefaultStopsAtFirstChild(h: Heap, sys: Sys, cs: seq<Config>, tp: Option<string>, key: string, d: string)
    requires cs != []
    ensures DoGetAsWritten(h, sys, Composite(cs, tp), key, Some(d)) == Get(h, sys, cs[0], key, Some(d))
  {
    DefaultIsNeverNull(h, sys, cs[0], key, d);
  }

  function TwoStoresHeap(): Heap {
    Heap(map[0 := Plain(map[]), 1 := Plain(map["k" := "v"])], 2)
  }

  /** A key held by the second child only: as written, `get("k", "d")`
      answers the default; the intended read finds `v`. */
  lemma DefaultHidesLaterChildren()
    ensures DoGetAsWritten(TwoStoresHeap(), NoSys(), Composite([Props(0, None, false), Props(1, None, false)], None), "k", Some("d")) == Some("d")
    ensures DoGet(TwoStoresHeap(), NoSys(), Composite([Props(0, None, false), Props(1, None, false)], None), "k", Some("d")) == Some("v")
  {
    var h := TwoStoresHeap();
    var cs := [Props(0, None, false), Props(1, None, false)];
    DefaultStopsAtFirstChild(h, NoSys(), cs, None, "k", "d");
    assert DoGet(h, NoSys(), cs[0], "d", None) == None;
    assert Get(h, NoSys(), cs[0], "k", Some("d")) == Some(Resolve("d", Chain(h, NoSys(), cs[0])));
    PlainTextIsFixedPoint("d", Chain(h, NoSys(), cs[0]));
    assert Get(h, NoSys(), cs[0], "k", None) == None;
    assert Raw(h, NoSys(), cs[1], "k") == Some("v");
    assert Get(h, NoSys(), cs[1], "k", None) == Some(Resolve("v", Chain(h, NoSys(), cs[1])));
    PlainTextIsFixedPoint("v", Chain(h, NoSys(), cs[1]));
    assert cs[1..][1..] == [];
    assert FirstChildGet(h, NoSys(), cs[1..], "k", None) == Some("v");
  }

  /** What the chain of a config finds for a name: the config's raw value
      when there is one, otherwise what the environment and the system
      properties find. */
  lemma ChainLookup(h: Heap, sys: Sys, c: Config, n: string)
    ensures Raw(h, sys, c, n).Some? ==> FirstHit(Chain(h, sys, c), n) == Raw(h, sys, c, n)
    ensures Raw(h, sys, c, n).None? ==> FirstHit(Chain(h, sys, c), n) == FirstHit([Table(sys.env), Table(sys.props)], n)
  {
    var chain := Chain(h, sys, c);
    assert chain[1..] == [Table(sys.env), Table(sys.props)];
  }

  // ---------------------------------------------------------------------
  // Aliasing

  /** Heaps that agree on the stores of `c`. */
  predicate SameStores(h1: Heap, h2: Heap, c: Config) {
    forall id :: id in Ids(c) ==> Deref(h1, id) == Deref(h2, id)
  }

  /** Reads see nothing but the config's own stores. */
  lemma {:induction false} DoGetFrame(h1: Heap, h2: Heap, sys: Sys, c: Config, key: string, default: Option<string>)
    requires SameStores(h1, h2, c)
    ensures DoGet(h1, sys, c, key, default) == DoGet(h2, sys, c, key, default)
    decreases Weight(c), 0
  {
    match c
    case Props(id, _, _) => assert id in Ids(c);
    case Hash(id, _) => assert id in Ids(c);
    case Composite(cs, _) => FirstChildGetFrame(h1, h2, sys, cs, key, None);
  }

  lemma {:induction false} GetFrame(h1: Heap, h2: Heap, sys: Sys, c: Config, key: string, default: Option<string>)
    requires SameStores(h1, h2, c)
    ensures Get(h1, sys, c, key, default) == Get(h2, sys, c, key, default)
    decreases Weight(c), 1
  {
    DoGetFrame(h1, h2, sys, c, key, default);
    forall n ensures FirstHit(Chain(h1, sys, c), n) == FirstHit(Chain(h2, sys, c), n) {
      DoGetFrame(h1, h2, sys, c, n, None);
      ChainLookup(h1, sys, c, n);
      ChainLookup(h2, sys, c, n);
    }
    match DoGet(h1, sys, c, key, default)
    case None =>
    case Some(v) => ResolveCongruent(v, Chain(h1, sys, c), Chain(h2, sys, c));
  }

  lemma {:induction false} FirstChildGetFrame(h1: Heap, h2: Heap, sys: Sys, cs: seq<Config>, key: string, default: Option<string>)
    requires forall id :: id in IdsAll(cs) ==> Deref(h1, id) == Deref(h2, id)
    ensures FirstChildGet(h1, sys, cs, key, default) == FirstChildGet(h2, sys, cs, key, default)
    decreases WeightAll(cs), 2
  {
    if cs != [] {
      GetFrame(h1, h2, sys, cs[0], key, default);
      FirstChildGetFrame(h1, h2, sys, cs[1..], key, default);
    }
  }

  /** `getData` of `ConfigImpl` and `MapConfig` is the live store: a write
      made through it is read back through the config, and a write made
      through the config is seen in it (ConfigImpl.java:34-43,
      MapConfig.java:42-51). */
  lemma LiveDataIsShared(h: Heap, sys: Sys, c: Config, key: string, value: string)
    requires Good(h) && Valid(h, c) && (c.Props? || c.Hash?)
    ensures GetData(h, sys, c).0 == h
    ensures var id := GetData(h, sys, c).1;
            Raw(Store(h, id, Put(Deref(h, id), key, value).0), sys, c, key) == Some(value)
    ensures !(c.Props? && c.readOnly) ==>
              Set(h, c, key, value).Success?
              && Lookup(Deref(Set(h, c, key, value).value.0, GetData(h, sys, c).1), key) == Some(value)
  {
    assert c.id in Ids(c);
  }

  /** The composite's `getData` is a new store: nothing written to it
      reaches any child (CompositeConfig.java:65-80). */
  lemma SnapshotIsIndependent(h: Heap, sys: Sys, cs: seq<Config>, tp: Option<string>, s: Layers, key: string, default: Option<string>)
    requires Good(h) && Valid(h, Composite(cs, tp))
    ensures var (h1, id) := GetData(h, sys, Composite(cs, tp));
            id !in Ids(Composite(cs, tp)) && id in h1.stores
            && Get(Store(h1, id, s), sys, Composite(cs, tp), key, default) == Get(h, sys, Composite(cs, tp), key, default)
  {
    var c := Composite(cs, tp);
    var (h1, id) := GetData(h, sys, c);
    GetFrame(Store(h1, id, s), h, sys, c, key, default);
  }

  // ---------------------------------------------------------------------
  // Writes

  /** A composite write lands in the first child that holds the key and
      answers that child's previous value; without such a child nothing
      changes and the answer is null (AbstractCompositeConfig.java:94-104). */
  lemma {:induction false} WriteGoesToFirstOwner(h: Heap, cs: seq<Config>, key: string, value: string, i: nat)
    requires Good(h) && IdsAll(cs) <= h.stores.Keys
    requires i < |cs| && Valid(h, cs[i]) && key in Names(h, cs[i])
    requires forall j :: 0 <= j < i ==> key !in Names(h, cs[j])
    ensures SetFirstOwner(h, cs, key, value) == Set(h, cs[i], key, value)
    decreases i
  {
    if i > 0 {
      assert forall j :: 0 <= j < i - 1 ==> cs[1..][j] == cs[j + 1];
      WriteGoesToFirstOwner(h, cs[1..], key, value, i - 1);
    }
  }

  lemma {:induction false} WriteWithoutOwnerIsIgnored(h: Heap, cs: seq<Config>, key: string, value: string)
    requires Good(h) && IdsAll(cs) <= h.stores.Keys
    requires forall j :: 0 <= j < |cs| ==> key !in Names(h, cs[j])
    ensures SetFirstOwner(h, cs, key, value) == Success((h, None))
    decreases |cs|
  {
    if cs != [] {
      assert forall j :: 0 <= j < |cs| - 1 ==> cs[1..][j] == cs[j + 1];
      WriteWithoutOwnerIsIgnored(h, cs[1..], key, value);
    }
  }

  /** A store takes the value: it reads back through the config, the
      previous own entry is answered, and no other key changes
      (ConfigImpl.java:51-55, MapConfig.java:59-63). */
  lemma StoreWriteReadsBack(h: Heap, sys: Sys, c: Config, key: string, value: string, other: string)
    requires Good(h) && Valid(h, c) && (c.Hash? || (c.Props? && !c.readOnly))
    requires other != key
    ensures Set(h, c, key, value).Success?
    ensures Raw(Set(h, c, key, value).value.0, sys, c, key) == Some(value)
    ensures Raw(Set(h, c, key, value).value.0, sys, c, other) == Raw(h, sys, c, other)
    ensures Set(h, c, key, value).value.1 == (if key in Deref(h, c.id).top then Some(Deref(h, c.id).top[key]) else None)
  {
    assert c.id in Ids(c);
    PutThenLookup(Deref(h, c.id), key, value, other);
  }

  /** A subset refuses every write ("Read only", ConfigSubset.java:91-94). */
  lemma ReadOnlyRefusesWrites(h: Heap, c: Config, key: string, value: string)
    requires Good(h) && Valid(h, c) && c.Props? && c.readOnly
    ensures Set(h, c, key, value) == Failure(ReadOnly)
  {
  }

  /** Text without `$` that was written reads back unchanged through `get`:
      resolution leaves it alone. */
  lemma WrittenTextReadsBack(h: Heap, sys: Sys, c: Config, key: string, text: string)
    requires Good(h) && Valid(h, c) && (c.Hash? || (c.Props? && !c.readOnly))
    requires !Contains(text, '$')
    ensures Set(h, c, key, text).Success?
    ensures Get(Set(h, c, key, text).value.0, sys, c, key, None) == Some(text)
  {
    StoreWriteReadsBack(h, sys, c, key, text, key + "#");
    PlainTextIsFixedPoint(text, Chain(Set(h, c, key, text).value.0, sys, c));
  }

  // ---------------------------------------------------------------------
  // size, names and the merged copy

  lemma {:induction false} InNamesAll(h: Heap, cs: seq<Config>, k: string)
    ensures k in NamesAll(h, cs) <==> exists i :: 0 <= i < |cs| && k in Names(h, cs[i])
    decreases |cs|
  {
    if cs != [] {
      InNamesAll(h, cs[1..], k);
      assert forall i :: 1 <= i < |cs| ==> cs[i] == cs[1..][i - 1];
      if k in NamesAll(h, cs[1..]) {
        var i :| 0 <= i < |cs[1..]| && k in Names(h, cs[1..][i]);
        assert k in Names(h, cs[i + 1]);
      }
    }
  }

  /** Children with no two names alike. */
  predicate Disjoint(h: Heap, cs: seq<Config>) {
    forall i, j :: 0 <= i < j < |cs| ==> Names(h, cs[i]) !! Names(h, cs[j])
  }

  /** The duplicate check passes exactly when no name is seen twice. */
  lemma {:induction false} FirstClashFindsShared(h: Heap, cs: seq<Config>, seen: set<string>)
    ensures FirstClash(h, cs, seen).None? <==>
              Disjoint(h, cs) && forall i :: 0 <= i < |cs| ==> Names(h, cs[i]) !! seen
    decreases |cs|
  {
    if cs != [] {
      var tail := cs[1..];
      var seen1 := seen + Names(h, cs[0]);
      FirstClashFindsShared(h, tail, seen1);
      assert forall i :: 1 <= i < |cs| ==> cs[i] == tail[i - 1];
      if Names(h, cs[0]) * seen == {} {
        if FirstClash(h, tail, seen1).None? {
          forall i, j | 0 <= i < j < |cs| ensures Names(h, cs[i]) !! Names(h, cs[j]) {
            if i > 0 {
              assert Names(h, tail[i - 1]) !! Names(h, tail[j - 1]);
            } else {
              assert Names(h, tail[j - 1]) !! seen1;
            }
          }
          forall i | 0 <= i < |cs| ensures Names(h, cs[i]) !! seen {
            if i > 0 {
              assert Names(h, tail[i - 1]) !! seen1;
            } else {
              forall x | x in Names(h, cs[0]) ensures x !in seen {
                assert x !in Names(h, cs[0]) * seen;
              }
            }
          }
        } else if Disjoint(h, cs) && forall i :: 0 <= i < |cs| ==> Names(h, cs[i]) !! seen {
          forall i | 0 <= i < |tail| ensures Names(h, tail[i]) !! seen1 {
            assert Names(h, cs[0]) !! Names(h, cs[i + 1]);
          }
        }
      }
    }
  }

  /** Without `allowDuplicates` the constructor succeeds exactly when no
      two children share a name (AbstractCompositeConfig.java:58-67); the
      flagless constructors check (CompositeConfig.java:49-51). */
  lemma ConstructorRejectsSharedNames(h: Heap, cs: seq<Config>, tp: Option<string>)
    ensures NewComposite(h, cs, tp, false).Success? <==> Disjoint(h, cs)
    ensures NewCompositeOf(h, cs, tp) == NewComposite(h, cs, tp, false)
    ensures NewComposite(h, cs, tp, true) == Success(Composite(cs, tp))
  {
    FirstClashFindsShared(h, cs, {});
  }

  /** Stores without defaults, at every level. */
  predicate DefaultFree(h: Heap, c: Config)
    decreases c
  {
    match c
    case Props(id, _, _) => Deref(h, id).defaults == []
    case Hash(_, _) => true
    case Composite(cs, _) => forall i :: 0 <= i < |cs| ==> DefaultFree(h, cs[i])
  }

  /** Names disjoint among the children, at every level. */
  predicate Separate(h: Heap, c: Config)
    decreases c
  {
    match c
    case Composite(cs, _) => Disjoint(h, cs) && forall i :: 0 <= i < |cs| ==> Separate(h, cs[i])
    case _ => true
  }

  /** `size()` sums the children's sizes (AbstractCompositeConfig.java:106-113),
      so it counts every name once when no defaults hide names and no two
      children share one, as the duplicate check ensures. */
  lemma {:induction false} SizeCountsNames(h: Heap, c: Config)
    requires DefaultFree(h, c) && Separate(h, c)
    ensures Size(h, c) == |Names(h, c)|
    decreases Weight(c), 0
  {
    match c
    case Props(id, _, _) =>
    case Hash(_, _) =>
    case Composite(cs, _) => SizeAllCountsNames(h, cs);
  }

  lemma {:induction false} SizeAllCountsNames(h: Heap, cs: seq<Config>)
    requires Disjoint(h, cs)
    requires forall i :: 0 <= i < |cs| ==> DefaultFree(h, cs[i]) && Separate(h, cs[i])
    ensures SizeAll(h, cs) == |NamesAll(h, cs)|
    decreases WeightAll(cs), 1
  {
    if cs != [] {
      var tail := cs[1..];
      assert forall i :: 1 <= i < |cs| ==> cs[i] == tail[i - 1];
      SizeCountsNames(h, cs[0]);
      SizeAllCountsNames(h, tail);
      forall k | k in Names(h, cs[0]) ensures k !in NamesAll(h, tail) {
        InNamesAll(h, tail, k);
      }
    }
  }

  /** Two children sharing a name are counted twice by `size()` but named
      once by `getNames()`. */
  lemma SharedNameCountsTwice()
    ensures var h := Heap(map[0 := Plain(map["k" := "a"]), 1 := Plain(map["k" := "b"])], 2);
            var c := Composite([Props(0, None, false), Hash(1, None)], None);
            Size(h, c) == 2 && Names(h, c) == {"k"}
  {
    var h := Heap(map[0 := Plain(map["k" := "a"]), 1 := Plain(map["k" := "b"])], 2);
    var cs := [Props(0, None, false), Hash(1, None)];
    assert cs[1..] == [Hash(1, None)];
    assert cs[1..][1..] == [];
    assert Stores.Names(Deref(h, 0)) == {"k"};
  }

  /** The merged copy holds exactly the children's names, each with the
      resolved value of the last child holding it: later children overwrite
      earlier ones (CompositeConfig.java:71-80). */
  lemma {:induction false} MergedEntries(h: Heap, sys: Sys, cs: seq<Config>, k: string)
    ensures k in Merged(h, sys, cs) <==> k in NamesAll(h, cs)
    ensures k in Merged(h, sys, cs) ==>
              exists i :: 0 <= i < |cs| && k in Names(h, cs[i])
                && (forall j :: i < j < |cs| ==> k !in Names(h, cs[j]))
                && Get(h, sys, cs[i], k, None) == Some(Merged(h, sys, cs)[k])
    decreases |cs|
  {
    if cs != [] {
      var tail := cs[1..];
      EntriesKeys(h, sys, cs[0]);
      MergedEntries(h, sys, tail, k);
      assert forall i :: 1 <= i < |cs| ==> cs[i] == tail[i - 1];
      if k in Merged(h, sys, tail) {
        var i :| 0 <= i < |tail| && k in Names(h, tail[i])
                 && (forall j :: i < j < |tail| ==> k !in Names(h, tail[j]))
                 && Get(h, sys, tail[i], k, None) == Some(Merged(h, sys, tail)[k]);
        assert k in Names(h, cs[i + 1]);
      } else if k in Names(h, cs[0]) {
        InNamesAll(h, tail, k);
        assert Get(h, sys, cs[0], k, None) == Some(Merged(h, sys, cs)[k]);
      }
    }
  }

  /** `getData` of a composite: a fresh store whose entries are the
      children's names with the last holder's resolved value. */
  lemma MergedCopyHoldsLastChild(h: Heap, sys: Sys, cs: seq<Config>, tp: Option<string>, k: string)
    requires Good(h)
    ensures var (h1, id) := GetData(h, sys, Composite(cs, tp));
            id !in h.stores && Deref(h1, id).defaults == []
            && (k in Deref(h1, id).top <==> k in Names(h, Composite(cs, tp)))
            && (k in Deref(h1, id).top ==>
                  exists i :: 0 <= i < |cs| && k in Names(h, cs[i])
                    && (forall j :: i < j < |cs| ==> k !in Names(h, cs[j]))
                    && Get(h, sys, cs[i], k, None) == Some(Deref(h1, id).top[k]))
  {
    MergedEntries(h, sys, cs, k);
  }

  // ---------------------------------------------------------------------
  // Subsets

  /** A subset holds a key exactly when a parent name under the prefix
      renames to it, and then holds the parent's resolved value of such a
      name (ConfigSubset.java:55-86). */
  lemma SubsetReadsParent(h: Heap, sys: Sys, parent: Config, name: string, sep: char, order: seq<string>, k: string)
    requires Good(h)
    requires Subsets.Enumerates(order, Names(h, parent))
    ensures Subset(h, sys, parent, name, sep, order).Success? ==>
            var (h1, sub) := Subset(h, sys, parent, name, sep, order).value;
            Raw(h1, sys, sub, k).Some? ==>
              k != [] &&
              exists i :: 0 <= i < |order| && StartsWith(order[i], name + [sep])
                            && Subsets.Rename(order[i], sep) == k && Raw(h1, sys, sub, k) == Get(h, sys, parent, order[i], None)
    ensures Subset(h, sys, parent, name, sep, order).Success? ==>
            var (h1, sub) := Subset(h, sys, parent, name, sep, order).value;
            forall i :: 0 <= i < |order| && StartsWith(order[i], name + [sep]) && Subsets.Rename(order[i], sep) != [] ==>
              Raw(h1, sys, sub, Subsets.Rename(order[i], sep)).Some?
  {
    if !Subsets.SplitThrows(order, name, sep) {
      EntriesKeys(h, sys, parent);
      var values := Entries(h, sys, parent);
      var (h1, sub) := Subset(h, sys, parent, name, sep, order).value;
      var m := Subsets.SubsetOf(order, values, name, sep);
      assert Deref(h1, sub.id) == Plain(m);
      assert Raw(h1, sys, sub, k) == (if k in m then Some(m[k]) else None);
      if k in m {
        Subsets.SubsetKeysComeFromPrefixedNames(order, values, name, sep, k);
        var i :| 0 <= i < |order| && StartsWith(order[i], name + [sep]) && Subsets.Rename(order[i], sep) == k
                 && m[k] == values[order[i]];
        assert Raw(h1, sys, sub, k) == Some(m[k]);
        assert Get(h, sys, parent, order[i], None) == Some(values[order[i]]);
      }
      forall i | 0 <= i < |order| && StartsWith(order[i], name + [sep]) && Subsets.Rename(order[i], sep) != []
        ensures Subsets.Rename(order[i], sep) in m
      {
        Subsets.PrefixedNamesAreCopied(order, values, name, sep, i);
      }
    }
  }

  /** A subset is a snapshot: later writes to the parent leave it as it
      was, and it refuses writes of its own (ConfigSubset.java:37, 91-94). */
  lemma SubsetIsSnapshot(h: Heap, sys: Sys, parent: Config, name: string, sep: char, order: seq<string>,
                         key: string, value: string, k: string)
    requires Good(h) && Valid(h, parent)
    requires Subsets.Enumerates(order, Names(h, parent))
    ensures Subset(h, sys, parent, name, sep, order).Success? ==>
            var (h1, sub) := Subset(h, sys, parent, name, sep, order).value;
            Valid(h1, parent) && Valid(h1, sub)
            && Set(h1, sub, key, value) == Failure(ReadOnly)
            && (Set(h1, parent, key, value).Success? ==>
                  Raw(Set(h1, parent, key, value).value.0, sys, sub, k) == Raw(h1, sys, sub, k))
  {
    if !Subsets.SplitThrows(order, name, sep) {
      var (h1, sub) := Subset(h, sys, parent, name, sep, order).value;
      assert sub.id !in Ids(parent);
    }
  }

  // ---------------------------------------------------------------------
  // Resolving twice

  /** No environment variables and no system properties. */
  function NoSys(): Sys {
    Sys(map[], map[])
  }

  /** A raw value that is one placeholder reads as the raw value it names,
      with slashes for backslashes; when that value holds no `$`, the Java
      loop's `appendReplacement` gives the same. */
  lemma GetOfReference(h: Heap, sys: Sys, c: Config, key: string, k: string, v: string)
    requires IsName(k)
    requires Raw(h, sys, c, key) == Some("${" + k + "}")
    requires Raw(h, sys, c, k) == Some(v)
    ensures Get(h, sys, c, key, None) == Some(SlashPaths(v))
    ensures !Contains(v, '$') ==> ResolveAsWritten("${" + k + "}", Chain(h, sys, c)) == Success(SlashPaths(v))
  {
    ChainLookup(h, sys, c, k);
    ResolveSingle(k, Chain(h, sys, c));
    if !Contains(v, '$') {
      SingleAsWritten(k, Chain(h, sys, c));
    }
  }

  /** The raw value of a composite over one child is the child's resolved
      value. */
  lemma SingleChildRaw(h: Heap, sys: Sys, child: Config, tp: Option<string>, key: string)
    ensures Raw(h, sys, Composite([child], tp), key) == Get(h, sys, child, key, None)
  {
    assert [child][1..] == [];
    assert FirstChildGet(h, sys, [], key, None) == None;
    assert FirstChildGet(h, sys, [child], key, None) == Get(h, sys, child, key, None);
    assert DoGet(h, sys, Composite([child], tp), key, None) == FirstChildGet(h, sys, [child], key, None);
  }

  /** A raw value without `$` reads as itself. */
  lemma PlainReadsItself(h: Heap, sys: Sys, c: Config, key: string, x: string)
    requires !Contains(x, '$')
    requires Raw(h, sys, c, key) == Some(x)
    ensures Get(h, sys, c, key, None) == Some(x)
  {
    PlainTextIsFixedPoint(x, Chain(h, sys, c));
  }

  /** A one-child composite whose child reads `key` as the placeholder of
      `k` reads `key` as the child's reading of `k`, slashes fixed; the
      composite's own `appendReplacement` agrees when that reading holds
      no `$`. */
  lemma CompositeOfReference(h: Heap, sys: Sys, child: Config, key: string, k: string, v: string)
    requires IsName(k)
    requires Get(h, sys, child, key, None) == Some("${" + k + "}")
    requires Get(h, sys, child, k, None) == Some(v)
    ensures Get(h, sys, Composite([child], None), key, None) == Some(SlashPaths(v))
    ensures !Contains(v, '$') ==>
              ResolveAsWritten("${" + k + "}", Chain(h, sys, Composite([child], None))) == Success(SlashPaths(v))
  {
    SingleChildRaw(h, sys, child, None, key);
    SingleChildRaw(h, sys, child, None, k);
    GetOfReference(h, sys, Composite([child], None), key, k, v);
  }

  /** A composite resolves what its child has already resolved.  Over a
      child holding `a=$${p}`, `p={x}`, `x=v`, the child reads `a` in one
      pass as `${x}`, and the Java loop agrees since `{x}` holds no `$`;
      the composite takes `${x}` as its raw value, resolves it again by
      looking `x` up through the child, and reads `v`. */
  lemma CompositeResolvesTwice(h: Heap, sys: Sys, child: Config, a: string, p: string, x: string, v: string)
    requires IsName(p) && IsName(x) && !Contains(x, '$') && !Contains(x, '\\')
    requires !Contains(v, '$') && !Contains(v, '\\')
    requires Raw(h, sys, child, a) == Some("$${" + p + "}")
    requires Raw(h, sys, child, p) == Some("{" + x + "}")
    requires Raw(h, sys, child, x) == Some(v)
    ensures Get(h, sys, child, a, None) == Some("${" + x + "}")
    ensures ResolveAsWritten("$${" + p + "}", Chain(h, sys, child)) == Success("${" + x + "}")
    ensures Get(h, sys, Composite([child], None), a, None) == Some(v)
  {
    ChainLookup(h, sys, child, p);
    ChainLookup(h, sys, child, x);
    SubstitutedTextIsNotRescanned(p, x, v, Chain(h, sys, child));
    PlainReadsItself(h, sys, child, x, v);
    CompositeOfReference(h, sys, child, a, x, v);
    SlashPathsKeeps(v);
  }
}

=== FILE: equality.dfy ===
/** `AbstractConfig.equals`, in both trees.

    Two configs are equal when they are the same object, or when they are
    of the same class and have equal time patterns and equal data (the
    `Properties` or `Map` their `getData`/`getProperties` hands out; a
    `Properties` compares its own entries only, never its defaults).

    As written, the method casts the other object to `ConfigImpl` after
    the class test, so two distinct objects of any other class - two
    `MapConfig`s, two `CompositeConfig`s - make it throw
    `ClassCastException` instead of answering.  `EqualsAsWritten` keeps
    that cast; `Equals` is the comparison the method evidently intends.
 */
module Equality {
  import opened Wrappers
  import opened Stores
  import opened Configs

  /** The runtime class of a config. */
  datatype Class = ConfigImplClass | SubsetClass | MapConfigClass | CompositeClass

  /** The classes a cast to `ConfigImpl` accepts: `ConfigSubset` extends
      `ConfigImpl`. */
  predicate IsConfigImplClass(cls: Class) {
    cls == ConfigImplClass || cls == SubsetClass
  }

  /** What `equals` looks at: the class, the time pattern, and the entries
      of the data. */
  datatype View = View(cls: Class, timePattern: Option<string>, data: map<string, string>)

  /** `equals(obj)` as written (AbstractConfig.java:518-537 in the current
      tree, 481-500 in the legacy one): `other` is `None` for null and
      `sameObject` says the two references are one. */
  function EqualsAsWritten(v: View, other: Option<View>, sameObject: bool): (r: Result<bool, Fault>)
    requires sameObject ==> other == Some(v)
    ensures r.Failure? ==> r.error == ClassCast
    ensures sameObject ==> r == Success(true)
    ensures other.None? ==> r == Success(false)
  {
    if sameObject then Success(true)
    else if other.None? then Success(false)
    else if v.cls != other.value.cls then Success(false)
    else if !IsConfigImplClass(other.value.cls) then Failure(ClassCast)
    else if v.timePattern != other.value.timePattern then Success(false)
    else Success(v.data == other.value.data)
  }

  /** `equals(obj)` without the cast: same object, or same class, time
      pattern and data. */
  function Equals(v: View, other: Option<View>, sameObject: bool): (r: bool)
    requires sameObject ==> other == Some(v)
    ensures r <==> sameObject || (other.Some? && other.value == v)
  {
    if sameObject then true
    else if other.None? then false
    else if v.cls != other.value.cls then false
    else if v.timePattern != other.value.timePattern then false
    else v.data == other.value.data
  }

  // ---------------------------------------------------------------------
  // The current tree's configs seen by `equals`

  function ClassOf(c: Config): Class {
    match c
    case Props(_, _, readOnly) => if readOnly then SubsetClass else ConfigImplClass
    case Hash(_, _) => MapConfigClass
    case Composite(_, _) => CompositeClass
  }

  /** The data `getData` hands out, as entries: the own entries of the
      store, or the merged copy of a composite (ConfigImpl.java:39-43,
      MapConfig.java:47-51, CompositeConfig.java:71-80). */
  function DataOf(h: Heap, sys: Sys, c: Config): map<string, string> {
    match c
    case Props(id, _, _) => Deref(h, id).top
    case Hash(id, _) => Deref(h, id).top
    case Composite(children, _) => Merged(h, sys, children)
  }

  function ViewOf(h: Heap, sys: Sys, c: Config): View {
    View(ClassOf(c), c.timePattern, DataOf(h, sys, c))
  }

  // ---------------------------------------------------------------------
  // Properties

  /** Two distinct objects of one class other than `ConfigImpl` and its
      subclass make the written method throw. */
  lemma AsWrittenThrowsOutsideConfigImpl(v: View, other: View)
    requires v.cls == other.cls && !IsConfigImplClass(v.cls)
    ensures EqualsAsWritten(v, Some(other), false) == Failure(ClassCast)
  {
  }

  /** Where the cast succeeds, or is never reached, the written method
      answers what the intended one does. */
  lemma AsWrittenAgreesOtherwise(v: View, other: Option<View>, sameObject: bool)
    requires sameObject ==> other == Some(v)
    requires sameObject || other.None? || other.value.cls != v.cls || IsConfigImplClass(v.cls)
    ensures EqualsAsWritten(v, other, sameObject) == Success(Equals(v, other, sameObject))
  {
  }

  /** The intended equality is an equivalence: reflexive, symmetric and
      transitive over distinct objects. */
  lemma EqualsIsEquivalence(a: View, b: View, c: View)
    ensures Equals(a, Some(a), false)
    ensures Equals(a, Some(b), false) == Equals(b, Some(a), false)
    ensures Equals(a, Some(b), false) && Equals(b, Some(c), false) ==> Equals(a, Some(c), false)
  {
  }

  function TwoMapsHeap(): Heap {
    Heap(map[0 := Plain(map["k" := "v"]), 1 := Plain(map["k" := "v"])], 2)
  }

  /** Two `MapConfig`s over equal maps: the written method throws, the
      intended one answers true; so do two composites. */
  lemma MapConfigsCannotBeCompared()
    ensures EqualsAsWritten(ViewOf(TwoMapsHeap(), Sys(map[], map[]), Hash(0, None)),
                            Some(ViewOf(TwoMapsHeap(), Sys(map[], map[]), Hash(1, None))), false)
         == Failure(ClassCast)
    ensures Equals(ViewOf(TwoMapsHeap(), Sys(map[], map[]), Hash(0, None)),
                   Some(ViewOf(TwoMapsHeap(), Sys(map[], map[]), Hash(1, None))), false)
    ensures EqualsAsWritten(ViewOf(TwoMapsHeap(), Sys(map[], map[]), Composite([], None)),
                            Some(ViewOf(TwoMapsHeap(), Sys(map[], map[]), Composite([], None))), false)
         == Failure(ClassCast)
  {
  }

  /** Two `ConfigImpl`s over the same own entries are equal even when
      their defaults differ and so their reads differ. */
  lemma EqualityIgnoresDefaults()
    ensures Equals(ViewOf(Heap(map[0 := Layers(map[], [map["k" := "d"]]), 1 := Plain(map[])], 2), Sys(map[], map[]), Props(0, None, false)),
                   Some(ViewOf(Heap(map[0 := Layers(map[], [map["k" := "d"]]), 1 := Plain(map[])], 2), Sys(map[], map[]), Props(1, None, false))),
                   false)
    ensures Raw(Heap(map[0 := Layers(map[], [map["k" := "d"]]), 1 := Plain(map[])], 2), Sys(map[], map[]), Props(0, None, false), "k") == Some("d")
    ensures Raw(Heap(map[0 := Layers(map[], [map["k" := "d"]]), 1 := Plain(map[])], 2), Sys(map[], map[]), Props(1, None, false), "k") == None
  {
  }

  /** A config equals itself through the intended method, and through the
      written one only while it is the same object or a `ConfigImpl`. */
  lemma SelfComparison(h: Heap, sys: Sys, c: Config)
    ensures Equals(ViewOf(h, sys, c), Some(ViewOf(h, sys, c)), false)
    ensures EqualsAsWritten(ViewOf(h, sys, c), Some(ViewOf(h, sys, c)), true) == Success(true)
    ensures EqualsAsWritten(ViewOf(h, sys, c), Some(ViewOf(h, sys, c)), false).Failure? <==> !c.Props?
  {
  }
}

=== FILE: groups.dfy ===
/** `ConfigGroupImpl`, in both trees: a `HashMap` from file names to
    configs whose `...For` methods look the config up and delegate to it.
    A file name the group does not hold gives a null config, and the
    delegated call then throws `NullPointerException`.
 */
module Groups {
  import opened Wrappers
  import opened Text
  import opened Stores
  import Subsets
  import Configs
  import Legacy

  // ---------------------------------------------------------------------
  // The current tree

  type Group = map<string, Configs.Config>

  /** Every config of the group lives in the heap. */
  predicate Valid(h: Heap, g: Group) {
    forall name :: name in g ==> Configs.Valid(h, g[name])
  }

  /** `new ConfigGroupImpl(key, properties[, timePattern])`: one entry, a
      new `ConfigImpl`; without a pattern the default one is used; a null
      `Properties` throws (ConfigGroupImpl.java:21-27). */
  function NewGroup(key: string, data: Option<StoreId>, timePattern: Option<string>): (r: Result<Group, Fault>)
    ensures r.Failure? <==> data.None?
    ensures r.Failure? ==> r.error == NullReference
    ensures r.Success? ==> r.value.Keys == {key} && r.value[key] == Configs.Props(data.value, timePattern, false)
  {
    match Configs.NewConfigImpl(data, timePattern)
    case Failure(f) => Failure(f)
    case Success(c) => Success(map[key := c])
  }

  /** `new ConfigGroupImpl(key, properties)`: the default time pattern. */
  function NewGroupWithDefaultPattern(key: string, data: Option<StoreId>): Result<Group, Fault> {
    NewGroup(key, data, Some(Configs.DefaultTimePattern))
  }

  /** `getFor(filename, key, default)`; `getFor(filename, key)` is the same
      with a null default (ConfigGroupImpl.java:60-70). */
  function GetFor(h: Heap, sys: Configs.Sys, g: Group, filename: string, key: string, default: Option<string>): (r: Result<Option<string>, Fault>)
    ensures r.Failure? <==> filename !in g
    ensures r.Failure? ==> r.error == NullReference
  {
    if filename in g then Success(Configs.Get(h, sys, g[filename], key, default)) else Failure(NullReference)
  }

  /** `setFor(filename, key, value)` (ConfigGroupImpl.java:72-76). */
  function SetFor(h: Heap, g: Group, filename: string, key: string, value: string): (r: Result<(Heap, Option<string>), Fault>)
    requires Good(h) && Valid(h, g)
    ensures filename !in g ==> r == Failure(NullReference)
    ensures r.Success? ==> Good(r.value.0) && r.value.0.stores.Keys == h.stores.Keys
  {
    if filename in g then Configs.Set(h, g[filename], key, value) else Failure(NullReference)
  }

  /** `subset(filename, name, separator)` (ConfigGroupImpl.java:52-58). */
  function SubsetFor(h: Heap, sys: Configs.Sys, g: Group, filename: string, name: string, sep: char, order: seq<string>): (r: Result<(Heap, Configs.Config), Fault>)
    requires Good(h)
    requires filename in g ==> Subsets.Enumerates(order, Configs.Names(h, g[filename]))
    ensures r.Failure? <==> filename !in g || Subsets.SplitThrows(order, name, sep)
    ensures filename !in g ==> r == Failure(NullReference)
    ensures filename in g && r.Failure? ==> r.error == PatternSyntax
    ensures r.Success? ==> r.value.1.Props? && r.value.1.readOnly
  {
    if filename in g then Configs.Subset(h, sys, g[filename], name, sep, order) else Failure(NullReference)
  }

  /** A file name the group holds answers what its config answers. */
  lemma GroupDelegates(h: Heap, sys: Configs.Sys, g: Group, filename: string, key: string, default: Option<string>)
    requires filename in g
    ensures GetFor(h, sys, g, filename, key, default) == Success(Configs.Get(h, sys, g[filename], key, default))
    ensures default.Some? ==> GetFor(h, sys, g, filename, key, default).value.Some?
  {
    if default.Some? {
      Configs.DefaultIsNeverNull(h, sys, g[filename], key, default.value);
    }
  }

  /** Text without `$` set for a writable file reads back for it. */
  lemma SetForThenGetFor(h: Heap, sys: Configs.Sys, g: Group, filename: string, key: string, text: string)
    requires Good(h) && Valid(h, g) && filename in g && !Contains(text, '$')
    requires g[filename].Hash? || (g[filename].Props? && !g[filename].readOnly)
    ensures SetFor(h, g, filename, key, text).Success?
    ensures GetFor(SetFor(h, g, filename, key, text).value.0, sys, g, filename, key, None) == Success(Some(text))
  {
    Configs.WrittenTextReadsBack(h, sys, g[filename], key, text);
  }

  /** A subset file refuses writes made through the group. */
  lemma SubsetFileIsReadOnly(h: Heap, g: Group, filename: string, key: string, value: string)
    requires Good(h) && Valid(h, g) && filename in g && g[filename].Props? && g[filename].readOnly
    ensures SetFor(h, g, filename, key, value) == Failure(ReadOnly)
  {
  }

  // ---------------------------------------------------------------------
  // The legacy tree

  type LGroup = map<string, Legacy.LConfig>

  predicate LValid(h: Heap, g: LGroup) {
    forall name :: name in g ==> Legacy.Valid(h, g[name])
  }

  /** `new ConfigGroupImpl(key, properties, timePattern)`
      (ConfigGroupImpl.java:21-27 of the legacy tree). */
  function NewLegacyGroup(key: string, data: Option<StoreId>, timePattern: Option<string>): (r: Result<LGroup, Fault>)
    ensures r.Failure? <==> data.None?
    ensures r.Failure? ==> r.error == NullReference
    ensures r.Success? ==> r.value.Keys == {key} && r.value[key] == Legacy.LProps(data.value, timePattern, false)
  {
    match Legacy.NewConfigImpl(data, timePattern, false)
    case Failure(f) => Failure(f)
    case Success(c) => Success(map[key := c])
  }

  /** `getPropertyFor(filename, key[, default])`: the config's resolved
      `getProperty`. */
  function GetPropertyFor(h: Heap, props: map<string, string>, g: LGroup, filename: string, key: string, default: Option<string>): (r: Result<Option<string>, Fault>)
    ensures r.Failure? <==> filename !in g
    ensures r.Failure? ==> r.error == NullReference
  {
    if filename in g then Success(Legacy.GetProperty(h, props, g[filename], key, default)) else Failure(NullReference)
  }

  /** `setPropertyFor(filename, key, value)`. */
  function SetPropertyFor(h: Heap, g: LGroup, filename: string, key: string, value: string): (r: Result<(Heap, Option<string>), Fault>)
    requires Good(h) && LValid(h, g)
    ensures filename !in g ==> r == Failure(NullReference)
    ensures r.Success? ==> Good(r.value.0) && r.value.0.stores.Keys == h.stores.Keys
  {
    if filename in g then Legacy.SetProperty(h, g[filename], key, value) else Failure(NullReference)
  }

  /** `subset(filename, name, separator)`. */
  function LegacySubsetFor(h: Heap, props: map<string, string>, g: LGroup, filename: string, name: string, sep: char, order: seq<string>): (r: Result<(Heap, Legacy.LConfig), Fault>)
    requires Good(h)
    requires filename in g ==> Subsets.Enumerates(order, Legacy.Names(h, g[filename]))
    ensures r.Failure? <==> filename !in g || Subsets.SplitThrows(order, name, sep)
    ensures filename !in g ==> r == Failure(NullReference)
    ensures filename in g && r.Failure? ==> r.error == PatternSyntax
    ensures r.Success? ==> r.value.1.LProps? && r.value.1.readOnly
  {
    if filename in g then Legacy.Subset(h, props, g[filename], name, sep, order) else Failure(NullReference)
  }

  /** Text without `$` set for a legacy `ConfigImpl` file reads back
      through the group. */
  lemma LegacySetThenGet(h: Heap, props: map<string, string>, g: LGroup, filename: string, key: string, text: string)
    requires Good(h) && LValid(h, g) && filename in g && !Contains(text, '$')
    requires g[filename].LProps? && !g[filename].readOnly
    ensures SetPropertyFor(h, g, filename, key, text).Success?
    ensures GetPropertyFor(SetPropertyFor(h, g, filename, key, text).value.0, props, g, filename, key, None) == Success(Some(text))
  {
    var c := g[filename];
    assert Legacy.Valid(h, c);
    assert c.id in h.stores by {
      assert c.id in Legacy.Ids(c);
    }
    assert SetPropertyFor(h, g, filename, key, text).value.0 == Store(h, c.id, Put(Deref(h, c.id), key, text).0);
    Legacy.PlainWriteReadsBack(h, props, c.id, c.timePattern, key, text);
  }
}

=== FILE: legacy.dfy ===
/** The legacy tree (`src/com/bc/config`): `ConfigImpl` over a
    `Properties`, the read-only `ConfigSubset`, and a `CompositeConfig` that
    holds, not its children, but the `Properties` each child's
    `getProperties()` handed out when the composite was built.

    Reads resolve placeholders with the config's raw `doGetProperty` and
    then the system properties (no environment).  A composite reads its
    stores' raw values, so unlike the current tree it resolves once, and it
    writes straight into a store, past any `setProperty` override of the
    child that owned it.
 */
module Legacy {
  import opened Wrappers
  import opened Text
  import opened Stores
  import opened Resolver
  import Subsets
  import Values
  import Accessors
  import Placeholder

  /** `ConfigImpl` (a `ConfigSubset` when `readOnly`) and `CompositeConfig`
      over the ids of its stores. */
  datatype LConfig =
    | LProps(id: StoreId, timePattern: Option<string>, readOnly: bool)
    | LComposite(ids: seq<StoreId>, timePattern: Option<string>)

  /** `new ConfigImpl(props, timePattern)` and `new ConfigSubset(props,
      timePattern)`: a null store throws (ConfigImpl.java:25-28,
      ConfigSubset.java:31-33). */
  function NewConfigImpl(data: Option<StoreId>, timePattern: Option<string>, readOnly: bool): (r: Result<LConfig, Fault>)
    ensures data.None? <==> r.Failure?
    ensures r.Failure? ==> r.error == NullReference
    ensures r.Success? ==> r.value == LProps(data.value, timePattern, readOnly)
  {
    match data
    case None => Failure(NullReference)
    case Some(id) => Success(LProps(id, timePattern, readOnly))
  }

  function Ids(c: LConfig): set<StoreId> {
    match c
    case LProps(id, _, _) => {id}
    case LComposite(ids, _) => set id | id in ids
  }

  predicate Valid(h: Heap, c: LConfig) {
    Ids(c) <= h.stores.Keys
  }

  // ---------------------------------------------------------------------
  // Reads

  /** The loop of the composite's `doGetProperty`: the first store whose
      `getProperty(key, default)` is not null. */
  function FirstHolder(h: Heap, ids: seq<StoreId>, key: string, default: Option<string>): Option<string> {
    if ids == [] then None
    else
      match LookupOr(Deref(h, ids[0]), key, default)
      case Some(v) => Some(v)
      case None => FirstHolder(h, ids[1..], key, default)
  }

  /** `doGetProperty(key, default)`: the store's read; for a composite, the
      first store holding the key, else the default
      (ConfigImpl.java:46-50, CompositeConfig.java:88-98).  The source hands
      the default to every store, so the first store always answers; that
      is `DoGetPropertyAsWritten`. */
  function DoGetProperty(h: Heap, c: LConfig, key: string, default: Option<string>): Option<string> {
    match c
    case LProps(id, _, _) => LookupOr(Deref(h, id), key, default)
    case LComposite(ids, _) =>
      match FirstHolder(h, ids, key, None)
      case Some(v) => Some(v)
      case None => default
  }

  /** `doGetProperty(key, default)` as written. */
  function DoGetPropertyAsWritten(h: Heap, c: LConfig, key: string, default: Option<string>): (r: Option<string>)
    ensures default.None? ==> r == DoGetProperty(h, c, key, None)
    ensures c.LProps? ==> r == DoGetProperty(h, c, key, default)
  {
    match c
    case LProps(_, _, _) => DoGetProperty(h, c, key, default)
    case LComposite(ids, _) =>
      match FirstHolder(h, ids, key, default)
      case Some(v) => Some(v)
      case None => default
  }

  /** `doGetProperty(key)` (AbstractConfig.java:69-71). */
  function Raw(h: Heap, c: LConfig, key: string): Option<string> {
    DoGetProperty(h, c, key, None)
  }

  /** The lookup chain of `resolveReferences`: the raw getter, then
      `System.getProperty` (AbstractConfig.java:93-97). */
  function Chain(h: Heap, props: map<string, string>, c: LConfig): seq<Source> {
    LegacyChain(k => Raw(h, c, k), props)
  }

  /** `getProperty(key)` and `getProperty(key, default)`: null when
      `doGetProperty` is null, otherwise its value resolved
      (AbstractConfig.java:73-83). */
  function GetProperty(h: Heap, props: map<string, string>, c: LConfig, key: string, default: Option<string>): Option<string> {
    match DoGetProperty(h, c, key, default)
    case None => None
    case Some(v) => Some(Resolve(v, Chain(h, props, c)))
  }

  /** The names of the stores together. */
  function NamesOf(h: Heap, ids: seq<StoreId>): set<string> {
    if ids == [] then {} else Stores.Names(Deref(h, ids[0])) + NamesOf(h, ids[1..])
  }

  /** `stringPropertyNames()` (ConfigImpl.java:63-66,
      CompositeConfig.java:138-145). */
  function Names(h: Heap, c: LConfig): set<string> {
    match c
    case LProps(id, _, _) => Stores.Names(Deref(h, id))
    case LComposite(ids, _) => NamesOf(h, ids)
  }

  function SizeOf(h: Heap, ids: seq<StoreId>): nat {
    if ids == [] then 0 else Stores.Size(Deref(h, ids[0])) + SizeOf(h, ids[1..])
  }

  /** `size()`: own entries, summed over a composite's stores
      (ConfigImpl.java:58-61, CompositeConfig.java:129-136). */
  function Size(h: Heap, c: LConfig): nat {
    match c
    case LProps(id, _, _) => Stores.Size(Deref(h, id))
    case LComposite(ids, _) => SizeOf(h, ids)
  }

  // ---------------------------------------------------------------------
  // Writes

  /** The loop of the composite's `doSetProperty`: the first store whose
      names hold the key takes the value; without one nothing changes and
      the answer is null. */
  function WriteFirstHolder(h: Heap, ids: seq<StoreId>, key: string, value: string): (r: (Heap, Option<string>))
    requires Good(h) && forall i :: 0 <= i < |ids| ==> ids[i] in h.stores
    ensures Good(r.0) && r.0.stores.Keys == h.stores.Keys
    ensures forall id :: (forall i :: 0 <= i < |ids| ==> ids[i] != id) ==> Deref(r.0, id) == Deref(h, id)
  {
    if ids == [] then (h, None)
    else if key in Stores.Names(Deref(h, ids[0])) then
      var (s, previous) := Put(Deref(h, ids[0]), key, value);
      (Store(h, ids[0], s), previous)
    else WriteFirstHolder(h, ids[1..], key, value)
  }

  /** `setProperty(key, value)`: a subset refuses; a `ConfigImpl` writes its
      store; a composite writes the first store holding the key
      (ConfigSubset.java:91-94, ConfigImpl.java:52-56,
      CompositeConfig.java:100-110). */
  function SetProperty(h: Heap, c: LConfig, key: string, value: string): (r: Result<(Heap, Option<string>), Fault>)
    requires Good(h) && Valid(h, c)
    ensures r.Failure? <==> c.LProps? && c.readOnly
    ensures r.Success? ==> Good(r.value.0) && r.value.0.stores.Keys == h.stores.Keys
    ensures r.Success? ==> forall id :: id !in Ids(c) ==> Deref(r.value.0, id) == Deref(h, id)
  {
    match c
    case LProps(id, _, readOnly) =>
      if readOnly then Failure(ReadOnly)
      else
        var (s, previous) := Put(Deref(h, id), key, value);
        Success((Store(h, id, s), previous))
    case LComposite(ids, _) =>
      assert forall i :: 0 <= i < |ids| ==> ids[i] in Ids(c);
      Success(WriteFirstHolder(h, ids, key, value))
  }

  // ---------------------------------------------------------------------
  // getProperties and construction

  /** The visible entries of the stores, a later store's replacing an
      earlier one's. */
  function MergedRaw(h: Heap, ids: seq<StoreId>): map<string, string> {
    if ids == [] then map[] else Overlay(Visible(Deref(h, ids[0])), MergedRaw(h, ids[1..]))
  }

  /** `getProperties()`: the live store of a `ConfigImpl`; for a composite
      a new `Properties` with every store's names and raw values
      (ConfigImpl.java:35-44, CompositeConfig.java:118-127). */
  function GetProperties(h: Heap, c: LConfig): (r: (Heap, StoreId))
    requires Good(h)
    ensures Good(r.0) && h.stores.Keys <= r.0.stores.Keys
    ensures forall id :: id in h.stores ==> Deref(r.0, id) == Deref(h, id)
    ensures c.LProps? ==> r == (h, c.id)
    ensures c.LComposite? ==> r.1 !in h.stores && r.1 in r.0.stores
  {
    match c
    case LProps(id, _, _) => (h, id)
    case LComposite(ids, _) => Alloc(h, Plain(MergedRaw(h, ids)))
  }

  /** The stores a new composite holds: each child's `getProperties()`,
      in order. */
  function PropsOf(h: Heap, cs: seq<LConfig>): (r: (Heap, seq<StoreId>))
    requires Good(h) && forall i :: 0 <= i < |cs| ==> Valid(h, cs[i])
    ensures Good(r.0) && h.stores.Keys <= r.0.stores.Keys
    ensures forall id :: id in h.stores ==> Deref(r.0, id) == Deref(h, id)
    ensures |r.1| == |cs| && forall i :: 0 <= i < |r.1| ==> r.1[i] in r.0.stores
    ensures forall i :: 0 <= i < |cs| && cs[i].LProps? ==> r.1[i] == cs[i].id
    decreases |cs|
  {
    if cs == [] then (h, [])
    else
      var (h1, id) := GetProperties(h, cs[0]);
      assert forall i :: 0 <= i < |cs[1..]| ==> Valid(h1, cs[1..][i]) by {
        forall i | 0 <= i < |cs[1..]| ensures Valid(h1, cs[1..][i]) {
          assert Valid(h, cs[i + 1]);
        }
      }
      var (h2, rest) := PropsOf(h1, cs[1..]);
      assert id in h1.stores by {
        assert Valid(h, cs[0]);
      }
      (h2, [id] + rest)
  }

  /** The names of the first store that repeat a name of an earlier store
      (or of `seen`), if any. */
  function FirstClash(h: Heap, ids: seq<StoreId>, seen: set<string>): (r: Option<set<string>>)
    ensures r.Some? ==> r.value != {}
  {
    if ids == [] then None
    else if Stores.Names(Deref(h, ids[0])) * seen != {} then Some(Stores.Names(Deref(h, ids[0])) * seen)
    else FirstClash(h, ids[1..], seen + Stores.Names(Deref(h, ids[0])))
  }

  /** `new CompositeConfig(configs, timePattern, allowDuplicates)`: the
      children's `getProperties()` in order; unless duplicates are allowed,
      a store repeating a name of an earlier one makes the constructor
      throw (CompositeConfig.java:68-86). */
  function NewComposite(h: Heap, cs: seq<LConfig>, timePattern: Option<string>, allowDuplicates: bool): (r: Result<(Heap, LConfig), Fault>)
    requires Good(h) && forall i :: 0 <= i < |cs| ==> Valid(h, cs[i])
    ensures allowDuplicates ==> r.Success?
    ensures r.Success? ==> Good(r.value.0) && Valid(r.value.0, r.value.1)
    ensures r.Success? ==> r.value.1.LComposite? && |r.value.1.ids| == |cs| && r.value.1.timePattern == timePattern
    ensures r.Failure? ==> r.error.DuplicateNames? && r.error.names != {}
  {
    var (h1, ids) := PropsOf(h, cs);
    if !allowDuplicates && FirstClash(h1, ids, {}).Some? then Failure(DuplicateNames(FirstClash(h1, ids, {}).value))
    else Success((h1, LComposite(ids, timePattern)))
  }

  // ---------------------------------------------------------------------
  // subset

  /** Every name of a config with its resolved value. */
  function Entries(h: Heap, props: map<string, string>, c: LConfig): map<string, string> {
    map k | k in Names(h, c) && GetProperty(h, props, c, k, None).Some? :: GetProperty(h, props, c, k, None).value
  }

  /** `new ConfigSubset(parent, name, separator)`: a read-only config over a
      new store holding the projection of the parent's resolved entries
      (ConfigSubset.java:35-89). */
  function Subset(h: Heap, props: map<string, string>, parent: LConfig, name: string, sep: char, order: seq<string>): (r: Result<(Heap, LConfig), Fault>)
    requires Good(h)
    requires Subsets.Enumerates(order, Names(h, parent))
    ensures r.Failure? <==> Subsets.SplitThrows(order, name, sep)
    ensures r.Failure? ==> r.error == PatternSyntax
    ensures r.Success? ==> Good(r.value.0) && h.stores.Keys <= r.value.0.stores.Keys
    ensures r.Success? ==> forall id :: id in h.stores ==> Deref(r.value.0, id) == Deref(h, id)
    ensures r.Success? ==> r.value.1.LProps? && r.value.1.readOnly && r.value.1.timePattern == parent.timePattern
    ensures r.Success? ==> r.value.1.id !in h.stores && r.value.1.id in r.value.0.stores
  {
    if Subsets.SplitThrows(order, name, sep) then Failure(PatternSyntax)
    else
      EntriesKeys(h, props, parent);
      var (h1, id) := Alloc(h, Plain(Subsets.SubsetOf(order, Entries(h, props, parent), name, sep)));
      Success((h1, LProps(id, parent.timePattern, true)))
  }

  // ---------------------------------------------------------------------
  // Typed accessors

  /** `setLong(key, l)`: the outer result is the write, the inner one the
      previous value parsed after it (AbstractConfig.java:228-232). */
  function SetLong(h: Heap, c: LConfig, key: string, n: int): Result<(Heap, Result<Option<int>, Fault>), Fault>
    requires Good(h) && Valid(h, c) && Values.InLongRange(n)
  {
    match SetProperty(h, c, key, Values.FormatLong(n))
    case Failure(f) => Failure(f)
    case Success((h1, previous)) => Success((h1, Values.LongValueOf(previous, None)))
  }

  /** `getLong(key)` (AbstractConfig.java:234-238). */
  function GetLong(h: Heap, props: map<string, string>, c: LConfig, key: string): Result<Option<int>, Fault> {
    Values.LongValueOf(GetProperty(h, props, c, key, None), None)
  }

  /** `setArray(key, arr, sep)`: nothing is written for an empty joined
      text (AbstractConfig.java:402-419). */
  function SetArray(h: Heap, c: LConfig, key: string, arr: seq<string>, sep: char): Result<(Heap, Option<seq<string>>), Fault>
    requires Good(h) && Valid(h, c)
  {
    match Values.ArrayText(arr, sep)
    case None => Success((h, None))
    case Some(text) =>
      match SetProperty(h, c, key, text)
      case Failure(f) => Failure(f)
      case Success((h1, previous)) => Success((h1, Values.ArrayOrNull(previous, sep)))
  }

  /** `getArray(key, default, sep)` (AbstractConfig.java:436-440). */
  function GetArrayOr(h: Heap, props: map<string, string>, c: LConfig, key: string, default: Option<seq<string>>, sep: char): Option<seq<string>> {
    Values.ArrayOr(GetProperty(h, props, c, key, None), default, sep)
  }

  // ---------------------------------------------------------------------
  // Properties

  /** A name of the stores is exactly a key some store reads. */
  lemma {:induction false} HoldersAreNames(h: Heap, ids: seq<StoreId>, key: string)
    ensures key in NamesOf(h, ids) <==> FirstHolder(h, ids, key, None).Some?
    decreases |ids|
  {
    if ids != [] {
      LookupNames(Deref(h, ids[0]), key);
      HoldersAreNames(h, ids[1..], key);
    }
  }

  /** A name of the config is exactly a key whose raw value is not null. */
  lemma NamesAreReadable(h: Heap, c: LConfig, key: string)
    ensures key in Names(h, c) <==> Raw(h, c, key).Some?
  {
    match c
    case LProps(id, _, _) => LookupNames(Deref(h, id), key);
    case LComposite(ids, _) => HoldersAreNames(h, ids, key);
  }

  lemma EntriesKeys(h: Heap, props: map<string, string>, c: LConfig)
    ensures Entries(h, props, c).Keys == Names(h, c)
  {
    forall k | k in Names(h, c) ensures GetProperty(h, props, c, k, None).Some? {
      NamesAreReadable(h, c, k);
    }
  }

  /** The default is the last resort: `doGetProperty(key, default)` is the
      raw value when there is one, the default only when there is none. */
  lemma DefaultIsLastResort(h: Heap, c: LConfig, key: string, default: Option<string>)
    ensures Raw(h, c, key).Some? ==> DoGetProperty(h, c, key, default) == Raw(h, c, key)
    ensures Raw(h, c, key).None? ==> DoGetProperty(h, c, key, default) == default
  {
    match c
    case LProps(id, _, _) =>
      assert Raw(h, c, key) == Lookup(Deref(h, id), key);
    case LComposite(ids, _) =>
      assert Raw(h, c, key) == FirstHolder(h, ids, key, None);
  }

  /** As written, a non-null default makes the first store answer, so the
      later stores are never asked. */
  lemma DefaultStopsAtFirstStore(h: Heap, ids: seq<StoreId>, tp: Option<string>, key: string, d: string)
    requires ids != []
    ensures DoGetPropertyAsWritten(h, LComposite(ids, tp), key, Some(d)) == LookupOr(Deref(h, ids[0]), key, Some(d))
  {
  }

  function TwoStoresHeap(): Heap {
    Heap(map[0 := Plain(map[]), 1 := Plain(map["k" := "v"])], 2)
  }

  /** A key held by the second store only: as written, `getProperty("k",
      "d")` answers the default; the intended read finds `v`. */
  lemma DefaultHidesLaterStores()
    ensures DoGetPropertyAsWritten(TwoStoresHeap(), LComposite([0, 1], None), "k", Some("d")) == Some("d")
    ensures DoGetProperty(TwoStoresHeap(), LComposite([0, 1], None), "k", Some("d")) == Some("v")
  {
    var ids: seq<StoreId> := [0, 1];
    assert ids[1..] == [1];
    assert FirstHolder(TwoStoresHeap(), ids, "k", None) == FirstHolder(TwoStoresHeap(), [1], "k", None);
  }

  /** The raw read of a composite over one store is the store's lookup. */
  lemma SingleStoreRaw(h: Heap, id: StoreId, tp: Option<string>, key: string)
    ensures Raw(h, LComposite([id], tp), key) == Lookup(Deref(h, id), key)
  {
    var ids: seq<StoreId> := [id];
    assert ids[1..] == [];
    assert FirstHolder(h, ids[1..], key, None) == None;
  }

  /** A raw value that is one placeholder reads as the raw value it names,
      with slashes for backslashes; when that value holds no `$`, the
      legacy loop's `appendReplacement` gives the same. */
  lemma GetOfReference(h: Heap, props: map<string, string>, c: LConfig, key: string, name: string, v: string)
    requires Placeholder.IsName(name)
    requires Raw(h, c, key) == Some("${" + name + "}")
    requires Raw(h, c, name) == Some(v)
    ensures GetProperty(h, props, c, key, None) == Some(SlashPaths(v))
    ensures !Contains(v, '$') ==> ResolveAsWritten("${" + name + "}", Chain(h, props, c)) == Success(SlashPaths(v))
  {
    ResolveSingle(name, Chain(h, props, c));
    LegacyLookupOrder(name, k => Raw(h, c, k), props);
    if !Contains(v, '$') {
      SingleAsWritten(name, Chain(h, props, c));
    }
  }

  /** A composite reads its stores' raw values and resolves once: over a
      store holding `a=$${p}`, `p={x}`, `x=v`, the composite reads `a` as
      `${x}`, as a `ConfigImpl` over the store does, and the legacy loop
      agrees since `{x}` holds no `$`; the current tree's composite reads
      `v` instead (`Configs.CompositeResolvesTwice`). */
  lemma CompositeResolvesOnce(h: Heap, props: map<string, string>, id: StoreId, tp: Option<string>,
                              a: string, p: string, x: string, v: string)
    requires Placeholder.IsName(p) && Placeholder.IsName(x) && !Contains(x, '$') && !Contains(x, '\\')
    requires Lookup(Deref(h, id), a) == Some("$${" + p + "}")
    requires Lookup(Deref(h, id), p) == Some("{" + x + "}")
    requires Lookup(Deref(h, id), x) == Some(v)
    ensures GetProperty(h, props, LComposite([id], tp), a, None) == Some("${" + x + "}")
    ensures ResolveAsWritten("$${" + p + "}", Chain(h, props, LComposite([id], tp))) == Success("${" + x + "}")
  {
    var c := LComposite([id], tp);
    SingleStoreRaw(h, id, tp, a);
    SingleStoreRaw(h, id, tp, p);
    SingleStoreRaw(h, id, tp, x);
    LegacyLookupOrder(p, k => Raw(h, c, k), props);
    LegacyLookupOrder(x, k => Raw(h, c, k), props);
    SubstitutedTextIsNotRescanned(p, x, v, Chain(h, props, c));
  }

  /** A write through a composite reaches the first store holding the key
      even when that store belongs to a read-only subset, which refuses
      the same write itself. */
  lemma CompositeWritesPastReadOnly(h: Heap, id: StoreId, tp: Option<string>, key: string, value: string)
    requires Good(h) && id in h.stores && key in Stores.Names(Deref(h, id))
    ensures SetProperty(h, LProps(id, tp, true), key, value) == Failure(ReadOnly)
    ensures SetProperty(h, LComposite([id], tp), key, value).Success?
    ensures Raw(SetProperty(h, LComposite([id], tp), key, value).value.0, LProps(id, tp, true), key) == Some(value)
  {
    assert Ids(LComposite([id], tp)) == {id};
  }

  /** A composite write lands in the first store holding the key and
      answers its previous own entry. */
  lemma {:induction false} WriteGoesToFirstHolder(h: Heap, ids: seq<StoreId>, key: string, value: string, i: nat)
    requires Good(h) && forall j :: 0 <= j < |ids| ==> ids[j] in h.stores
    requires i < |ids| && key in Stores.Names(Deref(h, ids[i]))
    requires forall j :: 0 <= j < i ==> key !in Stores.Names(Deref(h, ids[j]))
    ensures WriteFirstHolder(h, ids, key, value) == (Store(h, ids[i], Put(Deref(h, ids[i]), key, value).0), Put(Deref(h, ids[i]), key, value).1)
    decreases i
  {
    if i > 0 {
      WriteGoesToFirstHolder(h, ids[1..], key, value, i - 1);
    }
  }

  /** `getProperties` of a `ConfigImpl` is the live store; that of a
      composite is a copy: writing into the copy changes no read of the
      composite. */
  lemma LiveAndCopiedProperties(h: Heap, c: LConfig, key: string, value: string, k: string)
    requires Good(h) && Valid(h, c)
    ensures c.LProps? ==> GetProperties(h, c) == (h, c.id)
    ensures c.LComposite? ==>
      var (h1, id) := GetProperties(h, c);
      Raw(Store(h1, id, Put(Deref(h1, id), key, value).0), c, k) == Raw(h, c, k)
  {
    if c.LComposite? {
      var (h1, id) := GetProperties(h, c);
      var h2 := Store(h1, id, Put(Deref(h1, id), key, value).0);
      FirstHolderFrame(h2, h, c.ids, k);
    }
  }

  lemma {:induction false} FirstHolderFrame(h1: Heap, h2: Heap, ids: seq<StoreId>, key: string)
    requires forall i :: 0 <= i < |ids| ==> Deref(h1, ids[i]) == Deref(h2, ids[i])
    ensures FirstHolder(h1, ids, key, None) == FirstHolder(h2, ids, key, None)
    decreases |ids|
  {
    if ids != [] {
      FirstHolderFrame(h1, h2, ids[1..], key);
    }
  }

  /** The copy `getProperties` makes of a composite holds every name, with
      the raw value of the last store holding it. */
  lemma {:induction false} MergedRawEntries(h: Heap, ids: seq<StoreId>, k: string)
    ensures k in MergedRaw(h, ids) <==> k in NamesOf(h, ids)
    ensures k in MergedRaw(h, ids) ==>
              exists i :: 0 <= i < |ids| && k in Stores.Names(Deref(h, ids[i]))
                && (forall j :: i < j < |ids| ==> k !in Stores.Names(Deref(h, ids[j])))
                && Lookup(Deref(h, ids[i]), k) == Some(MergedRaw(h, ids)[k])
    decreases |ids|
  {
    MergedRawKeys(h, ids);
    if ids != [] {
      var tail := ids[1..];
      MergedRawEntries(h, tail, k);
      assert forall i :: 1 <= i < |ids| ==> ids[i] == tail[i - 1];
      if k in MergedRaw(h, tail) {
        var i :| 0 <= i < |tail| && k in Stores.Names(Deref(h, tail[i]))
                 && (forall j :: i < j < |tail| ==> k !in Stores.Names(Deref(h, tail[j])))
                 && Lookup(Deref(h, tail[i]), k) == Some(MergedRaw(h, tail)[k]);
        assert k in Stores.Names(Deref(h, ids[i + 1]));
      } else if k in Stores.Names(Deref(h, ids[0])) {
        NotInMergedRaw(h, tail, k);
        assert Lookup(Deref(h, ids[0]), k) == Some(MergedRaw(h, ids)[k]);
      }
    }
  }

  lemma NotInMergedRaw(h: Heap, ids: seq<StoreId>, k: string)
    requires k !in MergedRaw(h, ids)
    ensures forall j :: 0 <= j < |ids| ==> k !in Stores.Names(Deref(h, ids[j]))
  {
    MergedRawKeys(h, ids);
    forall j | 0 <= j < |ids| ensures k !in Stores.Names(Deref(h, ids[j])) {
      if k in Stores.Names(Deref(h, ids[j])) {
        InNamesOf(h, ids, k, j);
      }
    }
  }

  lemma {:induction false} MergedRawKeys(h: Heap, ids: seq<StoreId>)
    ensures MergedRaw(h, ids).Keys == NamesOf(h, ids)
    decreases |ids|
  {
    if ids != [] {
      MergedRawKeys(h, ids[1..]);
    }
  }

  lemma {:induction false} InNamesOf(h: Heap, ids: seq<StoreId>, k: string, j: nat)
    requires j < |ids| && k in Stores.Names(Deref(h, ids[j]))
    ensures k in NamesOf(h, ids)
    decreases j
  {
    if j > 0 {
      InNamesOf(h, ids[1..], k, j - 1);
    }
  }

  /** Stores with no two names alike. */
  predicate Disjoint(h: Heap, ids: seq<StoreId>) {
    forall i, j :: 0 <= i < j < |ids| ==> Stores.Names(Deref(h, ids[i])) !! Stores.Names(Deref(h, ids[j]))
  }

  /** The duplicate check passes exactly when no name is seen twice. */
  lemma {:induction false} FirstClashFindsShared(h: Heap, ids: seq<StoreId>, seen: set<string>)
    ensures FirstClash(h, ids, seen).None? <==>
              Disjoint(h, ids) && forall i :: 0 <= i < |ids| ==> Stores.Names(Deref(h, ids[i])) !! seen
    decreases |ids|
  {
    if ids != [] {
      var tail := ids[1..];
      var first := Stores.Names(Deref(h, ids[0]));
      var seen1 := seen + first;
      FirstClashFindsShared(h, tail, seen1);
      assert forall i :: 1 <= i < |ids| ==> ids[i] == tail[i - 1];
      if first * seen == {} {
        if FirstClash(h, tail, seen1).None? {
          forall i, j | 0 <= i < j < |ids| ensures Stores.Names(Deref(h, ids[i])) !! Stores.Names(Deref(h, ids[j])) {
            if i > 0 {
              assert Stores.Names(Deref(h, tail[i - 1])) !! Stores.Names(Deref(h, tail[j - 1]));
            } else {
              assert Stores.Names(Deref(h, tail[j - 1])) !! seen1;
            }
          }
          forall i | 0 <= i < |ids| ensures Stores.Names(Deref(h, ids[i])) !! seen {
            if i > 0 {
              assert Stores.Names(Deref(h, tail[i - 1])) !! seen1;
            } else {
              forall x | x in first ensures x !in seen {
                assert x !in first * seen;
              }
            }
          }
        } else if Disjoint(h, ids) && forall i :: 0 <= i < |ids| ==> Stores.Names(Deref(h, ids[i])) !! seen {
          forall i | 0 <= i < |tail| ensures Stores.Names(Deref(h, tail[i])) !! seen1 {
            assert first !! Stores.Names(Deref(h, ids[i + 1]));
          }
        }
      }
    }
  }

  /** Without `allowDuplicates` the constructor succeeds exactly when no
      two of the collected stores share a name; with it, always. */
  lemma ConstructorRejectsSharedNames(h: Heap, cs: seq<LConfig>, tp: Option<string>)
    requires Good(h) && forall i :: 0 <= i < |cs| ==> Valid(h, cs[i])
    ensures NewComposite(h, cs, tp, false).Success? <==> Disjoint(PropsOf(h, cs).0, PropsOf(h, cs).1)
    ensures NewComposite(h, cs, tp, true) == Success((PropsOf(h, cs).0, LComposite(PropsOf(h, cs).1, tp)))
  {
    FirstClashFindsShared(PropsOf(h, cs).0, PropsOf(h, cs).1, {});
  }

  /** With duplicates allowed a shared name is counted once by the names
      and twice by the size. */
  lemma SharedNameCountsTwice()
    ensures Names(Heap(map[0 := Plain(map["k" := "a"]), 1 := Plain(map["k" := "b"])], 2), LComposite([0, 1], None)) == {"k"}
    ensures Size(Heap(map[0 := Plain(map["k" := "a"]), 1 := Plain(map["k" := "b"])], 2), LComposite([0, 1], None)) == 2
  {
    var ids: seq<StoreId> := [0, 1];
    assert ids[1..] == [1];
    assert ids[1..][1..] == [];
  }

  /** A legacy subset is a snapshot that refuses writes: writes to the
      parent leave it as it was. */
  lemma SubsetIsSnapshot(h: Heap, props: map<string, string>, parent: LConfig, name: string, sep: char, order: seq<string>,
                         key: string, value: string, k: string)
    requires Good(h) && Valid(h, parent)
    requires Subsets.Enumerates(order, Names(h, parent))
    ensures Subset(h, props, parent, name, sep, order).Success? ==>
            var (h1, sub) := Subset(h, props, parent, name, sep, order).value;
            Valid(h1, parent) && Valid(h1, sub)
            && SetProperty(h1, sub, key, value) == Failure(ReadOnly)
            && (SetProperty(h1, parent, key, value).Success? ==>
                  Raw(SetProperty(h1, parent, key, value).value.0, sub, k) == Raw(h1, sub, k))
  {
    if !Subsets.SplitThrows(order, name, sep) {
      var (h1, sub) := Subset(h, props, parent, name, sep, order).value;
      assert sub.id !in Ids(parent);
      assert Ids(sub) == {sub.id};
    }
  }

  /** A `long` written into a `ConfigImpl` reads back; the text has no
      placeholder, so resolution leaves it alone. */
  lemma LongWriteReadsBack(h: Heap, props: map<string, string>, id: StoreId, tp: Option<string>, key: string, n: int)
    requires Good(h) && id in h.stores && Values.InLongRange(n)
    ensures SetLong(h, LProps(id, tp, false), key, n).Success?
    ensures GetLong(SetLong(h, LProps(id, tp, false), key, n).value.0, props, LProps(id, tp, false), key) == Success(Some(n))
  {
    var c := LProps(id, tp, false);
    var t := Values.FormatLong(n);
    var h1 := Store(h, id, Put(Deref(h, id), key, t).0);
    assert SetLong(h, c, key, n).value.0 == h1;
    Accessors.FormatLongIsPlain(n);
    PlainWriteReadsBack(h, props, id, tp, key, t);
    Values.LongValueOfPresent(t, n, None);
  }

  /** A text without `$` written into a `ConfigImpl` reads back as it is. */
  lemma PlainWriteReadsBack(h: Heap, props: map<string, string>, id: StoreId, tp: Option<string>, key: string, t: string)
    requires Good(h) && id in h.stores && !Contains(t, '$')
    ensures GetProperty(Store(h, id, Put(Deref(h, id), key, t).0), props, LProps(id, tp, false), key, None) == Some(t)
  {
    var c := LProps(id, tp, false);
    var h1 := Store(h, id, Put(Deref(h, id), key, t).0);
    assert Raw(h1, c, key) == Some(t);
    PlainTextIsFixedPoint(t, Chain(h1, props, c));
  }

  /** An array whose last item is not empty, written with a separator none
      of its items holds, reads back as it was. */
  lemma ArrayWriteReadsBack(h: Heap, props: map<string, string>, id: StoreId, tp: Option<string>, key: string,
                            arr: seq<string>, sep: char, default: Option<seq<string>>)
    requires Good(h) && id in h.stores
    requires |arr| >= 1 && arr[|arr| - 1] != [] && IsLiteralInPattern(sep)
    requires forall k :: 0 <= k < |arr| ==> !Contains(arr[k], sep) && !Contains(arr[k], '$')
    ensures SetArray(h, LProps(id, tp, false), key, arr, sep).Success?
    ensures GetArrayOr(SetArray(h, LProps(id, tp, false), key, arr, sep).value.0, props, LProps(id, tp, false), key, default, sep) == Some(arr)
  {
    Values.ArrayRoundTrip(arr, sep, default);
    var text := Values.ArrayText(arr, sep).value;
    JoinAvoids(arr, sep, '$');
    var h1 := Store(h, id, Put(Deref(h, id), key, text).0);
    assert SetArray(h, LProps(id, tp, false), key, arr, sep).value.0 == h1;
    PlainWriteReadsBack(h, props, id, tp, key, text);
  }
}

=== FILE: placeholder.dfy ===
/** The reference pattern `\$\{(.+?)\}` as Java's regular-expression engine
    reads it (ReferenceResolverImpl.java:43, legacy AbstractConfig.java:88):
    a match starts at the leftmost `${`, and the lazy group takes the shortest
    non-empty run of characters other than line terminators that is followed
    by `}`.  `Parse` cuts a text into literal runs and references the way
    successive `Matcher.find` calls do.
 */
module Placeholder {
  import opened Wrappers

  /** The characters that `.` does not match without the DOTALL flag. */
  predicate IsLineTerminator(c: char) {
    c == '\n' || c == '\r' || c == '\U{85}' || c == '\U{2028}' || c == '\U{2029}'
  }

  /** A name the lazy group can capture: non-empty, free of line terminators,
      and with no `}` after its first character (a `}` in first position is
      taken by `.`, since the group needs at least one character). */
  predicate IsName(n: string) {
    && |n| >= 1
    && (forall k :: 0 <= k < |n| ==> !IsLineTerminator(n[k]))
    && (forall k :: 1 <= k < |n| ==> n[k] != '}')
  }

  /** The `}` at `e` ends a name that starts at `start`. */
  predicate EndsName(s: string, start: nat, e: nat) {
    start < e < |s| && s[e] == '}' && IsName(s[start..e])
  }

  /** A reference that starts at `i` is closed by the `}` at `e`. */
  predicate Closes(s: string, i: nat, e: nat) {
    && i + 1 < |s|
    && s[i] == '$' && s[i + 1] == '{'
    && EndsName(s, i + 2, e)
  }

  /** Scans for the closing brace of a name that starts at `start`; `j` is
      the next character to look at.  The scan stops at a line terminator,
      since `.` does not match one, and at the first `}` after `start`,
      since the group is lazy. */
  function CloseFrom(s: string, start: nat, j: nat): (r: Option<nat>)
    requires j <= |s|
    ensures r.Some? ==> j <= r.value < |s|
    decreases |s| - j
  {
    if j == |s| then None
    else if IsLineTerminator(s[j]) then None
    else if s[j] == '}' && start < j then Some(j)
    else CloseFrom(s, start, j + 1)
  }

  /** The scan is right: what it finds ends a name, and when it finds
      nothing no `}` does. */
  lemma {:induction false} CloseFromSound(s: string, start: nat, j: nat)
    requires start <= j <= |s|
    requires forall k :: start <= k < j ==> !IsLineTerminator(s[k])
    requires forall k :: start < k < j ==> s[k] != '}'
    ensures CloseFrom(s, start, j).Some? ==> EndsName(s, start, CloseFrom(s, start, j).value)
    ensures CloseFrom(s, start, j).None? ==> forall e :: !EndsName(s, start, e)
    decreases |s| - j
  {
    if j == |s| {
    } else if IsLineTerminator(s[j]) {
      assert forall e :: j < e < |s| ==> s[start..e][j - start] == s[j];
    } else if s[j] == '}' && start < j {
    } else {
      CloseFromSound(s, start, j + 1);
    }
  }

  /** The index of the closing brace when a reference starts at `i`. */
  function MatchAt(s: string, i: nat): (r: Option<nat>)
    ensures r.Some? ==> i + 2 < r.value < |s|
  {
    if i + 1 < |s| && s[i] == '$' && s[i + 1] == '{' then CloseFrom(s, i + 2, i + 2) else None
  }

  /** `MatchAt` finds a match exactly when one starts at `i`. */
  lemma MatchAtSound(s: string, i: nat)
    ensures MatchAt(s, i).Some? ==> Closes(s, i, MatchAt(s, i).value)
    ensures MatchAt(s, i).None? ==> forall e :: !Closes(s, i, e)
  {
    if i + 1 < |s| && s[i] == '$' && s[i + 1] == '{' {
      CloseFromSound(s, i + 2, i + 2);
    }
  }

  /** The scan stops at the brace that closes a name. */
  lemma {:induction false} CloseFromFinds(s: string, start: nat, j: nat, e: nat)
    requires start <= j <= e < |s| && start < e
    requires s[e] == '}' && IsName(s[start..e])
    ensures forall k :: start <= k < j ==> !IsLineTerminator(s[k])
    ensures forall k :: start < k < j ==> s[k] != '}'
    ensures CloseFrom(s, start, j) == Some(e)
    decreases e - j
  {
    assert forall k :: start <= k < e ==> s[k] == s[start..e][k - start];
    if j < e {
      CloseFromFinds(s, start, j + 1, e);
    }
  }

  /** A closing brace determines the match. */
  lemma MatchAtCloses(s: string, i: nat, e: nat)
    requires Closes(s, i, e)
    ensures MatchAt(s, i) == Some(e)
  {
    CloseFromFinds(s, i + 2, i + 2, e);
  }

  /** A match: `${` at `start`, `}` at `close`. */
  datatype Ref = Ref(start: nat, close: nat)

  /** What `Matcher.find` reports when the search resumes at `from`: the
      leftmost match starting there or later. */
  function FindFrom(s: string, from: nat): (r: Option<Ref>)
    ensures r.Some? ==> from <= r.value.start && MatchAt(s, r.value.start) == Some(r.value.close)
    decreases |s| - from
  {
    if from >= |s| then None
    else match MatchAt(s, from)
      case Some(e) => Some(Ref(from, e))
      case None => FindFrom(s, from + 1)
  }

  /** What `FindFrom` reports is a match. */
  lemma FoundCloses(s: string, from: nat, m: Ref)
    requires FindFrom(s, from) == Some(m)
    ensures Closes(s, m.start, m.close)
  {
    MatchAtSound(s, m.start);
  }

  /** `FindFrom` reports the leftmost match, and reports none only when no
      position from `from` on starts one. */
  lemma {:induction false} FindFromIsLeftmost(s: string, from: nat)
    ensures FindFrom(s, from).Some? ==> forall i :: from <= i < FindFrom(s, from).value.start ==> MatchAt(s, i).None?
    ensures FindFrom(s, from).None? ==> forall i :: from <= i ==> MatchAt(s, i).None?
    decreases |s| - from
  {
    if from < |s| && MatchAt(s, from).None? {
      FindFromIsLeftmost(s, from + 1);
    }
  }

  /** A text cut into what the matcher skips and what it matches. */
  datatype Segment = Literal(text: string) | Reference(name: string)

  /** The segments of `s[from..]`: a literal run before every match, the
      match's captured name, and the literal run after the last match.
      Matching resumes after each closing brace, so matches never overlap. */
  function ParseFrom(s: string, from: nat): (segs: seq<Segment>)
    requires from <= |s|
    ensures |segs| >= 1 && segs[|segs| - 1].Literal?
    decreases |s| - from
  {
    match FindFrom(s, from)
    case None => [Literal(s[from..])]
    case Some(m) =>
      [Literal(s[from..m.start]), Reference(s[m.start + 2..m.close])] + ParseFrom(s, m.close + 1)
  }

  /** Literal runs sit at even positions and references at odd ones, and
      every reference is a name the lazy group captures. */
  predicate Alternates(segs: seq<Segment>) {
    forall k :: 0 <= k < |segs| ==>
      && (segs[k].Reference? <==> k % 2 == 1)
      && (segs[k].Reference? ==> IsName(segs[k].name))
  }

  /** Every reference the parse reports is a name the lazy group captures,
      and references and literal runs alternate. */
  lemma {:induction false} ParseFromShape(s: string, from: nat)
    requires from <= |s|
    ensures Alternates(ParseFrom(s, from))
    decreases |s| - from
  {
    match FindFrom(s, from)
    case None =>
    case Some(m) =>
      FoundBraced(s, from, m);
      ParseFromShape(s, m.close + 1);
      ShapeAtMatch(s, from, m);
  }

  /** A literal run and a captured name in front of an alternating rest
      still alternate. */
  lemma AlternatesCons(text: string, name: string, rest: seq<Segment>)
    requires IsName(name) && Alternates(rest)
    ensures Alternates([Literal(text), Reference(name)] + rest)
  {
    var segs := [Literal(text), Reference(name)] + rest;
    forall k | 2 <= k < |segs|
      ensures segs[k] == rest[k - 2]
    {
    }
  }

  /** The parse from `from` alternates when the parse after the first
      match does. */
  lemma ShapeAtMatch(s: string, from: nat, m: Ref)
    requires FindFrom(s, from) == Some(m)
    requires m.close + 1 <= |s| && Alternates(ParseFrom(s, m.close + 1))
    ensures Alternates(ParseFrom(s, from))
  {
    FoundCloses(s, from, m);
    ParseFromStep(s, from, m);
    AlternatesCons(s[from..m.start], s[m.start + 2..m.close], ParseFrom(s, m.close + 1));
  }

  function Parse(s: string): seq<Segment> {
    ParseFrom(s, 0)
  }

  /** The text of one segment as it stands in the input. */
  function Original(seg: Segment): string {
    match seg
    case Literal(t) => t
    case Reference(n) => "${" + n + "}"
  }

  /** The segments written back out. */
  function Unparse(segs: seq<Segment>): string {
    if |segs| == 0 then [] else Original(segs[0]) + Unparse(segs[1..])
  }

  /** `${` at `i` and `}` at `e`, with room for a name between. */
  predicate Braced(s: string, i: nat, e: nat) {
    i + 2 <= e < |s| && s[i] == '$' && s[i + 1] == '{' && s[e] == '}'
  }

  /** Writing the parse of `s[from..]` back out gives `s[from..]`. */
  predicate RoundTrips(s: string, from: nat)
    requires from <= |s|
  {
    Unparse(ParseFrom(s, from)) == s[from..]
  }

  lemma {:induction false} UnparseParseFrom(s: string, from: nat)
    requires from <= |s|
    ensures RoundTrips(s, from)
    decreases |s| - from
  {
    var last, next := RoundTripStep(s, from);
    if !last {
      UnparseParseFrom(s, next);
    }
  }

  /** Either `s[from..]` holds no match, or the round trip from `from`
      follows from the one after the first match's closing brace. */
  lemma RoundTripStep(s: string, from: nat) returns (last: bool, next: nat)
    requires from <= |s|
    ensures last ==> RoundTrips(s, from)
    ensures !last ==> from < next <= |s| && (RoundTrips(s, next) ==> RoundTrips(s, from))
  {
    match FindFrom(s, from)
    case None =>
      UnparseTail(s, from);
      last, next := true, from;
    case Some(m) =>
      last, next := false, m.close + 1;
      UnparseAtMatch(s, from, m);
      SpliceAtMatch(s, from, m);
      if RoundTrips(s, next) {
        UnparseMatchCase(s, from, m);
      }
  }

  /** One match step: the text before a match, the match itself and the
      rest spell out `s[from..]` again. */
  lemma UnparseMatchCase(s: string, from: nat, m: Ref)
    requires from <= m.start <= m.start + 2 <= m.close < |s|
    requires Unparse(ParseFrom(s, from))
          == s[from..m.start] + (("${" + s[m.start + 2..m.close] + "}") + Unparse(ParseFrom(s, m.close + 1)))
    requires s[from..m.start] + (("${" + s[m.start + 2..m.close] + "}") + s[m.close + 1..]) == s[from..]
    requires RoundTrips(s, m.close + 1)
    ensures RoundTrips(s, from)
  {
  }

  /** Written back out, the parse from `from` is the run before the first
      match, the match's text, and what the parse after it writes out. */
  lemma UnparseAtMatch(s: string, from: nat, m: Ref)
    requires FindFrom(s, from) == Some(m)
    ensures from <= m.start <= m.start + 2 <= m.close < |s|
    ensures Unparse(ParseFrom(s, from))
         == s[from..m.start] + (("${" + s[m.start + 2..m.close] + "}") + Unparse(ParseFrom(s, m.close + 1)))
  {
    FoundBraced(s, from, m);
    ParseFromStep(s, from, m);
    UnparseConsAt(s, from, m);
  }

  /** `UnparseCons` instantiated at a match of `s`. */
  lemma UnparseConsAt(s: string, from: nat, m: Ref)
    requires from <= m.start && Braced(s, m.start, m.close)
    ensures Unparse([Literal(s[from..m.start]), Reference(s[m.start + 2..m.close])] + ParseFrom(s, m.close + 1))
         == s[from..m.start] + (("${" + s[m.start + 2..m.close] + "}") + Unparse(ParseFrom(s, m.close + 1)))
  {
    UnparseCons(s[from..m.start], s[m.start + 2..m.close], ParseFrom(s, m.close + 1));
  }

  /** What `FindFrom` reports starts with `${` and ends with `}`. */
  lemma FoundBraced(s: string, from: nat, m: Ref)
    requires FindFrom(s, from) == Some(m)
    ensures from <= m.start && Braced(s, m.start, m.close)
  {
    FoundCloses(s, from, m);
  }

  lemma UnparseTail(s: string, from: nat)
    requires from <= |s| && FindFrom(s, from).None?
    ensures RoundTrips(s, from)
  {
    assert ParseFrom(s, from) == [Literal(s[from..])];
    assert Unparse([Literal(s[from..])]) == s[from..] + Unparse([]);
  }

  /** One step of the parse: the run before the match, the match, and the
      parse of what follows the closing brace. */
  lemma ParseFromStep(s: string, from: nat, m: Ref)
    requires from <= m.start && Braced(s, m.start, m.close)
    requires FindFrom(s, from) == Some(m)
    ensures ParseFrom(s, from) == [Literal(s[from..m.start]), Reference(s[m.start + 2..m.close])] + ParseFrom(s, m.close + 1)
  {
  }

  /** A segment written out in front of the rest. */
  lemma UnparseOne(seg: Segment, rest: seq<Segment>)
    ensures Unparse([seg] + rest) == Original(seg) + Unparse(rest)
  {
    var segs := [seg] + rest;
    assert segs[1..] == rest;
  }

  /** A literal run and a reference written out in front of the rest. */
  lemma UnparseCons(text: string, name: string, rest: seq<Segment>)
    ensures Unparse([Literal(text), Reference(name)] + rest) == text + (("${" + name + "}") + Unparse(rest))
  {
    assert [Literal(text), Reference(name)] + rest == [Literal(text)] + ([Reference(name)] + rest);
    UnparseOne(Reference(name), rest);
    UnparseOne(Literal(text), [Reference(name)] + rest);
  }

  /** The match's text and what follows it make up the input from `i` on. */
  lemma MatchAndAfter(s: string, i: nat, e: nat)
    requires Braced(s, i, e)
    ensures ("${" + s[i + 2..e] + "}") + s[e + 1..] == s[i..]
  {
    assert s[i..e + 1] == "${" + s[i + 2..e] + "}";
    assert s[i..] == s[i..e + 1] + s[e + 1..];
  }

  /** `SpliceMatch` at the match `FindFrom` reports. */
  lemma SpliceAtMatch(s: string, from: nat, m: Ref)
    requires FindFrom(s, from) == Some(m)
    ensures from <= m.start <= m.start + 2 <= m.close < |s|
    ensures s[from..m.start] + (("${" + s[m.start + 2..m.close] + "}") + s[m.close + 1..]) == s[from..]
  {
    FoundBraced(s, from, m);
    SpliceMatch(s, from, m.start, m.close);
  }

  /** The run before a match, the match's text and the text after it make
      up the input again. */
  lemma SpliceMatch(s: string, from: nat, i: nat, e: nat)
    requires from <= i && Braced(s, i, e)
    ensures s[from..i] + (("${" + s[i + 2..e] + "}") + s[e + 1..]) == s[from..]
  {
    MatchAndAfter(s, i, e);
    assert s[from..] == s[from..i] + s[i..];
  }

  lemma UnparseParse(s: string)
    ensures Unparse(Parse(s)) == s
  {
    UnparseParseFrom(s, 0);
  }

  /** A text without `$` holds no reference. */
  lemma {:induction false} NoDollarNoMatch(s: string, from: nat)
    requires forall k :: 0 <= k < |s| ==> s[k] != '$'
    ensures FindFrom(s, from).None?
    decreases |s| - from
  {
    if from < |s| {
      assert MatchAt(s, from).None?;
      NoDollarNoMatch(s, from + 1);
    }
  }

  /** When the lazy group can capture `name`, `${name}` parses as that single
      reference (`MatchAtSound` and `MatchAtCloses` give the converse). */
  lemma SingleReference(name: string)
    requires IsName(name)
    ensures Parse("${" + name + "}") == [Literal(""), Reference(name), Literal("")]
  {
    var s := "${" + name + "}";
    assert s[2..|s| - 1] == name;
    MatchAtCloses(s, 0, |s| - 1);
    assert FindFrom(s, 0) == Some(Ref(0, |s| - 1));
    assert FindFrom(s, |s|).None?;
    assert ParseFrom(s, |s|) == [Literal("")] by {
      assert s[|s|..] == "";
    }
    assert s[0..0] == "";
    assert ParseFrom(s, 0) == [Literal(s[0..0]), Reference(s[2..|s| - 1])] + ParseFrom(s, |s|);
  }

  /** A `$` before a reference stays literal text: in `$${name}` the
      match starts at the second `$`, since the first is followed by `$`
      rather than `{`. */
  lemma DollarBeforeReference(name: string)
    requires IsName(name)
    ensures Parse("$${" + name + "}") == [Literal("$"), Reference(name), Literal("")]
  {
    var s := "$${" + name + "}";
    assert s[3..|s| - 1] == name;
    MatchAtCloses(s, 1, |s| - 1);
    assert MatchAt(s, 0).None?;
    assert FindFrom(s, 1) == Some(Ref(1, |s| - 1));
    assert FindFrom(s, 0) == Some(Ref(1, |s| - 1));
    assert FindFrom(s, |s|).None?;
    assert ParseFrom(s, |s|) == [Literal("")] by {
      assert s[|s|..] == "";
    }
    assert s[0..1] == "$";
    assert ParseFrom(s, 0) == [Literal(s[0..1]), Reference(s[3..|s| - 1])] + ParseFrom(s, |s|);
  }

  /** `${}` never matches: the group needs at least one character. */
  lemma EmptyBracesNeverMatch()
    ensures Parse("${}") == [Literal("${}")]
  {
    var s := "${}";
    assert CloseFrom(s, 2, 3).None?;
    assert CloseFrom(s, 2, 2).None?;
    assert MatchAt(s, 0).None?;
    assert MatchAt(s, 1).None?;
    assert MatchAt(s, 2).None?;
    assert FindFrom(s, 3).None?;
  }

  /** Braces are not counted: in `${a${b}}` the first `}` closes the match,
      and the captured name is `a${b`. */
  lemma NestedBracesCaptureToFirstClose()
    ensures Parse("${a${b}}") == [Literal(""), Reference("a${b"), Literal("}")]
  {
    var s := "${a${b}}";
    assert s[2..6] == "a${b";
    MatchAtCloses(s, 0, 6);
    assert FindFrom(s, 0) == Some(Ref(0, 6));
    assert MatchAt(s, 7).None?;
    assert FindFrom(s, 8).None?;
    assert FindFrom(s, 7).None?;
  }
}

=== FILE: query.dfy ===
/** `QueryParametersConverter`: a map written as `key=val<sep>key=val`, and
    read back.

    Reading splits the text on the separator, then each pair on `=`.  A pair
    with one part is skipped, or kept with an empty value when empty strings
    are allowed; two parts are key and value; with more, `separatorIndex`,
    clamped into the valid range and stored back into the converter, says
    which `=` divides key from value.  Keys and values are trimmed and a
    later key overwrites an earlier one.
 */
module Query {
  import opened Wrappers
  import opened Text

  /** The converter's fields; `separatorIndex` changes as pairs are read. */
  datatype Converter = Converter(emptyStringsAllowed: bool, separatorIndex: int, separator: char)

  /** `new QueryParametersConverter()` (QueryParametersConverter.java:46-48). */
  function DefaultConverter(): Converter {
    Converter(false, 0, '&')
  }

  /** `new QueryParametersConverter(separator)`, as `setMap`/`getMap` build it. */
  function ConverterFor(separator: char): Converter {
    Converter(false, 0, separator)
  }

  /** The stored index after a pair of `n` parts, `n > 2`: raised to 0,
      then lowered to `n - 2`. */
  function ClampIndex(index: int, n: nat): (r: nat)
    requires n > 2
    ensures r <= n - 2
    ensures 0 <= index <= n - 2 ==> r == index
    ensures index < 0 ==> r == 0
    ensures index > n - 2 ==> r == n - 2
  {
    var raised := if index < 0 then 0 else index;
    if raised >= n - 1 then n - 2 else raised
  }

  /** Key and value of a pair with more than two parts: the first
      `index + 1` parts joined by `=`, and the rest. */
  function DivideAt(parts: seq<string>, index: nat): (r: (string, string))
    requires index + 1 < |parts|
  {
    (Join(parts[..index + 1], '='), Join(parts[index + 1..], '='))
  }

  /** One pair as the loop body reads it: the entry it contributes, if
      any, and the index to keep. */
  function DecodePair(c: Converter, pair: string): (r: (Option<(string, string)>, int))
    ensures |Split(pair, '=')| <= 2 ==> r.1 == c.separatorIndex
  {
    var parts := Split(pair, '=');
    if |parts| == 0 then (None, c.separatorIndex)
    else if |parts| == 1 then
      (if c.emptyStringsAllowed then Some((Trim(parts[0]), Trim(""))) else None, c.separatorIndex)
    else if |parts| == 2 then (Some((Trim(parts[0]), Trim(parts[1]))), c.separatorIndex)
    else
      var index := ClampIndex(c.separatorIndex, |parts|);
      var kv := DivideAt(parts, index);
      (Some((Trim(kv.0), Trim(kv.1))), index)
  }

  /** The loop over the pairs, threading the result map and the converter. */
  function DecodePairs(c: Converter, pairs: seq<string>, acc: map<string, string>): (r: (map<string, string>, Converter))
    ensures r.1.emptyStringsAllowed == c.emptyStringsAllowed && r.1.separator == c.separator
    ensures acc.Keys <= r.0.Keys
    decreases |pairs|
  {
    if pairs == [] then (acc, c)
    else
      var (entry, index) := DecodePair(c, pairs[0]);
      var next := Converter(c.emptyStringsAllowed, index, c.separator);
      match entry
      case None => DecodePairs(next, pairs[1..], acc)
      case Some(kv) => DecodePairs(next, pairs[1..], acc[kv.0 := kv.1])
  }

  /** `toMap(input)` (and `reverse`): the map read and the converter with
      its possibly updated index; a null input throws. */
  function ToMap(c: Converter, input: Option<string>): (r: Result<(map<string, string>, Converter), Fault>)
    ensures input.None? <==> r.Failure?
    ensures r.Failure? ==> r.error == NullReference
  {
    match input
    case None => Failure(NullReference)
    case Some(text) => Success(DecodePairs(c, Split(text, c.separator), map[]))
  }

  /** `key=value` for one entry. */
  function PairText(entry: (string, string)): string {
    entry.0 + "=" + entry.1
  }

  function PairTexts(entries: seq<(string, string)>): (r: seq<string>)
    ensures |r| == |entries|
    ensures forall k :: 0 <= k < |r| ==> r[k] == PairText(entries[k])
  {
    if entries == [] then [] else [PairText(entries[0])] + PairTexts(entries[1..])
  }

  /** `toQueryString(params)` (and `convert`), the entries in the map's
      iteration order: `key=value` pieces with the separator between
      consecutive ones and none after the last. */
  function ToQueryString(c: Converter, entries: seq<(string, string)>): string {
    Join(PairTexts(entries), c.separator)
  }

  /** The map a sequence of entries denotes, a later key overwriting an
      earlier one (as `put` does). */
  function EntriesMap(entries: seq<(string, string)>, acc: map<string, string>): map<string, string>
    decreases |entries|
  {
    if entries == [] then acc else EntriesMap(entries[1..], acc[entries[0].0 := entries[0].1])
  }

  // ---------------------------------------------------------------------
  // Properties

  /** An entry that survives the trip: trimmed key and value, a value that
      is not empty, and neither holding `=` or the separator. */
  predicate Clean(entry: (string, string), sep: char) {
    Trim(entry.0) == entry.0 && Trim(entry.1) == entry.1 && entry.1 != []
      && !Contains(entry.0, '=') && !Contains(entry.1, '=')
      && !Contains(entry.0, sep) && !Contains(entry.1, sep)
  }

  /** `key=value` splits into the key and the value. */
  lemma SplitPair(entry: (string, string))
    requires entry.1 != [] && !Contains(entry.0, '=') && !Contains(entry.1, '=')
    ensures Split(PairText(entry), '=') == [entry.0, entry.1]
  {
    var parts := [entry.0, entry.1];
    assert parts[1..] == [entry.1];
    assert Join(parts, '=') == entry.0 + ['='] + entry.1;
    assert PairText(entry) == entry.0 + ['='] + entry.1;
    SplitJoin(parts, '=');
  }

  lemma PairTextFree(entry: (string, string), sep: char)
    requires sep != '=' && !Contains(entry.0, sep) && !Contains(entry.1, sep)
    ensures !Contains(PairText(entry), sep)
  {
    var t := PairText(entry);
    forall k | 0 <= k < |t| ensures t[k] != sep {
      if k < |entry.0| {
        assert t[k] == entry.0[k];
      } else if k > |entry.0| {
        assert t[k] == entry.1[k - |entry.0| - 1];
      }
    }
  }

  /** A clean pair decodes to its own entry and leaves the index alone. */
  lemma DecodeCleanPair(c: Converter, e: (string, string))
    requires Clean(e, c.separator)
    ensures DecodePair(c, PairText(e)) == (Some((e.0, e.1)), c.separatorIndex)
  {
    SplitPair(e);
  }

  /** Clean pairs decode to their own entries and leave the index alone. */
  lemma {:induction false} DecodeCleanPairs(c: Converter, entries: seq<(string, string)>, acc: map<string, string>)
    requires forall k :: 0 <= k < |entries| ==> Clean(entries[k], c.separator)
    ensures DecodePairs(c, PairTexts(entries), acc) == (EntriesMap(entries, acc), c)
    decreases |entries|
  {
    if entries != [] {
      var e := entries[0];
      assert Clean(e, c.separator);
      DecodeCleanPair(c, e);
      var pairs := PairTexts(entries);
      assert pairs[0] == PairText(e);
      assert pairs[1..] == PairTexts(entries[1..]);
      assert Converter(c.emptyStringsAllowed, c.separatorIndex, c.separator) == c;
      assert DecodePairs(c, pairs, acc) == DecodePairs(c, pairs[1..], acc[e.0 := e.1]);
      DecodeCleanPairs(c, entries[1..], acc[e.0 := e.1]);
    }
  }

  /** `toMap(toQueryString(m))` is `m` for clean entries, and the converter
      comes back unchanged; an empty map needs empty strings disallowed,
      since the empty text would otherwise read as one empty key. */
  lemma QueryRoundTrip(c: Converter, entries: seq<(string, string)>)
    requires c.separator != '=' && IsLiteralInPattern(c.separator)
    requires forall k :: 0 <= k < |entries| ==> Clean(entries[k], c.separator)
    requires entries == [] ==> !c.emptyStringsAllowed
    ensures ToMap(c, Some(ToQueryString(c, entries))) == Success((EntriesMap(entries, map[]), c))
  {
    var pairs := PairTexts(entries);
    if entries == [] {
      var only: seq<string> := [[]];
      assert Split([], c.separator) == only;
      assert Split([], '=') == only;
      assert DecodePairs(c, only, map[]) == DecodePairs(c, [], map[]) by {
        assert only[1..] == [];
      }
    } else {
      forall k | 0 <= k < |pairs| ensures !Contains(pairs[k], c.separator) {
        PairTextFree(entries[k], c.separator);
      }
      assert pairs[|pairs| - 1] != [] by {
        assert |pairs[|pairs| - 1]| >= 1;
      }
      SplitJoin(pairs, c.separator);
    }
    DecodeCleanPairs(c, entries, map[]);
  }

  /** A pair with several `=` is divided at the clamped index, which the
      converter keeps for the following pairs. */
  lemma SeparatorIndexIsClampedAndKept()
    ensures ClampIndex(5, 3) == 1
    ensures DivideAt(["a", "b", "c"], 1) == ("a=b", "c")
    ensures ClampIndex(-3, 3) == 0
    ensures DivideAt(["a", "b", "c"], 0) == ("a", "b=c")
  {
    var parts := ["a", "b", "c"];
    assert parts[..2] == ["a", "b"] && parts[2..] == ["c"];
    assert parts[..1] == ["a"] && parts[1..] == ["b", "c"];
    assert ["a", "b"][1..] == ["b"];
    assert ["b", "c"][1..] == ["c"];
    assert Join(["a", "b"], '=') == "a" + ['='] + "b" == "a=b";
    assert Join(["b", "c"], '=') == "b" + ['='] + "c" == "b=c";
    assert Join(["a"], '=') == "a";
    assert Join(["c"], '=') == "c";
  }

  /** The index a converter keeps after a many-`=` pair is what the next
      such pair is divided at. */
  lemma ClampIsSticky(c: Converter, pair: string)
    requires |Split(pair, '=')| > 2
    ensures DecodePair(c, pair).1 == ClampIndex(c.separatorIndex, |Split(pair, '=')|)
    ensures 0 <= DecodePair(c, pair).1 <= |Split(pair, '=')| - 2
  {
  }

  /** A pair without a value is dropped by default and kept with an empty
      value when empty strings are allowed. */
  lemma PairWithoutValue(key: string)
    requires key != [] && Trim(key) == key && !Contains(key, '=')
    ensures DecodePair(Converter(false, 0, '&'), key + "=").0 == None
    ensures DecodePair(Converter(true, 0, '&'), key + "=").0 == Some((key, ""))
  {
    var parts := [key, ""];
    assert parts[1..] == [""];
    assert Join(parts, '=') == key + ['='] + "";
    assert key + "=" == Join(parts, '=');
    SplitTrailingSeparator(key, '=');
    assert Trim("") == "";
  }

}

=== FILE: replacement.dfy ===
/** How `java.util.regex.Matcher.appendReplacement` reads its replacement
    string, for the resolver's pattern, which has one capturing group and no
    named group.  A backslash quotes the next character; `$` introduces a
    group reference: `$0` is the whole match and `$1` the captured name, and
    every other form throws.
 */
module Replacement {
  import opened Wrappers
  import Text

  /** Capturing groups of `\$\{(.+?)\}`. */
  const GroupCount: nat := 1

  /** Reads further digits of a group number, keeping each one only while
      the number stays a valid group.  Returns the group and how many
      characters of `rep` it consumed. */
  function GroupNumber(rep: string, group: nat): (r: (nat, nat))
    requires group <= GroupCount
    ensures r.0 <= GroupCount && r.1 <= |rep|
    decreases |rep|
  {
    if |rep| == 0 || !Text.IsDigit(rep[0]) then (group, 0)
    else
      var next := group * 10 + Text.DigitValue(rep[0]);
      if next > GroupCount then (group, 0)
      else
        var (g, used) := GroupNumber(rep[1..], next);
        (g, used + 1)
  }

  function Prepend(prefix: string, r: Result<string, Fault>): Result<string, Fault> {
    match r
    case Success(t) => Success(prefix + t)
    case Failure(f) => Failure(f)
  }

  /** The text `appendReplacement` appends for replacement `rep`, given the
      whole match and the captured name, or the exception it throws. */
  function Expand(rep: string, whole: string, name: string): (r: Result<string, Fault>)
    ensures r.Failure? ==> Text.Contains(rep, '$') || Text.Contains(rep, '\\')
    decreases |rep|
  {
    if rep == [] then Success([])
    else if rep[0] == '\\' then
      if |rep| == 1 then Failure(IllegalReplacement)    // character to be escaped is missing
      else Prepend([rep[1]], Expand(rep[2..], whole, name))
    else if rep[0] == '$' then
      if |rep| == 1 then Failure(IllegalReplacement)    // group index is missing
      else if rep[1] == '{' then Failure(IllegalReplacement)   // no named group exists
      else if !Text.IsDigit(rep[1]) then Failure(IllegalReplacement)
      else if Text.DigitValue(rep[1]) > GroupCount then Failure(NoSuchGroup(Text.DigitValue(rep[1])))
      else
        var (g, used) := GroupNumber(rep[2..], Text.DigitValue(rep[1]));
        Prepend(if g == 0 then whole else name, Expand(rep[2 + used..], whole, name))
    else
      var r := Expand(rep[1..], whole, name);
      assert r.Failure? ==> Text.Contains(rep, '$') || Text.Contains(rep, '\\') by {
        if r.Failure? && Text.Contains(rep[1..], '$') {
          var k :| 0 <= k < |rep[1..]| && rep[1..][k] == '$';
          assert rep[k + 1] == '$';
        }
        if r.Failure? && Text.Contains(rep[1..], '\\') {
          var k :| 0 <= k < |rep[1..]| && rep[1..][k] == '\\';
          assert rep[k + 1] == '\\';
        }
      }
      Prepend([rep[0]], r)
  }

  /** A replacement with neither `$` nor `\` is appended literally. */
  lemma {:induction false} ExpandPlain(rep: string, whole: string, name: string)
    requires !Text.Contains(rep, '$') && !Text.Contains(rep, '\\')
    ensures Expand(rep, whole, name) == Success(rep)
    decreases |rep|
  {
    if rep != [] {
      assert rep[0] != '$' && rep[0] != '\\';
      assert !Text.Contains(rep[1..], '$') && !Text.Contains(rep[1..], '\\') by {
        forall k | 0 <= k < |rep[1..]| ensures rep[1..][k] != '$' && rep[1..][k] != '\\' {
          assert rep[1..][k] == rep[k + 1];
        }
      }
      ExpandPlain(rep[1..], whole, name);
      assert [rep[0]] + rep[1..] == rep;
    }
  }

  /** A value that holds a placeholder of its own makes the call throw. */
  lemma NamedReferenceThrows(rest: string, whole: string, name: string)
    ensures Expand("${" + rest, whole, name) == Failure(IllegalReplacement)
  {
  }

  /** `$1` in a value stands for the captured name, `$0` for the whole match. */
  lemma GroupReferences(whole: string, name: string)
    ensures Expand("$1", whole, name) == Success(name)
    ensures Expand("$0", whole, name) == Success(whole)
    ensures Expand("$2", whole, name) == Failure(NoSuchGroup(2))
  {
    assert "$1"[2..] == [];
    assert "$0"[2..] == [];
    assert GroupNumber([], 1) == (1, 0);
    assert GroupNumber([], 0) == (0, 0);
    assert name + [] == name && whole + [] == whole;
  }
}

=== FILE: resolver.dfy ===
/** `ReferenceResolverImpl.resolve` and the legacy
    `AbstractConfig.resolveReferences`: one left-to-right pass of the
    reference pattern over the input; each captured name is looked up in an
    ordered chain of sources and, when found, its value (with every `\`
    turned into `/`) takes the place of the match.  Unresolved matches stay
    verbatim and substituted text is never scanned again.

    `Resolve` inserts each value literally, which is what the authors meant.
    `ResolveAsWritten` keeps the Java behaviour of handing the value to
    `Matcher.appendReplacement`, which reads `$` and `\` in it as syntax.
 */
module Resolver {
  import opened Wrappers
  import opened Text
  import opened Placeholder
  import Replacement

  /** One place a name can be looked up: a table (the process environment,
      the system properties), a getter (the owning config's raw `doGet`,
      null becoming `None`), or the identity context of the no-argument
      constructor. */
  datatype Source =
    | Table(entries: map<string, string>)
    | Getter(lookup: string -> Option<string>)
    | Identity

  predicate Provides(src: Source, name: string) {
    match src
    case Table(entries) => name in entries
    case Getter(lookup) => lookup(name).Some?
    case Identity => true
  }

  function ValueIn(src: Source, name: string): string
    requires Provides(src, name)
  {
    match src
    case Table(entries) => entries[name]
    case Getter(lookup) => lookup(name).value
    case Identity => name
  }

  /** The lookup chain: the value from the first source that has the name. */
  function FirstHit(sources: seq<Source>, name: string): Option<string> {
    if |sources| == 0 then None
    else if Provides(sources[0], name) then Some(ValueIn(sources[0], name))
    else FirstHit(sources[1..], name)
  }

  /** The first provider wins: a value is found exactly when some source
      has the name, and it is the value of the earliest such source. */
  lemma {:induction false} FirstHitIsFirst(sources: seq<Source>, name: string)
    ensures FirstHit(sources, name).None? <==> forall i :: 0 <= i < |sources| ==> !Provides(sources[i], name)
    ensures FirstHit(sources, name).Some? ==>
              exists i :: 0 <= i < |sources| && Provides(sources[i], name)
                && FirstHit(sources, name).value == ValueIn(sources[i], name)
                && forall j :: 0 <= j < i ==> !Provides(sources[j], name)
  {
    if |sources| > 0 && !Provides(sources[0], name) {
      var tail := sources[1..];
      FirstHitIsFirst(tail, name);
      assert forall i :: 1 <= i < |sources| ==> sources[i] == tail[i - 1];
      if FirstHit(tail, name).Some? {
        var i :| 0 <= i < |tail| && Provides(tail[i], name)
                 && FirstHit(tail, name).value == ValueIn(tail[i], name)
                 && forall j :: 0 <= j < i ==> !Provides(tail[j], name);
        assert Provides(sources[i + 1], name);
      }
    }
  }

  /** The chain of `ReferenceResolverImpl`: context, environment, system
      properties (ReferenceResolverImpl.java:79-86). */
  function CurrentChain(context: Source, env: map<string, string>, props: map<string, string>): seq<Source> {
    [context, Table(env), Table(props)]
  }

  /** The chain of the legacy resolver: the config's raw values, then system
      properties; the environment is not consulted. */
  function LegacyChain(raw: string -> Option<string>, props: map<string, string>): seq<Source> {
    [Getter(raw), Table(props)]
  }

  /** Bug fix 001: every backslash of a substituted value becomes `/`. */
  function SlashPaths(v: string): (r: string)
    ensures |r| == |v|
  {
    ReplaceChar(v, '\\', '/')
  }

  /** Only backslashes change, and none is left. */
  lemma SlashPathsAt(v: string)
    ensures forall k :: 0 <= k < |v| ==> SlashPaths(v)[k] == (if v[k] == '\\' then '/' else v[k])
    ensures !Contains(SlashPaths(v), '\\')
  {
    ReplaceCharAt(v, '\\', '/');
  }

  /** The reference reading of resolution: every literal run is copied, every
      reference becomes its looked-up value or stays as it was. */
  function RenderSegment(seg: Segment, sources: seq<Source>): string {
    match seg
    case Literal(t) => t
    case Reference(n) =>
      match FirstHit(sources, n)
      case Some(v) => SlashPaths(v)
      case None => Original(seg)
  }

  function Render(segs: seq<Segment>, sources: seq<Source>): string {
    if segs == [] then [] else RenderSegment(segs[0], sources) + Render(segs[1..], sources)
  }

  /** `resolve(input)`.  The `while (matcher.find())` loop visits the
      matches left to right; `appendReplacement` copies the text since the
      previous match and then the value, and `appendTail` copies what follows
      the last match.  Unresolved matches are skipped, so they travel with the
      surrounding text.  The composition is the rendering of the segments. */
  function Resolve(input: string, sources: seq<Source>): string {
    Render(Parse(input), sources)
  }

  // ---------------------------------------------------------------------
  // Properties of resolution

  lemma RenderAppend(a: seq<Segment>, b: seq<Segment>, sources: seq<Source>)
    ensures Render(a + b, sources) == Render(a, sources) + Render(b, sources)
  {
    if a == [] {
      assert a + b == b;
    } else {
      assert (a + b)[1..] == a[1..] + b;
      RenderAppend(a[1..], b, sources);
    }
  }

  /** None of the referenced names is found in any source. */
  predicate NoneFound(segs: seq<Segment>, sources: seq<Source>) {
    forall k :: 0 <= k < |segs| && segs[k].Reference? ==> FirstHit(sources, segs[k].name).None?
  }

  lemma {:induction false} RenderUnresolved(segs: seq<Segment>, sources: seq<Source>)
    requires NoneFound(segs, sources)
    ensures Render(segs, sources) == Unparse(segs)
    decreases |segs|
  {
    if segs != [] {
      assert NoneFound(segs[1..], sources) by {
        forall k | 0 <= k < |segs[1..]| && segs[1..][k].Reference?
          ensures FirstHit(sources, segs[1..][k].name).None?
        {
          assert segs[1..][k] == segs[k + 1];
        }
      }
      RenderUnresolved(segs[1..], sources);
    }
  }

  /** When no placeholder can be resolved the output is exactly the input
      (ReferenceResolverImpl.java:98-104): unresolved placeholders stay
      verbatim and the text around them is untouched. */
  lemma UnresolvedIsIdentity(input: string, sources: seq<Source>)
    requires NoneFound(Parse(input), sources)
    ensures Resolve(input, sources) == input
  {
    RenderUnresolved(Parse(input), sources);
    UnparseParse(input);
  }

  /** Text without `$` is a fixed point of resolution, backslashes included. */
  lemma PlainTextIsFixedPoint(input: string, sources: seq<Source>)
    requires !Contains(input, '$')
    ensures Resolve(input, sources) == input
  {
    assert forall k :: 0 <= k < |input| ==> input[k] != '$';
    NoDollarNoMatch(input, 0);
    var segs := Parse(input);
    assert segs == [Literal(input[0..])];
    assert segs[1..] == [];
    assert input[0..] == input;
    assert Render(segs, sources) == input + Render([], sources);
  }

  /** `${k}` resolves to the first value found for `k`, with backslashes
      turned into slashes, and stays `${k}` when no source has `k`. */
  lemma ResolveSingle(k: string, sources: seq<Source>)
    requires IsName(k)
    ensures FirstHit(sources, k).Some? ==> Resolve("${" + k + "}", sources) == SlashPaths(FirstHit(sources, k).value)
    ensures FirstHit(sources, k).None? ==> Resolve("${" + k + "}", sources) == "${" + k + "}"
  {
    SingleReference(k);
    var segs := [Literal(""), Reference(k), Literal("")];
    assert segs[1..] == [Reference(k), Literal("")];
    assert segs[1..][1..] == [Literal("")];
    assert segs[1..][1..][1..] == [];
    assert Render(segs[1..][1..], sources) == "";
    assert Render(segs, sources) == RenderSegment(Reference(k), sources);
  }

  /** Resolution depends on the chain only through what it answers: two
      chains that find the same value for every name render alike. */
  lemma {:induction false} RenderCongruent(segs: seq<Segment>, s1: seq<Source>, s2: seq<Source>)
    requires forall n :: FirstHit(s1, n) == FirstHit(s2, n)
    ensures Render(segs, s1) == Render(segs, s2)
  {
    if segs != [] {
      if segs[0].Reference? {
        assert FirstHit(s1, segs[0].name) == FirstHit(s2, segs[0].name);
      }
      RenderCongruent(segs[1..], s1, s2);
    }
  }

  lemma ResolveCongruent(input: string, s1: seq<Source>, s2: seq<Source>)
    requires forall n :: FirstHit(s1, n) == FirstHit(s2, n)
    ensures Resolve(input, s1) == Resolve(input, s2)
  {
    RenderCongruent(Parse(input), s1, s2);
  }

  /** The lookup order: a name found in the context never reaches the
      environment or the system properties, and the environment shadows the
      system properties. */
  lemma LookupOrder(k: string, context: string -> Option<string>, env: map<string, string>, props: map<string, string>)
    ensures context(k).Some? ==> FirstHit(CurrentChain(Getter(context), env, props), k) == context(k)
    ensures context(k).None? && k in env ==> FirstHit(CurrentChain(Getter(context), env, props), k) == Some(env[k])
    ensures context(k).None? && k !in env && k in props ==> FirstHit(CurrentChain(Getter(context), env, props), k) == Some(props[k])
    ensures context(k).None? && k !in env && k !in props ==> FirstHit(CurrentChain(Getter(context), env, props), k) == None
  {
    var c := CurrentChain(Getter(context), env, props);
    assert c[1..] == [Table(env), Table(props)];
    assert c[1..][1..] == [Table(props)];
    assert c[1..][1..][1..] == [];
    assert FirstHit(c[1..][1..][1..], k) == None;
    assert FirstHit(c[1..][1..], k) == (if k in props then Some(props[k]) else None);
    assert FirstHit(c[1..], k) == (if k in env then Some(env[k]) else FirstHit(c[1..][1..], k));
  }

  /** The legacy chain skips the environment. */
  lemma LegacyLookupOrder(k: string, raw: string -> Option<string>, props: map<string, string>)
    ensures raw(k).Some? ==> FirstHit(LegacyChain(raw, props), k) == raw(k)
    ensures raw(k).None? && k in props ==> FirstHit(LegacyChain(raw, props), k) == Some(props[k])
    ensures raw(k).None? && k !in props ==> FirstHit(LegacyChain(raw, props), k) == None
  {
    var c := LegacyChain(raw, props);
    assert c[1..] == [Table(props)];
    assert c[1..][1..] == [];
    assert FirstHit(c[1..][1..], k) == None;
    assert FirstHit(c[1..], k) == (if k in props then Some(props[k]) else None);
  }

  /** The no-argument constructor's identity context turns `${x}` into `x`
      (ReferenceResolverImpl.java:38-40). */
  lemma IdentityContextStripsBraces(x: string, env: map<string, string>, props: map<string, string>)
    requires IsName(x) && !Contains(x, '\\')
    ensures Resolve("${" + x + "}", CurrentChain(Identity, env, props)) == x
  {
    ResolveSingle(x, CurrentChain(Identity, env, props));
    SlashPathsAt(x);
    assert SlashPaths(x) == x;
  }

  /** A value without backslashes is inserted as it is. */
  lemma SlashPathsKeeps(v: string)
    requires !Contains(v, '\\')
    ensures SlashPaths(v) == v
  {
    SlashPathsAt(v);
  }

  /** The placeholder of a name without backslashes is inserted as it is. */
  lemma ReferenceTextKeeps(name: string)
    requires !Contains(name, '\\')
    ensures SlashPaths("${" + name + "}") == "${" + name + "}"
  {
    var ref := "${" + name + "}";
    assert forall k :: 2 <= k < |ref| - 1 ==> ref[k] == name[k - 2];
    SlashPathsKeeps(ref);
  }

  /** A Windows path is substituted with forward slashes (bug fix 001):
      the value of a placeholder arrives with no backslash left and its
      length unchanged, while a backslash typed in text without `$` stays
      (`${home}` with `home=C:\\U` reads `C:/U`; `C:\\tmp` reads itself). */
  lemma BackslashesBecomeSlashes(name: string, path: string, text: string, sources: seq<Source>)
    requires IsName(name) && FirstHit(sources, name) == Some(path)
    requires !Contains(text, '$')
    ensures |Resolve("${" + name + "}", sources)| == |path|
    ensures !Contains(Resolve("${" + name + "}", sources), '\\')
    ensures Resolve(text, sources) == text
  {
    ResolveSingle(name, sources);
    SlashPathsAt(path);
    PlainTextIsFixedPoint(text, sources);
  }

  // ---------------------------------------------------------------------
  // The loop as written: the value goes through appendReplacement

  /** One segment as the Java loop writes it: the value goes through
      `appendReplacement`, which reads `$` and `\\` in it as syntax. */
  function RenderSegmentAsWritten(seg: Segment, sources: seq<Source>): Result<string, Fault> {
    match seg
    case Literal(t) => Success(t)
    case Reference(n) =>
      match FirstHit(sources, n)
      case Some(v) => Replacement.Expand(SlashPaths(v), Original(seg), n)
      case None => Success(Original(seg))
  }

  /** The segments as the Java loop writes them; the first failing
      `appendReplacement` aborts the call. */
  function RenderAsWritten(segs: seq<Segment>, sources: seq<Source>): Result<string, Fault> {
    if segs == [] then Success([])
    else
      match RenderSegmentAsWritten(segs[0], sources)
      case Failure(f) => Failure(f)
      case Success(head) =>
        match RenderAsWritten(segs[1..], sources)
        case Failure(f) => Failure(f)
        case Success(tail) => Success(head + tail)
  }

  /** `resolve(input)` as written. */
  function ResolveAsWritten(input: string, sources: seq<Source>): Result<string, Fault> {
    RenderAsWritten(Parse(input), sources)
  }

  /** Every value the source can produce is free of `$`; the identity
      context is not, since a captured name may hold one. */
  ghost predicate SourceDollarFree(src: Source) {
    match src
    case Table(entries) => forall k :: k in entries ==> !Contains(entries[k], '$')
    case Getter(lookup) => forall k :: lookup(k).Some? ==> !Contains(lookup(k).value, '$')
    case Identity => false
  }

  /** Every value the chain can produce is free of `$`. */
  ghost predicate DollarFree(sources: seq<Source>) {
    forall i :: 0 <= i < |sources| ==> SourceDollarFree(sources[i])
  }

  /** Every value that a reference among `segs` finds is free of `$`. */
  predicate FoundDollarFree(segs: seq<Segment>, sources: seq<Source>) {
    forall k :: 0 <= k < |segs| && segs[k].Reference? && FirstHit(sources, segs[k].name).Some? ==>
      !Contains(FirstHit(sources, segs[k].name).value, '$')
  }

  /** A found value without `$` reaches `appendReplacement` with neither
      `$` nor `\\`, so it is copied as it is. */
  lemma PlainValue(sources: seq<Source>, name: string, v: string, whole: string)
    requires FirstHit(sources, name) == Some(v) && !Contains(v, '$')
    ensures Replacement.Expand(SlashPaths(v), whole, name) == Success(SlashPaths(v))
  {
    SlashPathsAt(v);
    assert !Contains(SlashPaths(v), '$') by {
      forall k | 0 <= k < |v| ensures SlashPaths(v)[k] != '$' {
        assert v[k] != '$';
      }
    }
    Replacement.ExpandPlain(SlashPaths(v), whole, name);
  }

  lemma {:induction false} AsWrittenRenderAgrees(segs: seq<Segment>, sources: seq<Source>)
    requires FoundDollarFree(segs, sources)
    ensures RenderAsWritten(segs, sources) == Success(Render(segs, sources))
    decreases |segs|
  {
    if segs != [] {
      if segs[0].Reference? && FirstHit(sources, segs[0].name).Some? {
        PlainValue(sources, segs[0].name, FirstHit(sources, segs[0].name).value, Original(segs[0]));
      }
      assert FoundDollarFree(segs[1..], sources) by {
        forall k | 0 <= k < |segs[1..]| && segs[1..][k].Reference? && FirstHit(sources, segs[1..][k].name).Some?
          ensures !Contains(FirstHit(sources, segs[1..][k].name).value, '$')
        {
          assert segs[1..][k] == segs[k + 1];
        }
      }
      AsWrittenRenderAgrees(segs[1..], sources);
    }
  }

  /** The Java loop and the literal insertion agree exactly on inputs whose
      found values hold no `$`: only those values reach
      `appendReplacement` (ReferenceResolverImpl.java:95). */
  lemma AsWrittenAgreesOnFoundValues(input: string, sources: seq<Source>)
    requires FoundDollarFree(Parse(input), sources)
    ensures ResolveAsWritten(input, sources) == Success(Resolve(input, sources))
  {
    AsWrittenRenderAgrees(Parse(input), sources);
  }

  /** When no value the chain can produce holds a `$`, the Java loop and the
      literal insertion agree on every input. */
  lemma AsWrittenAgreesWithoutDollars(input: string, sources: seq<Source>)
    requires DollarFree(sources)
    ensures ResolveAsWritten(input, sources) == Success(Resolve(input, sources))
  {
    var segs := Parse(input);
    forall k | 0 <= k < |segs| && segs[k].Reference? && FirstHit(sources, segs[k].name).Some?
      ensures !Contains(FirstHit(sources, segs[k].name).value, '$')
    {
      FirstHitIsFirst(sources, segs[k].name);
    }
    AsWrittenAgreesOnFoundValues(input, sources);
  }

  /** A reference between two literal runs, the shape `Parse` gives a
      single placeholder, has its found value checked for `$` alone. */
  lemma ThreeSegmentsFound(a: string, k: string, b: string, sources: seq<Source>)
    requires FirstHit(sources, k).Some? ==> !Contains(FirstHit(sources, k).value, '$')
    ensures FoundDollarFree([Literal(a), Reference(k), Literal(b)], sources)
  {
  }

  /** A reference between two literal runs renders between them. */
  lemma RenderThree(a: string, k: string, b: string, sources: seq<Source>)
    ensures Render([Literal(a), Reference(k), Literal(b)], sources) == a + (RenderSegment(Reference(k), sources) + b)
  {
    var segs := [Literal(a), Reference(k), Literal(b)];
    assert segs[1..] == [Reference(k), Literal(b)];
    assert segs[1..][1..] == [Literal(b)];
    assert segs[1..][1..][1..] == [];
    assert Render(segs[1..][1..], sources) == b + Render([], sources);
  }

  /** `${k}` whose value holds no `$` is resolved alike by the Java loop. */
  lemma SingleAsWritten(k: string, sources: seq<Source>)
    requires IsName(k)
    requires FirstHit(sources, k).Some? ==> !Contains(FirstHit(sources, k).value, '$')
    ensures ResolveAsWritten("${" + k + "}", sources) == Success(Resolve("${" + k + "}", sources))
  {
    SingleReference(k);
    ThreeSegmentsFound("", k, "", sources);
    AsWrittenAgreesOnFoundValues("${" + k + "}", sources);
  }

  /** `$${k}` keeps its first `$` and resolves the reference after it. */
  lemma ResolveAfterDollar(k: string, sources: seq<Source>)
    requires IsName(k)
    ensures FirstHit(sources, k).Some? ==> Resolve("$${" + k + "}", sources) == "$" + SlashPaths(FirstHit(sources, k).value)
    ensures FirstHit(sources, k).None? ==> Resolve("$${" + k + "}", sources) == "$${" + k + "}"
  {
    DollarBeforeReference(k);
    RenderThree("$", k, "", sources);
    assert "$" + ("${" + k + "}" + "") == "$${" + k + "}";
  }

  /** The Java loop agrees on `$${k}` when the found value holds no `$`. */
  lemma AfterDollarAsWritten(k: string, sources: seq<Source>)
    requires IsName(k)
    requires FirstHit(sources, k).Some? ==> !Contains(FirstHit(sources, k).value, '$')
    ensures ResolveAsWritten("$${" + k + "}", sources) == Success(Resolve("$${" + k + "}", sources))
  {
    DollarBeforeReference(k);
    ThreeSegmentsFound("$", k, "", sources);
    AsWrittenAgreesOnFoundValues("$${" + k + "}", sources);
  }

  /** `{x}` for a name without `$` or backslashes: no `$`, inserted as it
      is, and a `$` in front of it makes the placeholder of `x`. */
  lemma BracedText(x: string)
    requires !Contains(x, '$') && !Contains(x, '\\')
    ensures !Contains("{" + x + "}", '$')
    ensures SlashPaths("{" + x + "}") == "{" + x + "}"
    ensures "$" + ("{" + x + "}") == "${" + x + "}"
  {
    var t := "{" + x + "}";
    assert forall k :: 1 <= k < |t| - 1 ==> t[k] == x[k - 1];
    SlashPathsKeeps(t);
  }

  /** Resolution is one pass: a substituted value is not scanned again.
      Over `p={x}` and `x=v`, the text `$${p}` becomes `${x}`, a placeholder
      that on its own would read `v`; the Java loop gives the same, since
      `{x}` holds no `$`. */
  lemma SubstitutedTextIsNotRescanned(p: string, x: string, v: string, sources: seq<Source>)
    requires IsName(p) && IsName(x) && !Contains(x, '$') && !Contains(x, '\\')
    requires FirstHit(sources, p) == Some("{" + x + "}")
    requires FirstHit(sources, x) == Some(v)
    ensures Resolve("$${" + p + "}", sources) == "${" + x + "}"
    ensures ResolveAsWritten("$${" + p + "}", sources) == Success("${" + x + "}")
    ensures Resolve("${" + x + "}", sources) == SlashPaths(v)
  {
    BracedText(x);
    ResolveAfterDollar(p, sources);
    AfterDollarAsWritten(p, sources);
    ResolveSingle(x, sources);
  }

  /** A chained reference (a value that is itself `${..}`) makes the Java
      loop throw, where literal insertion yields the inner placeholder. */
  lemma ChainedReferenceThrows()
    ensures ResolveAsWritten("${n}", [Table(map["n" := "${f}"])]) == Failure(IllegalReplacement)
    ensures Resolve("${n}", [Table(map["n" := "${f}"])]) == "${f}"
  {
    var sources := [Table(map["n" := "${f}"])];
    assert IsName("n");
    assert "${n}" == "${" + "n" + "}";
    SingleReference("n");
    assert FirstHit(sources, "n") == Some("${f}");
    assert SlashPaths("${f}") == "${f}";
    Replacement.NamedReferenceThrows("f}", "${n}", "n");
    assert "${f}" == "${" + "f}";
    ResolveSingle("n", sources);
  }
}

=== FILE: stores.dfy ===
/** The key/value stores behind the configs, and the heap they live in.

    A `java.util.Properties` holds its own entries and may fall back on a
    chain of defaults: reads try its own entries and then each defaults
    table in turn, writes land in its own entries only, `size` counts its
    own entries, and `stringPropertyNames` spans the whole chain.  A
    `HashMap` is the same store with no defaults.

    Stores are shared by reference in Java (`getData` hands out the live
    object), so the model keeps them in a heap indexed by `StoreId`; a
    config holds the id of its store.
 */
module Stores {
  import opened Wrappers

  type StoreId = nat

  /** A `Properties` object: its own entries and its defaults, nearest
      first. */
  datatype Layers = Layers(top: map<string, string>, defaults: seq<map<string, string>>)

  /** A store with no defaults: a `HashMap`, or a `new Properties()`. */
  function Plain(entries: map<string, string>): Layers {
    Layers(entries, [])
  }

  /** The first defaults table that has `key`. */
  function LookupIn(chain: seq<map<string, string>>, key: string): Option<string> {
    if |chain| == 0 then None
    else if key in chain[0] then Some(chain[0][key])
    else LookupIn(chain[1..], key)
  }

  /** Every key some defaults table has. */
  function ChainNames(chain: seq<map<string, string>>): set<string> {
    if |chain| == 0 then {} else chain[0].Keys + ChainNames(chain[1..])
  }

  /** `Properties.getProperty(key)`: own entry, then the defaults chain. */
  function Lookup(s: Layers, key: string): Option<string> {
    if key in s.top then Some(s.top[key]) else LookupIn(s.defaults, key)
  }

  /** `Properties.getProperty(key, default)` and `Map.getOrDefault`: an
      own entry first, then a name the defaults hold, and the default only
      for a key that is no name at all; so the answer is null exactly when
      the key is no name and the default is null. */
  function LookupOr(s: Layers, key: string, default: Option<string>): (r: Option<string>)
    ensures key in s.top ==> r == Some(s.top[key])
    ensures key in Names(s) ==> r.Some? && r == Lookup(s, key)
    ensures key !in Names(s) ==> r == default
    ensures r.None? <==> key !in Names(s) && default.None?
  {
    LookupNames(s, key);
    match Lookup(s, key)
    case Some(v) => Some(v)
    case None => default
  }

  /** `stringPropertyNames` (and `keySet` when there are no defaults). */
  function Names(s: Layers): set<string> {
    s.top.Keys + ChainNames(s.defaults)
  }

  /** `size`: own entries only, the defaults are not counted. */
  function Size(s: Layers): nat {
    |s.top|
  }

  /** `setProperty(key, value)` / `put(key, value)`: the new store and the
      previous own entry (the defaults are never consulted). */
  function Put(s: Layers, key: string, value: string): (r: (Layers, Option<string>))
    ensures r.0.defaults == s.defaults
    ensures r.1 == (if key in s.top then Some(s.top[key]) else None)
  {
    (Layers(s.top[key := value], s.defaults), if key in s.top then Some(s.top[key]) else None)
  }

  /** Every name of the chain has a value, and nothing else has. */
  lemma {:induction false} LookupInNames(chain: seq<map<string, string>>, key: string)
    ensures LookupIn(chain, key).Some? <==> key in ChainNames(chain)
  {
    if |chain| > 0 {
      LookupInNames(chain[1..], key);
    }
  }

  /** A read finds a value exactly for the names of the store. */
  lemma LookupNames(s: Layers, key: string)
    ensures Lookup(s, key).Some? <==> key in Names(s)
  {
    LookupInNames(s.defaults, key);
  }

  /** An own entry shadows every default for the same key. */
  lemma OwnEntryShadows(s: Layers, key: string, v: string)
    requires key in s.top && s.top[key] == v
    ensures Lookup(s, key) == Some(v)
  {
  }

  /** After a write the key reads back as written; no other key changes,
      the names grow by the key, and the size grows by one exactly when
      the key was not an own entry. */
  lemma PutThenLookup(s: Layers, key: string, value: string, other: string)
    requires other != key
    ensures Lookup(Put(s, key, value).0, key) == Some(value)
    ensures Lookup(Put(s, key, value).0, other) == Lookup(s, other)
    ensures Names(Put(s, key, value).0) == Names(s) + {key}
    ensures Size(Put(s, key, value).0) == Size(s) + (if key in s.top then 0 else 1)
  {
  }

  /** A key known only from the defaults reads as present, yet a write
      reports no previous value and makes the size grow. */
  lemma DefaultsAreNotOwnEntries(d: string)
    ensures Lookup(Layers(map[], [map["k" := d]]), "k") == Some(d)
    ensures Put(Layers(map[], [map["k" := d]]), "k", "x").1 == None
    ensures Size(Layers(map[], [map["k" := d]])) == 0
    ensures "k" in Names(Layers(map[], [map["k" := d]]))
  {
    var chain := [map["k" := d]];
    assert chain[1..] == [];
  }

  // ---------------------------------------------------------------------
  // The heap

  datatype Heap = Heap(stores: map<StoreId, Layers>, next: StoreId)

  /** Every allocated id is below `next`. */
  predicate Good(h: Heap) {
    forall id :: id in h.stores ==> id < h.next
  }

  /** The store behind `id`; an id never allocated reads as an empty one. */
  function Deref(h: Heap, id: StoreId): Layers {
    if id in h.stores then h.stores[id] else Plain(map[])
  }

  /** A `new Properties()` (or new `HashMap`) filled with `s`. */
  function Alloc(h: Heap, s: Layers): (r: (Heap, StoreId))
    requires Good(h)
    ensures Good(r.0) && r.1 !in h.stores && r.1 in r.0.stores
    ensures Deref(r.0, r.1) == s
    ensures forall id :: id in h.stores ==> id in r.0.stores && Deref(r.0, id) == Deref(h, id)
  {
    (Heap(h.stores[h.next := s], h.next + 1), h.next)
  }

  /** Replaces the store behind `id`. */
  function Store(h: Heap, id: StoreId, s: Layers): (r: Heap)
    requires Good(h) && id in h.stores
    ensures Good(r) && r.stores.Keys == h.stores.Keys
    ensures Deref(r, id) == s
    ensures forall other :: other != id ==> Deref(r, other) == Deref(h, other)
  {
    Heap(h.stores[id := s], h.next)
  }

  /** A write through one id is seen through the same id and through no
      other: two holders of one store see each other's writes, holders of
      different stores never do. */
  lemma WriteIsSharedByHolders(h: Heap, id: StoreId, other: StoreId, key: string, value: string)
    requires Good(h) && id in h.stores
    ensures Lookup(Deref(Store(h, id, Put(Deref(h, id), key, value).0), id), key) == Some(value)
    ensures other != id ==>
      Deref(Store(h, id, Put(Deref(h, id), key, value).0), other) == Deref(h, other)
  {
  }

  // ---------------------------------------------------------------------
  // Merging

  /** Entries of `later` replace those of `earlier` on a shared key, the
      way successive `setProperty` calls do. */
  function Overlay(earlier: map<string, string>, later: map<string, string>): (r: map<string, string>)
    ensures r.Keys == earlier.Keys + later.Keys
    ensures forall k :: k in later ==> r[k] == later[k]
    ensures forall k :: k in earlier && k !in later ==> r[k] == earlier[k]
  {
    earlier + later
  }

  /** The visible entries of a store: every name with what a read gives. */
  function Visible(s: Layers): (r: map<string, string>)
    ensures r.Keys == Names(s)
    ensures forall k :: k in r ==> Lookup(s, k) == Some(r[k])
  {
    LookupNamesAll(s);
    map k | k in Names(s) :: Lookup(s, k).value
  }

  lemma LookupNamesAll(s: Layers)
    ensures forall k :: k in Names(s) ==> Lookup(s, k).Some?
  {
    forall k | k in Names(s) ensures Lookup(s, k).Some? {
      LookupNames(s, k);
    }
  }
}

=== FILE: subsets.dfy ===
/** The subset projection of `ConfigSubset`'s constructor.

    The parent's names are visited in their iteration order.  A name that
    starts with `subset_name + separator` is split on the separator and
    renamed to its parts after the first, rejoined with the separator; a
    name that renames to the empty text is skipped.  The copied value is
    the parent's resolved value.  Two names that rename alike leave the
    value of the one visited last.
 */
module Subsets {
  import opened Wrappers
  import opened Text

  /** A separator whose split pattern does not compile.  `ConfigSubset`
      wraps ASCII punctuation in `[...]` and uses any other separator as the
      pattern itself (ConfigSubset.java:43).  Every other separator then
      matches itself alone: inside the class punctuation is literal, and a
      `]` right after `[` is a member, not the end.  But `[[]` opens a
      nested class, `[\]` escapes the closing bracket, and `[^]` negates a
      class whose `]` is again a member; each is left unclosed. */
  predicate MalformedSeparator(sep: char) {
    sep in "[\\^"
  }

  /** The constructor's loop reaches a name under the prefix, so it calls
      `split` with a pattern that does not compile and throws
      (ConfigSubset.java:59-61). */
  predicate SplitThrows(order: seq<string>, name: string, sep: char) {
    MalformedSeparator(sep) && exists i :: 0 <= i < |order| && StartsWith(order[i], name + [sep])
  }

  /** The new name of a parent key: its parts after the first, rejoined;
      empty when the split yields fewer than two parts
      (ConfigSubset.java:61-75). */
  function Rename(key: string, sep: char): string {
    var parts := Split(key, sep);
    if |parts| > 1 then Join(parts[1..], sep) else []
  }

  /** The subset key a parent key supplies: its new name when it starts
      with the prefix and renames to something; nothing otherwise
      (ConfigSubset.java:59, 81). */
  function Supplied(key: string, name: string, sep: char): Option<string> {
    if StartsWith(key, name + [sep]) && |Rename(key, sep)| > 0 then Some(Rename(key, sep)) else None
  }

  /** `order` lists every name of the set once: the iteration order of
      the `HashSet` that `getNames` returns. */
  predicate Enumerates(order: seq<string>, names: set<string>) {
    (forall i :: 0 <= i < |order| ==> order[i] in names)
    && (forall k :: k in names ==> k in order)
    && (forall i, j :: 0 <= i < j < |order| ==> order[i] != order[j])
  }

  /** The entries after a loop has visited `order`, each name putting its
      value under the key `supply` gives it: those after all but the last
      name, plus what the last name supplies. */
  function Project(order: seq<string>, values: map<string, string>, supply: string -> Option<string>): map<string, string>
    requires forall i :: 0 <= i < |order| ==> order[i] in values
  {
    if order == [] then map[]
    else
      var n := |order| - 1;
      var before := Project(order[..n], values, supply);
      match supply(order[n])
      case Some(k) => before[k := values[order[n]]]
      case None => before
  }

  /** The subset's entries after the constructor has visited the parent's
      names in `order`; `values` holds the parent's resolved values. */
  function SubsetOf(order: seq<string>, values: map<string, string>, name: string, sep: char): map<string, string>
    requires forall i :: 0 <= i < |order| ==> order[i] in values
  {
    Project(order, values, key => Supplied(key, name, sep))
  }

  /** The position of the last name that supplies `k`. */
  function LastSupplier(order: seq<string>, supply: string -> Option<string>, k: string): (r: Option<nat>)
    ensures r.Some? ==> r.value < |order|
  {
    if order == [] then None
    else if supply(order[|order| - 1]) == Some(k) then Some(|order| - 1)
    else LastSupplier(order[..|order| - 1], supply, k)
  }

  lemma {:induction false} LastSupplierIsLast(order: seq<string>, supply: string -> Option<string>, k: string)
    ensures LastSupplier(order, supply, k).Some? ==>
      supply(order[LastSupplier(order, supply, k).value]) == Some(k)
      && forall j :: LastSupplier(order, supply, k).value < j < |order| ==> supply(order[j]) != Some(k)
    ensures LastSupplier(order, supply, k).None? ==> forall i :: 0 <= i < |order| ==> supply(order[i]) != Some(k)
  {
    if order != [] && supply(order[|order| - 1]) != Some(k) {
      var n := |order| - 1;
      LastSupplierIsLast(order[..n], supply, k);
      assert forall i :: 0 <= i < n ==> order[..n][i] == order[i];
    }
  }

  /** The projection holds `k` exactly when some name supplies it, and then
      holds the value of the last such name: a later name overwrites an
      earlier one. */
  lemma {:induction false} ProjectEntries(order: seq<string>, values: map<string, string>, supply: string -> Option<string>, k: string)
    requires forall i :: 0 <= i < |order| ==> order[i] in values
    ensures k in Project(order, values, supply) <==> LastSupplier(order, supply, k).Some?
    ensures k in Project(order, values, supply) ==>
      Project(order, values, supply)[k] == values[order[LastSupplier(order, supply, k).value]]
  {
    if order != [] {
      var n := |order| - 1;
      assert forall i :: 0 <= i < n ==> order[..n][i] == order[i];
      ProjectEntries(order[..n], values, supply, k);
    }
  }

  /** Only keys under the prefix are copied, no key of the subset is
      empty, and each holds the value of the last parent name renamed to
      it. */
  lemma SubsetKeysComeFromPrefixedNames(order: seq<string>, values: map<string, string>, name: string, sep: char, k: string)
    requires forall i :: 0 <= i < |order| ==> order[i] in values
    requires k in SubsetOf(order, values, name, sep)
    ensures k != []
    ensures exists i :: 0 <= i < |order| && StartsWith(order[i], name + [sep]) && Rename(order[i], sep) == k
              && SubsetOf(order, values, name, sep)[k] == values[order[i]]
  {
    var supply := key => Supplied(key, name, sep);
    ProjectEntries(order, values, supply, k);
    LastSupplierIsLast(order, supply, k);
    var j := LastSupplier(order, supply, k).value;
    assert supply(order[j]) == Some(k);
  }

  /** Every parent name under the prefix that renames to something is
      represented in the subset. */
  lemma PrefixedNamesAreCopied(order: seq<string>, values: map<string, string>, name: string, sep: char, i: nat)
    requires forall i :: 0 <= i < |order| ==> order[i] in values
    requires i < |order| && StartsWith(order[i], name + [sep]) && Rename(order[i], sep) != []
    ensures Rename(order[i], sep) in SubsetOf(order, values, name, sep)
  {
    var supply := key => Supplied(key, name, sep);
    var k := Rename(order[i], sep);
    assert supply(order[i]) == Some(k);
    LastSupplierIsLast(order, supply, k);
    ProjectEntries(order, values, supply, k);
  }

  // ---------------------------------------------------------------------
  // Renaming

  /** The last field of a text that does not end with the separator is not
      empty. */
  lemma {:induction false} LastFieldNonEmpty(s: string, sep: char)
    requires s != [] && s[|s| - 1] != sep
    ensures Fields(s, sep)[|Fields(s, sep)| - 1] != []
    decreases |s|
  {
    var rest := Fields(s[1..], sep);
    if s[0] == sep {
      LastFieldNonEmpty(s[1..], sep);
      assert Fields(s, sep) == [[]] + rest;
    } else if |rest| > 1 {
      LastFieldNonEmpty(s[1..], sep);
      assert Fields(s, sep) == [[s[0]] + rest[0]] + rest[1..];
    } else {
      assert Fields(s, sep) == [[s[0]] + rest[0]] + rest[1..];
    }
  }

  /** Renaming drops exactly the first field: `head<sep>rest` becomes
      `rest`, separators inside `rest` included. */
  lemma RenameDropsFirstField(head: string, rest: string, sep: char)
    requires !Contains(head, sep)
    requires rest != [] && rest[|rest| - 1] != sep
    ensures Rename(head + [sep] + rest, sep) == rest
  {
    var key := head + [sep] + rest;
    assert key[|head|] == sep;
    assert Contains(key, sep);
    FieldsAppendFree(head, [sep] + rest, sep);
    assert ([sep] + rest)[1..] == rest;
    assert Fields([sep] + rest, sep) == [[]] + Fields(rest, sep);
    assert head + [sep] + rest == head + ([sep] + rest);
    var fields := [head] + Fields(rest, sep);
    assert Fields(key, sep) == fields by {
      assert head + [] == head;
    }
    LastFieldNonEmpty(rest, sep);
    assert fields[|fields| - 1] != [];
    assert DropTrailingEmpty(fields) == fields;
    assert fields[1..] == Fields(rest, sep);
    JoinFields(rest, sep);
  }

  /** A key that is only the prefix renames to nothing and is skipped. */
  lemma BarePrefixIsSkipped(name: string, sep: char)
    requires name != [] && !Contains(name, sep)
    ensures Rename(name + [sep], sep) == []
  {
    SplitTrailingSeparator(name, sep);
  }

  /** A key under the prefix whose remainder does not end with the
      separator supplies that remainder. */
  lemma SuppliedUnderPrefix(name: string, rest: string, sep: char)
    requires !Contains(name, sep)
    requires rest != [] && rest[|rest| - 1] != sep
    ensures Supplied(name + [sep] + rest, name, sep) == Some(rest)
  {
    var key := name + [sep] + rest;
    assert key[..|name| + 1] == name + [sep];
    RenameDropsFirstField(name, rest, sep);
  }

  lemma ProjectTwo(a: string, b: string, values: map<string, string>, supply: string -> Option<string>, ka: string, kb: string)
    requires a in values && b in values
    requires supply(a) == Some(ka) && supply(b) == Some(kb)
    ensures Project([a, b], values, supply) == map[ka := values[a]][kb := values[b]]
  {
    var order := [a, b];
    assert order[..1] == [a];
    assert [a][..0] == [];
    assert Project([a], values, supply) == map[][ka := values[a]];
    assert Project(order, values, supply) == Project([a], values, supply)[kb := values[b]];
  }

  /** The documented example: `name.first=John`, `name.last=Doe` under
      (`name`, `.`) give `first=John`, `last=Doe`. */
  lemma DocumentedExample()
    ensures SubsetOf(["name.first", "name.last"], map["name.first" := "John", "name.last" := "Doe"], "name", '.')
         == map["first" := "John", "last" := "Doe"]
  {
    var values := map["name.first" := "John", "name.last" := "Doe"];
    assert !Contains("name", '.');
    assert "name.first" == "name" + ['.'] + "first";
    assert "name.last" == "name" + ['.'] + "last";
    SuppliedUnderPrefix("name", "first", '.');
    SuppliedUnderPrefix("name", "last", '.');
    ProjectTwo("name.first", "name.last", values, key => Supplied(key, "name", '.'), "first", "last");
  }

  /** A dotted subset name is not stripped as a whole: under the name
      `a<sep>b` the key `a<sep>b<sep>c` starts with the prefix, yet it
      becomes `b<sep>c`, not `c` (under `a.b`, `a.b.c` becomes `b.c`). */
  lemma OnlyTheFirstSegmentIsDropped(a: string, b: string, c: string, sep: char)
    requires !Contains(a, sep)
    requires c != [] && c[|c| - 1] != sep
    ensures StartsWith(a + [sep] + b + [sep] + c, (a + [sep] + b) + [sep])
    ensures Rename(a + [sep] + b + [sep] + c, sep) == b + [sep] + c
  {
    var rest := b + [sep] + c;
    assert a + [sep] + b + [sep] + c == a + [sep] + rest;
    assert rest[|rest| - 1] == c[|c| - 1];
    RenameDropsFirstField(a, rest, sep);
    var prefix := (a + [sep] + b) + [sep];
    assert (a + [sep] + b + [sep] + c)[..|prefix|] == prefix;
  }
}

=== FILE: text.dfy ===
/** The string primitives of `java.lang.String` that the library relies on:
    `trim`, `split` on a single literal character, joining with a separator,
    and `replace(char, char)`.
 */
module Text {

  /** True when `c` occurs in `s`. */
  predicate Contains(s: string, c: char) {
    exists k :: 0 <= k < |s| && s[k] == c
  }

  /** A one-character pattern that `String.split` reads as the character
      itself: every character but the metacharacters that its fast path
      turns away (`]` and `}` on their own match themselves). */
  predicate IsLiteralInPattern(c: char) {
    c !in ".$|()[{^?*+\\"
  }

  /** `String.length()`: UTF-16 code units, two for a character outside
      the Basic Multilingual Plane. */
  function Utf16Length(s: string): (n: nat)
    ensures |s| <= n <= 2 * |s|
  {
    if |s| == 0 then 0 else (if s[0] as int >= 0x1_0000 then 2 else 1) + Utf16Length(s[1..])
  }

  /** An ASCII decimal digit. */
  predicate IsDigit(c: char) {
    '0' <= c <= '9'
  }

  function DigitValue(c: char): (d: nat)
    requires IsDigit(c)
    ensures d < 10
  {
    (c as int) - ('0' as int)
  }

  predicate StartsWith(s: string, prefix: string) {
    |prefix| <= |s| && s[..|prefix|] == prefix
  }

  /** `String.trim` removes every character at or below U+0020 from both ends. */
  predicate IsTrimmed(c: char) {
    c <= ' '
  }

  function TrimStart(s: string): (r: string)
    ensures |r| <= |s| && r == s[|s| - |r|..]
    ensures r == [] || !IsTrimmed(r[0])
    ensures forall k :: 0 <= k < |s| - |r| ==> IsTrimmed(s[k])
  {
    if s == [] || !IsTrimmed(s[0]) then s else TrimStart(s[1..])
  }

  function TrimEnd(s: string): (r: string)
    ensures |r| <= |s| && r == s[..|r|]
    ensures r == [] || !IsTrimmed(r[|r| - 1])
    ensures forall k :: |r| <= k < |s| ==> IsTrimmed(s[k])
  {
    if s == [] || !IsTrimmed(s[|s| - 1]) then s else TrimEnd(s[..|s| - 1])
  }

  /** `String.trim`: the longest infix of `s` that neither starts nor ends
      with a control character or a space. */
  function Trim(s: string): (r: string)
    ensures |r| <= |s|
    ensures r == [] || (!IsTrimmed(r[0]) && !IsTrimmed(r[|r| - 1]))
  {
    TrimEnd(TrimStart(s))
  }

  /** Where `trim` cuts the leading characters off. */
  function TrimOffset(s: string): (a: nat)
    ensures a <= |s|
  {
    |s| - |TrimStart(s)|
  }

  /** A prefix of a suffix is an infix. */
  lemma PrefixOfSuffix(s: string, a: nat, t: string, r: string)
    requires a <= |s| && t == s[a..]
    requires |r| <= |t| && r == t[..|r|]
    ensures a + |r| <= |s| && r == s[a..a + |r|]
  {
  }

  /** `trim` keeps an infix of `s`: only characters at the ends go. */
  lemma TrimIsInfix(s: string)
    ensures TrimOffset(s) + |Trim(s)| <= |s|
    ensures Trim(s) == s[TrimOffset(s)..TrimOffset(s) + |Trim(s)|]
  {
    var t := TrimStart(s);
    PrefixOfSuffix(s, |s| - |t|, t, TrimEnd(t));
  }

  /** A string that does not start or end with a trimmed character is its
      own trim. */
  lemma TrimOfTrimmed(s: string)
    requires s == [] || (!IsTrimmed(s[0]) && !IsTrimmed(s[|s| - 1]))
    ensures Trim(s) == s
  {
    assert TrimStart(s) == s;
    assert TrimEnd(s) == s;
  }

  /** `trim` is idempotent. */
  lemma TrimIdempotent(s: string)
    ensures Trim(Trim(s)) == Trim(s)
  {
    TrimOfTrimmed(Trim(s));
  }

  /** Joins `parts` with `sep` between consecutive parts and no trailing
      separator (the loops of `setArray` and `toQueryString`). */
  function Join(parts: seq<string>, sep: char): string
  {
    if |parts| == 0 then []
    else if |parts| == 1 then parts[0]
    else parts[0] + [sep] + Join(parts[1..], sep)
  }

  /** Appends `sep` after every part, the last one included (the loop of
      `setCollection`). */
  function JoinTerminated(parts: seq<string>, sep: char): string
  {
    if |parts| == 0 then [] else parts[0] + [sep] + JoinTerminated(parts[1..], sep)
  }

  /** Every field between separators, empty ones included (a split that
      keeps trailing empty strings). */
  function Fields(s: string, sep: char): (r: seq<string>)
    ensures |r| >= 1
    ensures forall k :: 0 <= k < |r| ==> !Contains(r[k], sep)
    decreases |s|
  {
    if s == [] then [[]]
    else
      var rest := Fields(s[1..], sep);
      if s[0] == sep then [[]] + rest
      else
        assert !Contains(rest[0], sep);
        [[s[0]] + rest[0]] + rest[1..]
  }

  /** `n` copies of the separator `c`. */
  function Repeat(n: nat, c: char): (r: string)
    ensures |r| == n && forall k :: 0 <= k < n ==> r[k] == c
  {
    seq(n, _ => c)
  }

  /** Drops the empty strings at the end of `parts`. */
  function DropTrailingEmpty(parts: seq<string>): (r: seq<string>)
    ensures |r| <= |parts| && r == parts[..|r|]
    ensures r == [] || r[|r| - 1] != []
    ensures forall k :: |r| <= k < |parts| ==> parts[k] == []
  {
    if |parts| == 0 || parts[|parts| - 1] != [] then parts
    else DropTrailingEmpty(parts[..|parts| - 1])
  }

  /** Java's `String.split` on a separator that the regular expression
      engine reads as one literal character: the input itself when the
      separator does not occur, otherwise the fields with trailing empty
      strings removed. */
  function Split(s: string, sep: char): (r: seq<string>)
    ensures forall k :: 0 <= k < |r| ==> !Contains(r[k], sep)
  {
    if !Contains(s, sep) then [s] else DropTrailingEmpty(Fields(s, sep))
  }

  /** `String.replace(char, char)`. */
  function ReplaceChar(s: string, from: char, to: char): (r: string)
    ensures |r| == |s|
  {
    if s == [] then [] else [if s[0] == from then to else s[0]] + ReplaceChar(s[1..], from, to)
  }

  /** `replace` changes every occurrence of `from` into `to` and nothing else. */
  lemma {:induction false} ReplaceCharAt(s: string, from: char, to: char)
    ensures forall k :: 0 <= k < |s| ==> ReplaceChar(s, from, to)[k] == (if s[k] == from then to else s[k])
  {
    if s != [] {
      ReplaceCharAt(s[1..], from, to);
      assert forall k :: 1 <= k < |s| ==> ReplaceChar(s, from, to)[k] == ReplaceChar(s[1..], from, to)[k - 1];
    }
  }

  lemma JoinCons(p: string, parts: seq<string>, sep: char)
    requires |parts| >= 1
    ensures Join([p] + parts, sep) == p + [sep] + Join(parts, sep)
  {
    assert ([p] + parts)[1..] == parts;
  }

  /** Joining the fields of `s` gives `s` back. */
  lemma {:induction false} JoinFields(s: string, sep: char)
    ensures Join(Fields(s, sep), sep) == s
    decreases |s|
  {
    if s != [] {
      var rest := Fields(s[1..], sep);
      JoinFields(s[1..], sep);
      if s[0] == sep {
        JoinCons([], rest, sep);
      } else {
        if |rest| == 1 {
          assert Fields(s, sep) == [[s[0]] + rest[0]];
        } else {
          JoinCons([s[0]] + rest[0], rest[1..], sep);
          JoinCons(rest[0], rest[1..], sep);
          assert [rest[0]] + rest[1..] == rest;
        }
      }
    }
  }

  lemma FieldsPrepend(c: char, s: string, sep: char)
    requires c != sep
    ensures Fields([c] + s, sep) == [[c] + Fields(s, sep)[0]] + Fields(s, sep)[1..]
  {
    assert ([c] + s)[1..] == s;
  }

  /** A text without `c` has neither a first character nor a tail equal to it. */
  lemma FreeTail(p: string, c: char)
    requires p != [] && !Contains(p, c)
    ensures p[0] != c && !Contains(p[1..], c)
  {
    forall k | 0 <= k < |p[1..]|
      ensures p[1..][k] != c
    {
      assert p[1..][k] == p[k + 1];
    }
  }

  /** A separator-free text put in front of `s` joins its first field. */
  lemma {:induction false} FieldsAppendFree(p: string, s: string, sep: char)
    requires !Contains(p, sep)
    ensures Fields(p + s, sep) == [p + Fields(s, sep)[0]] + Fields(s, sep)[1..]
    decreases |p|
  {
    var f := Fields(s, sep);
    if p != [] {
      FreeTail(p, sep);
      FieldsAppendFree(p[1..], s, sep);
      var g := Fields(p[1..] + s, sep);
      assert g[0] == p[1..] + f[0] && g[1..] == f[1..];
      assert p + s == [p[0]] + (p[1..] + s);
      FieldsPrepend(p[0], p[1..] + s, sep);
      assert [p[0]] + g[0] == p + f[0];
    } else {
      assert p + s == s && p + f[0] == f[0];
      assert [f[0]] + f[1..] == f;
    }
  }

  /** The fields of a joined sequence are its parts, as long as no part
      contains the separator. */
  lemma {:induction false} FieldsJoin(parts: seq<string>, sep: char)
    requires |parts| >= 1
    requires forall k :: 0 <= k < |parts| ==> !Contains(parts[k], sep)
    ensures Fields(Join(parts, sep), sep) == parts
    decreases |parts|
  {
    if |parts| == 1 {
      FieldsAppendFree(parts[0], [], sep);
      assert parts[0] + [] == parts[0];
    } else {
      var tail := Join(parts[1..], sep);
      FieldsJoin(parts[1..], sep);
      FieldsAppendFree(parts[0], [sep] + tail, sep);
      assert ([sep] + tail)[1..] == tail;
      assert Fields([sep] + tail, sep) == [[]] + parts[1..];
      assert Join(parts, sep) == parts[0] + ([sep] + tail);
      assert Fields(Join(parts, sep), sep) == [parts[0] + []] + parts[1..];
      assert parts[0] + [] == parts[0];
      assert [parts[0]] + parts[1..] == parts;
    }
  }

  /** A joined text holds a character only where a part or the separator
      holds it. */
  lemma {:induction false} JoinAvoids(parts: seq<string>, sep: char, c: char)
    requires c != sep && forall k :: 0 <= k < |parts| ==> !Contains(parts[k], c)
    ensures !Contains(Join(parts, sep), c)
    decreases |parts|
  {
    if |parts| >= 2 {
      JoinAvoids(parts[1..], sep, c);
      var rest := Join(parts[1..], sep);
      var t := Join(parts, sep);
      assert t == parts[0] + [sep] + rest;
      forall i | 0 <= i < |t| ensures t[i] != c {
        if i < |parts[0]| {
          assert t[i] == parts[0][i];
        } else if i > |parts[0]| {
          assert t[i] == rest[i - |parts[0]| - 1];
        }
      }
    }
  }

  /** A joined string contains the separator exactly when there are at
      least two parts. */
  lemma JoinContains(parts: seq<string>, sep: char)
    requires forall k :: 0 <= k < |parts| ==> !Contains(parts[k], sep)
    ensures Contains(Join(parts, sep), sep) <==> |parts| >= 2
  {
    if |parts| >= 2 {
      assert Join(parts, sep)[|parts[0]|] == sep;
    }
  }

  /** The `setArray`/`getArray` round trip: splitting the joined array
      gives the array back, provided no element contains the separator and
      the last element is not empty (Java drops trailing empty strings). */
  lemma SplitJoin(parts: seq<string>, sep: char)
    requires |parts| >= 1
    requires forall k :: 0 <= k < |parts| ==> !Contains(parts[k], sep)
    requires |parts| == 1 || parts[|parts| - 1] != []
    ensures Split(Join(parts, sep), sep) == parts
  {
    JoinContains(parts, sep);
    if |parts| >= 2 {
      FieldsJoin(parts, sep);
    }
  }

  lemma JoinTerminatedIsJoin(parts: seq<string>, sep: char)
    requires |parts| >= 1
    ensures JoinTerminated(parts, sep) == Join(parts + [[]], sep)
  {
    if |parts| == 1 {
      assert (parts + [[]])[1..] == [[]];
    } else {
      JoinTerminatedIsJoin(parts[1..], sep);
      assert (parts + [[]])[1..] == parts[1..] + [[]];
    }
  }

  /** The `setCollection` round trip: the trailing separator produces one
      empty field, which `split` drops again. */
  lemma SplitJoinTerminated(parts: seq<string>, sep: char)
    requires |parts| >= 1
    requires forall k :: 0 <= k < |parts| ==> !Contains(parts[k], sep)
    requires parts[|parts| - 1] != []
    ensures Split(JoinTerminated(parts, sep), sep) == parts
  {
    var ext := parts + [[]];
    JoinTerminatedIsJoin(parts, sep);
    assert forall k :: 0 <= k < |ext| ==> !Contains(ext[k], sep) by {
      forall k | 0 <= k < |ext| ensures !Contains(ext[k], sep) {
        if k < |parts| { assert ext[k] == parts[k]; } else { assert ext[k] == []; }
      }
    }
    FieldsJoin(ext, sep);
    JoinContains(ext, sep);
    assert DropTrailingEmpty(ext) == DropTrailingEmpty(ext[..|ext| - 1]);
    assert ext[..|ext| - 1] == parts;
  }

  /** What `split` throws away is a run of separators at the end: the input
      is the joined result followed only by separators. */
  lemma SplitDropsOnlyTrailingSeparators(s: string, sep: char)
    ensures exists n: nat :: s == Join(Split(s, sep), sep) + Repeat(n, sep)
  {
    if Contains(s, sep) {
      var fs := Fields(s, sep);
      var r := Split(s, sep);
      JoinFields(s, sep);
      JoinDropTrailing(fs, sep);
    } else {
      assert s == Join(Split(s, sep), sep) + Repeat(0, sep);
    }
  }

  lemma {:induction false} JoinDropTrailing(parts: seq<string>, sep: char)
    requires |parts| >= 1
    ensures exists n: nat :: Join(parts, sep) == Join(DropTrailingEmpty(parts), sep) + Repeat(n, sep)
    decreases |parts|
  {
    if parts[|parts| - 1] == [] {
      var init := parts[..|parts| - 1];
      if |init| == 0 {
        assert Join(parts, sep) == [];
        assert DropTrailingEmpty(parts) == [];
        assert Join(parts, sep) == Join(DropTrailingEmpty(parts), sep) + Repeat(0, sep);
      } else {
        JoinDropTrailing(init, sep);
        var n: nat :| Join(init, sep) == Join(DropTrailingEmpty(init), sep) + Repeat(n, sep);
        JoinSnoc(init, [], sep);
        assert init + [[]] == parts;
        assert DropTrailingEmpty(parts) == DropTrailingEmpty(init);
        assert Repeat(n, sep) + [sep] + [] == Repeat(n + 1, sep);
        assert Join(parts, sep) == Join(DropTrailingEmpty(parts), sep) + Repeat(n + 1, sep);
      }
    } else {
      assert Join(parts, sep) == Join(DropTrailingEmpty(parts), sep) + Repeat(0, sep);
    }
  }

  lemma {:induction false} JoinSnoc(parts: seq<string>, last: string, sep: char)
    requires |parts| >= 1
    ensures Join(parts + [last], sep) == Join(parts, sep) + [sep] + last
    decreases |parts|
  {
    if |parts| == 1 {
      assert (parts + [last])[1..] == [last];
    } else {
      JoinSnoc(parts[1..], last, sep);
      assert (parts + [last])[1..] == parts[1..] + [last];
    }
  }

  /** A single field followed by the separator splits to that field alone:
      the trailing empty field is dropped. */
  lemma SplitTrailingSeparator(key: string, sep: char)
    requires key != [] && !Contains(key, sep)
    ensures Split(key + [sep], sep) == [key]
  {
    var text := key + [sep];
    assert text[|key|] == sep;
    assert Contains(text, sep);
    FieldsAppendFree(key, [sep], sep);
    assert [sep][1..] == [];
    assert Fields([sep], sep) == [[]] + Fields([], sep);
    assert Fields([], sep) == [[]];
    assert key + [] == key;
    assert Fields(text, sep) == [key, []];
    assert DropTrailingEmpty([key, []]) == DropTrailingEmpty([key]) by {
      assert [key, []][..1] == [key];
    }
  }
}

=== FILE: values.dfy ===
/** The typed accessors of `AbstractConfig` (both trees) turn the resolved
    text of a key into a value and back.  Each decoder here takes what `get`
    returned (`None` for null) and is shared by both trees; the configs
    supply the lookup and the write.
 */
module Values {
  import opened Wrappers
  import opened Text

  // ---------------------------------------------------------------------
  // long

  const LongMin: int := -0x8000_0000_0000_0000
  const LongMax: int := 0x7FFF_FFFF_FFFF_FFFF

  /** A value a Java `long` can hold. */
  predicate InLongRange(n: int) {
    LongMin <= n <= LongMax
  }

  predicate AllDigits(s: string) {
    forall k :: 0 <= k < |s| ==> IsDigit(s[k])
  }

  /** The number a run of decimal digits spells, most significant first. */
  function DigitsValue(ds: string): nat
    requires AllDigits(ds)
  {
    if ds == [] then 0
    else DigitsValue(ds[..|ds| - 1]) * 10 + DigitValue(ds[|ds| - 1])
  }

  /** The decimal digits of `n`, with no leading zero. */
  function Digits(n: nat): (ds: string)
    ensures |ds| >= 1 && AllDigits(ds)
  {
    if n < 10 then [('0' as int + n) as char]
    else Digits(n / 10) + [('0' as int + n % 10) as char]
  }

  /** `"" + l` for a `long`: `Long.toString`. */
  function FormatLong(n: int): string {
    if n < 0 then "-" + Digits(-n) else Digits(n)
  }

  /** `Long.valueOf(text)`: an optional sign, then one or more digits, whose
      value must fit in a `long`; anything else is a
      `NumberFormatException`. */
  function ParseLong(text: string): (r: Result<int, Fault>)
    ensures r.Success? ==> InLongRange(r.value)
    ensures r.Failure? ==> r.error == NumberFormat(text)
  {
    if |text| == 0 then Failure(NumberFormat(text))
    else
      var signed := text[0] == '-' || text[0] == '+';
      var body := if signed then text[1..] else text;
      if |body| == 0 || !AllDigits(body) then Failure(NumberFormat(text))
      else
        var v: int := DigitsValue(body);
        var n := if text[0] == '-' then -v else v;
        if InLongRange(n) then Success(n) else Failure(NumberFormat(text))
  }

  lemma {:induction false} DigitsValueOfDigits(n: nat)
    ensures DigitsValue(Digits(n)) == n
  {
    if n >= 10 {
      DigitsValueOfDigits(n / 10);
      var ds := Digits(n);
      assert ds[..|ds| - 1] == Digits(n / 10);
    }
  }

  /** `setLong` writes text that `getLong` reads back as the same number. */
  lemma ParseFormatLong(n: int)
    requires InLongRange(n)
    ensures ParseLong(FormatLong(n)) == Success(n)
  {
    if n < 0 {
      DigitsValueOfDigits(-n);
      ParseNegativeDigits(Digits(-n));
    } else {
      DigitsValueOfDigits(n);
      ParseDigits(Digits(n));
    }
  }

  /** Digits alone parse as their value when it fits a `long`. */
  lemma ParseDigits(ds: string)
    requires |ds| >= 1 && AllDigits(ds) && DigitsValue(ds) <= LongMax
    ensures ParseLong(ds) == Success(DigitsValue(ds))
  {
    assert IsDigit(ds[0]);
  }

  /** A minus sign and digits parse as the negated value when it fits a
      `long`. */
  lemma ParseNegativeDigits(ds: string)
    requires |ds| >= 1 && AllDigits(ds) && -(DigitsValue(ds) as int) >= LongMin
    ensures ParseLong("-" + ds) == Success(-(DigitsValue(ds) as int))
  {
    var text := "-" + ds;
    assert text[0] == '-';
    assert text[1..] == ds;
  }

  /** What `Long.valueOf` refuses: no digits, a sign alone, a stray
      character, an untrimmed text; a leading plus is accepted. */
  lemma ParseLongRejects()
    ensures ParseLong("").Failure?
    ensures ParseLong("-").Failure?
    ensures ParseLong("1a").Failure?
    ensures ParseLong(" 1").Failure?
    ensures ParseLong("+12") == Success(12)
  {
    assert !IsDigit('a');
    assert "1a"[1] == 'a';
    assert " 1"[0] == ' ';
    assert "+12"[1..] == "12";
    assert "12"[..1] == "1";
    assert DigitsValue("1") == 1 by { assert "1"[..0] == ""; }
  }

  /** `longValueOf(text, default)`: the default for null, otherwise the
      trimmed text parsed strictly (AbstractConfig.java:319-326). */
  function LongValueOf(text: Option<string>, default: Option<int>): (r: Result<Option<int>, Fault>)
    ensures text.None? ==> r == Success(default)
    ensures text.Some? && r.Success? ==> r.value.Some? && InLongRange(r.value.value)
  {
    match text
    case None => Success(default)
    case Some(t) =>
      match ParseLong(Trim(t))
      case Success(n) => Success(Some(n))
      case Failure(f) => Failure(f)
  }

  /** A present value is read as a number, never replaced by the default,
      and surrounding blanks are ignored. */
  lemma LongValueOfPresent(t: string, n: int, default: Option<int>)
    requires InLongRange(n)
    requires Trim(t) == FormatLong(n)
    ensures LongValueOf(Some(t), default) == Success(Some(n))
  {
    ParseFormatLong(n);
  }

  // ---------------------------------------------------------------------
  // boolean

  /** `Boolean.toString(b)`. */
  function BoolText(b: bool): string {
    if b then "true" else "false"
  }

  function LowerAscii(c: char): char {
    if 'A' <= c <= 'Z' then (c as int + 32) as char else c
  }

  /** `"true".equalsIgnoreCase(s)`: no character other than an ASCII letter
      folds onto one of the letters of `true`. */
  predicate IsTrueIgnoringCase(s: string) {
    |s| == 4 && LowerAscii(s[0]) == 't' && LowerAscii(s[1]) == 'r'
      && LowerAscii(s[2]) == 'u' && LowerAscii(s[3]) == 'e'
  }

  /** `getBoolean(key)`: null when absent, else `Boolean.valueOf(trim)`. */
  function BooleanOrNull(value: Option<string>): (r: Option<bool>)
    ensures r.None? <==> value.None?
    ensures value.Some? ==> r == Some(LenientBoolean(value, false)) && r == Some(LenientBoolean(value, true))
    ensures StrictBoolean(value, None).Some? ==> r == StrictBoolean(value, None)
  {
    match value
    case None => None
    case Some(s) => Some(IsTrueIgnoringCase(Trim(s)))
  }

  /** `getBoolean(key, Boolean default)`: only the trimmed texts `true` and
      `false`, in that case, are booleans; anything else, and absence, give
      the default (AbstractConfig.java:220-224). */
  function StrictBoolean(value: Option<string>, default: Option<bool>): (r: Option<bool>)
    ensures value.None? ==> r == default
    ensures r != default ==> value.Some? && Trim(value.value) in {"true", "false"}
    ensures value.Some? && Trim(value.value) in {"true", "false"} ==> r == Some(LenientBoolean(value, false))
  {
    match value
    case None => default
    case Some(s) =>
      var t := Trim(s);
      if t == "true" then Some(true) else if t == "false" then Some(false) else default
  }

  /** `getBoolean(key, boolean default)`: the default only when the key is
      absent; any present text is `parseBoolean(trim)`, so junk reads as
      false (AbstractConfig.java:226-230). */
  function LenientBoolean(value: Option<string>, default: bool): (r: bool)
    ensures value.None? ==> r == default
    ensures value.Some? && Trim(value.value) == "true" ==> r
    ensures value.Some? && |Trim(value.value)| != 4 ==> !r
    ensures value.Some? ==> (r <==> IsTrueIgnoringCase(Trim(value.value)))
  {
    match value
    case None => default
    case Some(s) => IsTrueIgnoringCase(Trim(s))
  }

  /** `Boolean.toString` writes no blank at either end. */
  lemma BoolTextIsTrimmed(b: bool)
    ensures Trim(BoolText(b)) == BoolText(b)
  {
    var t := BoolText(b);
    assert t[0] == if b then 't' else 'f';
    assert t[|t| - 1] == 'e';
    TrimOfTrimmed(t);
  }

  /** What `setBoolean` writes, every reader gives back. */
  lemma BooleanRoundTrip(b: bool, strictDefault: Option<bool>, lenientDefault: bool)
    ensures StrictBoolean(Some(BoolText(b)), strictDefault) == Some(b)
    ensures LenientBoolean(Some(BoolText(b)), lenientDefault) == b
    ensures BooleanOrNull(Some(BoolText(b))) == Some(b)
  {
    BoolTextIsTrimmed(b);
    var t := BoolText(b);
    if b {
      assert t == "true";
      assert IsTrueIgnoringCase(t);
    } else {
      assert t == "false";
      assert |t| == 5;
      assert !IsTrueIgnoringCase(t);
    }
  }

  /** A case variant of `true` other than `true` itself, such as `TRUE`,
      is true for the lenient reader but gives the default of the strict
      one. */
  lemma StrictAndLenientDiffer(s: string, strictDefault: Option<bool>, lenientDefault: bool)
    requires IsTrueIgnoringCase(s) && s != "true"
    ensures StrictBoolean(Some(s), strictDefault) == strictDefault
    ensures LenientBoolean(Some(s), lenientDefault)
  {
    assert !IsTrimmed(s[0]) && !IsTrimmed(s[3]);
    TrimOfTrimmed(s);
    assert |s| != |"false"|;
  }

  // ---------------------------------------------------------------------
  // arrays and collections

  /** The text `setArray` writes: the elements joined by the separator with
      none after the last; `None` when that text is empty, in which case
      nothing is written (AbstractConfig.java:440-455). */
  function ArrayText(arr: seq<string>, sep: char): (r: Option<string>)
    ensures r.None? <==> |arr| == 0 || (|arr| == 1 && arr[0] == [])
    ensures r.Some? ==> r.value == Join(arr, sep)
    ensures r.Some? && (forall k :: 0 <= k < |arr| ==> !Contains(arr[k], sep)) ==>
              (Contains(r.value, sep) <==> |arr| >= 2)
  {
    JoinSeparatesFreeParts(arr, sep);
    var text := Join(arr, sep);
    if |text| < 1 then None else Some(text)
  }

  /** Joining parts free of the separator puts one between parts only. */
  lemma JoinSeparatesFreeParts(arr: seq<string>, sep: char)
    ensures (forall k :: 0 <= k < |arr| ==> !Contains(arr[k], sep)) ==> (Contains(Join(arr, sep), sep) <==> |arr| >= 2)
  {
    if forall k :: 0 <= k < |arr| ==> !Contains(arr[k], sep) {
      JoinContains(arr, sep);
    }
  }

  /** The text `setCollection` writes: a separator after every element,
      the last included; `None` for an empty collection
      (AbstractConfig.java:484-497). */
  function CollectionText(items: seq<string>, sep: char): (r: Option<string>)
    ensures r.None? <==> items == []
    ensures r.Some? ==> r.value == JoinTerminated(items, sep)
  {
    var text := JoinTerminated(items, sep);
    if |text| < 1 then None
    else Some(text)
  }

  /** `getArray(key, sep)`: null when absent, else the split. */
  function ArrayOrNull(value: Option<string>, sep: char): (r: Option<seq<string>>)
    ensures r.None? <==> value.None?
  {
    match value
    case None => None
    case Some(s) => Some(Split(s, sep))
  }

  /** `getArray(key, default, sep)` and `getCollection(key, default)`: the
      default when absent or empty, else the split
      (AbstractConfig.java:473-477). */
  function ArrayOr(value: Option<string>, default: Option<seq<string>>, sep: char): (r: Option<seq<string>>)
    ensures value.None? || value.value == [] ==> r == default
    ensures value.Some? && value.value != [] ==> r == ArrayOrNull(value, sep)
    ensures value.Some? && value.value != [] ==> forall k :: 0 <= k < |r.value| ==> !Contains(r.value[k], sep)
    ensures value.Some? && value.value != [] && !Contains(value.value, sep) ==> r == Some([value.value])
  {
    if value.None? || |value.value| < 1 then default else Some(Split(value.value, sep))
  }

  /** The elements `setArray` stored are what `getArray` reads, when none
      holds the separator and the last is not empty. */
  lemma ArrayRoundTrip(arr: seq<string>, sep: char, default: Option<seq<string>>)
    requires |arr| >= 1 && arr[|arr| - 1] != [] && IsLiteralInPattern(sep)
    requires forall k :: 0 <= k < |arr| ==> !Contains(arr[k], sep)
    ensures ArrayText(arr, sep).Some?
    ensures ArrayOr(ArrayText(arr, sep), default, sep) == Some(arr)
  {
    SplitJoin(arr, sep);
    if Join(arr, sep) == [] {
      JoinNonEmpty(arr, sep);
    }
  }

  lemma JoinNonEmpty(arr: seq<string>, sep: char)
    requires |arr| >= 1 && arr[|arr| - 1] != []
    ensures Join(arr, sep) != []
  {
    if |arr| > 1 {
      JoinNonEmpty(arr[1..], sep);
    }
  }

  /** A collection stored with its trailing separator reads back as the
      same elements: the split drops the final empty field. */
  lemma CollectionRoundTrip(items: seq<string>, sep: char, default: Option<seq<string>>)
    requires |items| >= 1 && items[|items| - 1] != [] && IsLiteralInPattern(sep)
    requires forall k :: 0 <= k < |items| ==> !Contains(items[k], sep)
    ensures ArrayOr(CollectionText(items, sep), default, sep) == Some(items)
  {
    SplitJoinTerminated(items, sep);
  }

  /** An array of empty elements writes nothing. */
  lemma EmptyJoinWritesNothing()
    ensures ArrayText([], ',') == None
    ensures ArrayText([""], ',') == None
    ensures ArrayText(["", ""], ',') == Some(",")
  {
    assert ["", ""][1..] == [""];
    assert Join(["", ""], ',') == "" + [','] + Join([""], ',');
    assert Join([""], ',') == "";
    assert "" + [','] + "" == ",";
  }

  // ---------------------------------------------------------------------
  // time

  /** The text step of `parseTime`: null or empty text is no time; a text
      longer than three characters without `:` is a date only and gets
      `" 00:00:00"` appended before the pattern parses it
      (AbstractConfig.java:419-424). */
  function NormaliseTime(value: Option<string>): (r: Option<string>)
    ensures value.None? || value.value == [] <==> r.None?
    ensures r.Some? ==> StartsWith(r.value, value.value)
    ensures r.Some? ==> |r.value| == |value.value| || |r.value| == |value.value| + 9
    ensures r.Some? && |r.value| != |value.value| ==>
              Utf16Length(value.value) > 3 && !Contains(value.value, ':') && r.value[|value.value|..] == " 00:00:00"
    ensures r.Some? ==> Utf16Length(r.value) <= 3 || Contains(r.value, ':')
  {
    match value
    case None => None
    case Some(s) =>
      if s == [] then None
      else if Utf16Length(s) > 3 && !Contains(s, ':') then
        var t := s + " 00:00:00";
        assert t[..|s|] == s && t[|s|..] == " 00:00:00";
        assert t[|s| + 3] == ':';
        Some(t)
      else Some(s)
  }

  /** Normalising twice changes nothing more: the appended time part holds
      a `:`. */
  lemma NormaliseTimeIdempotent(value: Option<string>)
    ensures NormaliseTime(NormaliseTime(value)) == NormaliseTime(value)
  {
    var r := NormaliseTime(value);
    if r.Some? {
      var s := value.value;
      if Utf16Length(s) > 3 && !Contains(s, ':') {
        assert r.value == s + " 00:00:00";
        assert r.value[|s| + 3] == ':';
        assert Contains(r.value, ':');
      } else {
        assert r.value == s;
      }
    }
  }
}

=== FILE: wrappers.dfy ===
/** Absence and failure, as the configuration library reports them.

    Java's `null` becomes `Option.None`; a thrown exception becomes
    `Result.Failure` carrying a `Fault` that names the exception class.
 */
module Wrappers {

  /** A value that may be missing (a Java reference that may be null). */
  datatype Option<+T> = None | Some(value: T) {

    /** The value, or `default` when it is missing. */
    function GetOr(default: T): T {
      match this
      case Some(v) => v
      case None => default
    }
  }

  /** The outcome of a call that may throw. */
  datatype Result<+R, +E> = Success(value: R) | Failure(error: E)

  /** The exceptions the modelled code raises. */
  datatype Fault =
    | NullReference                         // NullPointerException
    | ReadOnly                              // UnsupportedOperationException("Read only")
    | DuplicateNames(names: set<string>)    // UnsupportedOperationException("Property '..' is duplicated")
    | NumberFormat(text: string)            // NumberFormatException
    | ClassCast                             // ClassCastException
    | IllegalReplacement                    // IllegalArgumentException from Matcher.appendReplacement
    | NoSuchGroup(group: nat)               // IndexOutOfBoundsException from Matcher.appendReplacement
    | PatternSyntax                         // PatternSyntaxException from String.split
}
